=== FILE: README.md ===
# SLPDB synchroniser core, modelled in Dafny

SLPDB indexes Simple Ledger Protocol (SLP) token transactions on Bitcoin
Cash. Its synchroniser (`bit.ts`) decides which transactions are SLP
transactions and tracks the unconfirmed ones in an in-memory mempool. It
detects double spends and crawls confirmed blocks, ordering each block's SLP
transactions so that parents come before children. It also checks for chain
reorganisations and rolls them back before catching up block by block. The
status record (`status.ts`) tracks the process lifecycle and the exit
history.

The project models these pieces as pure functions over immutable maps, sets
and sequences, one module per component:

| file | module | models |
|---|---|---|
| types.dfy | `Types` | `Option`, `Result`, identifiers, outpoints, facts about duplicate-free sequences |
| filter.dfy | `SlpFilter` | `applySlpTxnFilter`: the lokad-id search, parse, GENESIS re-keying and token-id rules |
| toposort.dfy | `TopoSort` | `topologicalSort` / `topologicalSortInternal`: the depth-first post-order dependency sort |
| mempool.dfy | `Mempool` | `handleMempoolTransaction`, `removeExtraneousMempoolTxns` and `removeReorgTransactionsAtHeight` |
| crawl.dfy | `Crawl` | `crawlBlock`'s bookkeeping: spent outpoints, input claims, sorting, persistence, the burn scan and the commit |
| reorg.dfy | `Reorg` | `checkForBlockReorg`: the two-phase rollback |
| sync.dfy | `Sync` | `sync` (block and mempool branches), the block-hash dedupe of `listenToZmq`, `handleRawTransaction` |
| status.dfy | `Status` | `SlpdbStatus`: lifecycle transitions, the exit-trace history, trace serialisation, git version lookup |

The node RPC, the database, the token-graph manager, the transaction
deserialiser, the SLP script parser and the token filter rules are not
modelled as code. They appear as oracles: fields of function type in the
`Parser`, `Graphs`, `Chain` and `Node` datatypes, and a file-reading function
for the git metadata. Store writes are returned as lists of effect values in
the order the source issues them. A call that throws becomes a `Failure`, or
an oracle answer of `None`. When an operation throws part-way, the model
keeps the effects it issued before the throw.

Three places where the code does less than its own comments suggest; the
model follows the code in all three:
- A double-spent transaction is not removed from the tracked mempool. The
  line that would do it is commented out (bit.ts:170), although the loser is
  deleted from the store.
- A clean exit never records the `EXITED_NORMAL` state, which the state's
  comment (status.ts:229) describes as the clean-shutdown state (see
  Findings).
- The reorg check's second phase is commented (bit.ts:812) as making sure
  the checkpoint's hash matches the node's. After the first phase rolls
  back, though, it compares the node's hash with the hash that phase just
  wrote, so it never rolls back further (see Findings).

## Model

| member | source | states |
|---|---|---|
| SlpFilter.ContainsLokadId | bit.ts:85-86 | true exactly when the four lokad-id bytes `534c5000` occur at some offset of the raw transaction |
| SlpFilter.ApplySlpTxnFilter | bit.ts:83-110 | accepts exactly the relevant transactions: the marker occurs, the first output's script parses, and the token id (the transaction's own hash for GENESIS) is absent, empty, or passes the filter rules. An accepted match carries the transaction's hash; non-GENESIS messages are returned as parsed |
| SlpFilter.ShortInputNeverMatches | bit.ts:85-93 | bytes shorter than the marker are rejected whatever the parser and the rules would say |
| SlpFilter.MarkerPrefixDefersToParser | bit.ts:94-109 | once the marker is present, acceptance is decided exactly by the parser and the token rules |
| TopoSort.Visit | bit.ts:557-579 | one DFS call marks the node visited, leaves the old stack as a prefix, pushes the node last, pushes only newly visited batch members and never pushes anything twice |
| TopoSort.VisitParents | bit.ts:566-577 | after the input loop every parent that belongs to the batch is visited; the stack only grows, by newly visited nodes |
| TopoSort.SortFrom | bit.ts:545-554 | after the outer loop every member of the iteration order is visited, and the visited set equals the set of pushed txids |
| TopoSort.TopologicalSort | bit.ts:539-555 | the sorted stack has no duplicates, holds exactly the batch's txids and has the batch's size, even for a cyclic batch, so the callers' "count is incorrect" check cannot fire |
| TopoSort.VisitOrdered | bit.ts:565-578 | a visit keeps the stack topologically ordered, provided every node on the current DFS path ranks above the visited node |
| TopoSort.ParentsPrecedeChildren | bit.ts:539-579 | for an acyclic batch (a rank that decreases along every in-batch spend), every in-batch parent appears before each child spending from it |
| Mempool.ClaimInputs | bit.ts:201-206 | every indexed input outpoint (coinbase placeholders skipped on the mempool path) is claimed by the new transaction; every other claim is kept; no other outpoint gains a claim |
| Mempool.DetectDoubleSpends | bit.ts:162-196 | only the token map and the double-spend records change. Every previous claimant of a contested outpoint is dropped from the token map and deleted from both stores. Each contested outpoint gets a record (previous claimant, newcomer); other records are kept. Every loser the token map did not hold is queued for the graph scan, and only losers are queued. With no contested input nothing happens |
| Mempool.SelfClaimIsNotDoubleSpend | bit.ts:164-168 | re-spending outpoints the transaction already claims records nothing, drops nothing and issues no effect |
| Mempool.HandleMempoolTransaction | bit.ts:143-212 | an already tracked txid answers `{isSlp: true, added: false}`. An ignored txid, or an unfetchable transaction, answers `{false, false}`; in these three cases nothing changes. A transaction is added exactly when it is new, fetchable and passes the filter. Acceptance tracks the bytes and claims every non-coinbase input for the txid while keeping other claims. Rejection adds the txid to the ignore set and leaves the tracked mempool and the claims alone. Double spends are recorded either way. The store calls open with the double-spend pass's deletes of every loser; at most one graph scan of losers follows, issued whenever a loser was not a token |
| Mempool.HandleIsIdempotent | bit.ts:144-146 | a second notification of an accepted transaction answers `{true, false}` and changes nothing |
| Mempool.RejectedStaysIgnored | bit.ts:147-210 | after a rejection every later notification of the txid answers `{false, false}` and changes nothing |
| Mempool.DoubleSpendReplacesClaim | bit.ts:164-206 | when X claims (Y, 0) and a relevant Z spends it too: Z is added and now owns the outpoint, and the record for (Y, 0) names X as original and Z as current. X is deleted from the unconfirmed store but stays in the tracked mempool |
| Mempool.Extraneous | bit.ts:645-651 | the collected txids are duplicate-free and are exactly the store's txids that the node no longer lists |
| Mempool.RemoveExtraneousMempoolTxns | bit.ts:642-654 | the tracked mempool loses exactly the store's txids that the node no longer lists and keeps every other entry's bytes. Exactly those txids are passed, once each, to a single unconfirmed-store delete. Nothing else changes |
| Mempool.ReconcileKeepsListedAndUnstored | bit.ts:646-650 | a tracked txid survives reconciliation when the node still lists it or the unconfirmed store does not hold it |
| Mempool.RemoveFirst | bit.ts:847-863 | one reorged record leaves the tracked mempool and the ignore set. Without a held token graph the run throws and touches nothing else. Otherwise its inputs are released and its graph is dropped only when it became empty |
| Mempool.RemoveRecords | bit.ts:846-864 | a run that does not throw removes every record's txid from the tracked mempool and the ignore set and every input it spends from the claim index. Graphs are only ever dropped and double-spend records are untouched. When every graph is held and none empties, the run does not throw and keeps every graph |
| Mempool.RemoveReorgTransactionsAtHeight | bit.ts:844-866 | after a run that does not throw, no record's txid is tracked or ignored, no spent input stays claimed, and every other tracked, ignored and claimed entry is kept. The height's bulk delete is the last effect. A throw skips the bulk delete. Thrown or not, graphs are only dropped and double-spend records are untouched |
| Crawl.BlockSpentOutpoints | bit.ts:279-285 | the spent-outpoint list has one entry per input of every block transaction, SLP or not. It lists every input with its spending transaction and nothing else |
| Crawl.SlpBatch | bit.ts:286-291 | the block cache holds exactly the hashes of the block's SLP transactions |
| Crawl.ClaimTx | bit.ts:292-296 | an SLP transaction claims every one of its inputs, coinbase included, for itself at the block height; any claim that changed was made that way |
| Crawl.ClaimSlpInputs | bit.ts:279-298 | every changed claim was made at the block height by an SLP transaction of the block, for one of its own inputs |
| Crawl.ClaimSlpInputsCovers | bit.ts:292-296 | after the block, every input of every SLP transaction is claimed at the block height |
| Crawl.LaterClaimsKeepHeight | bit.ts:294 | a later transaction in the same block can take over a claim but not change its height |
| Crawl.SortedSlp | bit.ts:300-304 | the sorted stack holds each SLP txid of the block exactly once, so its length matches the cache size |
| Crawl.SortedSlpRespectsDependencies | bit.ts:300-304 | for an acyclic block, each same-block SLP parent is sorted before its child |
| Crawl.ValidateSorted | bit.ts:307-329 | the modified set gains exactly the tokens of the valid transactions with a non-empty token id. Records with a non-empty token id are persisted in sorted order |
| Crawl.BurnScan | bit.ts:331-342 | afterwards no spent outpoint remains in the UTXO index and every other entry is unchanged. A token is marked modified exactly when a first mention of one of its outpoints makes the graph report an update |
| Crawl.CrawlBlock | bit.ts:266-353 | the count check never fires; the sorted stack is the block's SLP txids in dependency order. Every input is recorded as spent, and every SLP input is claimed at the height. No claim is dropped, and a claim that changed is an input of one of the block's SLP transactions. The UTXO index loses exactly the spent outpoints. Records are persisted in sorted order. The run ends with one commit of every token that has a graph and was modified before the crawl, by a valid record, or by a burn the graph reported. The modified set is left empty |
| Crawl.BurnEffectsPersistNothing | bit.ts:331-350 | the burn scan and the commit persist no transaction records |
| Reorg.FindActual | bit.ts:778-804 | the first phase ends in one of three ways. It can find a node hash at a height above the floor; when it rolled back to get there, the node lacks the height just above. It can return the floor checkpoint `{from, null, true}`. Or it can fail, with the missing-hash error or because a rollback threw |
| Reorg.FindActualDescends | bit.ts:778-804 | the first phase rolls back a contiguous descending run of heights from the checkpoint, all above the floor, and only heights the node has no hash for |
| Reorg.FindActualFound | bit.ts:788-797 | a found height is the start less the heights rolled back, within the hundred-step ceiling. A rollback sets the reorg flag and ends with the found hash written as the checkpoint |
| Reorg.FindActualGivesUp | bit.ts:787-803 | the first phase's missing-hash error comes only after exactly one more than a hundred rollbacks. A failed rollback is the last height it rolled back |
| Reorg.MatchStored | bit.ts:813-837 | the second phase settles, at or below its start, on a height above the floor whose node hash equals the stored hash read for it, or on the floor checkpoint. At the start height that is the hash read before the loop; below it, the hash re-read after each rollback. It never reports the first phase's missing-hash error |
| Reorg.MatchStoredDescends | bit.ts:818-831 | the second phase rolls back a contiguous descending run of heights, all above the floor, and only heights whose stored hash disagreed with the node's |
| Reorg.MatchStoredSettles | bit.ts:818-834 | a settled height is the start less the heights rolled back. A rollback sets the reorg flag and ends with the matching hash written as the checkpoint |
| Reorg.MatchStoredGivesUp | bit.ts:819-830 | the mismatch error comes exactly after a hundred and one rollbacks. The node-call error comes when the node lacks the height just reached. A failed rollback is the last height rolled back |
| Reorg.MatchStoredBounded | bit.ts:828-830 | a second phase that succeeds rolled back at most a hundred heights |
| Reorg.MatchStoredShape | bit.ts:813-837 | a whole second phase rolls back a contiguous descending run from its start, at most a hundred heights when it succeeds. A failed rollback is its last height rolled back |
| Reorg.RunCheck | bit.ts:771-842 | a returned hash is the node's hash at the returned height, above the floor. It agrees with the stored hash when there is one, except, as written, at a height the first phase rolled back onto. A returned null hash is the floor checkpoint |
| Reorg.CheckForBlockReorg | bit.ts:771-842 | as written: a returned hash is the node's hash at the returned height, above the floor. It agrees with the stored hash, or the stored hash is absent, or the node lacks the height above (the first phase rolled back onto it). A returned null hash is the floor checkpoint |
| Reorg.CheckForBlockReorgIntended | bit.ts:771-842 | corrected: a returned hash is the node's hash at the returned height, above the floor, and agrees with the hash stored before the check whenever one was stored |
| Reorg.CheckRollsBackContiguously | bit.ts:778-837 | as written and corrected: the heights rolled back by both phases form one contiguous descending run from the checkpoint, above the floor. A successful check rolls back at most two hundred heights over both phases (the per-phase bounds are `Reorg.FindActualGivesUp` and `Reorg.MatchStoredBounded`). A failed rollback is the last height rolled back |
| Reorg.CheckReportsReorg | bit.ts:795-841 | as written and corrected: a successful check that keeps a hash returns the checkpoint less the heights rolled back. It reports a reorg exactly when it rolled something back, and then ends by writing the returned checkpoint; otherwise it issues nothing |
| Reorg.AtFloorTouchesNothing | bit.ts:798-799 | a checkpoint at or below the start height yields `{from, null, true}` with no store call |
| Reorg.AgreeingHashesKeepCheckpoint | bit.ts:778-841 | when the node knows the checkpoint height and the stored hash is absent or agrees, the checkpoint is returned unchanged with no store call |
| Reorg.OneOrphanRollsBackOne | bit.ts:815-841 | one orphaned block rolls back exactly its height and writes the previous height's hash as the checkpoint |
| Reorg.FailingRollbackStops | bit.ts:785-787 | a rollback that throws (the missing token graph at bit.ts:851-852) ends the check at once, with that rollback as the last store call |
| Reorg.MissingRunThrows | bit.ts:778-804 | a run of missing node hashes longer than the remaining rollback budget, above the floor and with every rollback going through, makes the first phase throw |
| Reorg.LongMissingRunThrows | bit.ts:801-803 | a hundred and one missing hashes below the checkpoint, above the floor and with every rollback going through, make the check throw the missing-hash error |
| Reorg.TipDropSkipsComparison | bit.ts:785-841 | as written: one missing height rolled back, then the height below is kept with the node's hash whatever the indexer stored for it |
| Reorg.TipDropExampleKeepsStaleHash | bit.ts:785-841 | a dropped height 10 and a stored hash `b` at 9 where the node has `a`: as written the check returns `{9, a, true}`, corrected it returns `{8, c, true}` |
| Sync.BlockEffects | bit.ts:706-711 | crawling a height ends by checkpointing that height with its hash. The hash a hundred heights below is deleted exactly when that height is positive |
| Sync.LoopStop | bit.ts:669-700 | the loop stops without effects, and it completes exactly when the next height is above the last tip read. The shutdown flag answers null. A failed hash fetch or crawl answers null to a push-triggered run and is rethrown, with its height, by a polling run |
| Sync.BlockLoopHalts | bit.ts:669-700 | a loop that returns early does so at the first height that does not go on, with the answer `Sync.LoopStop` gives for that height's stop cause |
| Sync.BlockLoop | bit.ts:669-714 | a completed loop has caught up with the last tip it read. A push-triggered run never throws and ends early only with null. Otherwise the only errors are a block-hash fetch failure and a crawl failure |
| Sync.BlockLoopAscends | bit.ts:669-714 | the loop checkpoints heights one by one, upward and without gaps from the checkpoint plus one |
| Sync.BlockLoopCheckpointsKnown | bit.ts:684-711 | every checkpoint written is the node's hash for a height above the starting checkpoint |
| Sync.BlockLoopCounts | bit.ts:669-714 | a completed loop has checkpointed exactly the heights it counts as crawled |
| Sync.SyncBlocks | bit.ts:658-728 | with the reorg check as written or corrected: the ignore list only grows. A non-null answer is the empty map, and comes only when the checkpoint plus the blocks crawled equals the tip last read. A push-triggered run throws only for an unknown block or a failing reorg check; a polling run only for a fetch or crawl failure |
| Sync.SyncBlocksCaughtUp | bit.ts:662-728 | a sync, push-triggered or polling, answers with the empty map exactly when the pushed block is known and its reorg check succeeds (if a block was pushed), the loop completed, and the new checkpoint equals the last tip read. The checkpoints written are the heights above the old checkpoint, in order, one per crawled block |
| Sync.PushedSyncReconciles | bit.ts:718-722 | a push-triggered sync that completes ends by reconciling the mempool and does not throw |
| Sync.OnBlockHash | bit.ts:585-595 | a notified hash joins the ignore list and starts a sync exactly when it was not already there |
| Sync.SecondNotificationIsDropped | bit.ts:589-593 | notifying the same block twice starts at most one sync |
| Sync.CrawledBlockNotificationIsDropped | bit.ts:709-711 | a block the catch-up loop checkpointed is the node's block at that height, and its later notification starts no sync |
| Sync.SyncMempool | bit.ts:729-766 | a missing txid throws. Missing hex throws exactly for an untracked, unignored txid whose bytes are absent or empty (`!txhex`). A tracked transaction is stored from the tracked bytes. An ignored one is skipped with an empty map. Supplied non-empty bytes are stored exactly when the filter accepts them and the insert succeeds. A duplicate key is swallowed, other insert errors rethrow, and the answer maps at most the txid |
| Sync.HandleRawTransaction | bit.ts:621-640 | the mempool handler runs under the supplied txid, or the transaction's own hash. The mempool sync runs exactly when the handler added the transaction; it never asks for hex and stores exactly the notified bytes when the insert succeeds |
| Status.ShowTrace | status.ts:117-127 | a string trace is written as is, another value through its `toString`, and a throwing `toString` as "Unknown stack trace." |
| Status.DboTraces | status.ts:117-127 | the written history has the same length as the history and is written entry by entry |
| Status.TextTracesPassThrough | status.ts:117-119 | a history of strings is written unchanged |
| Status.ToDbo | status.ts:109-127 | the document carries the state, the network and one written trace per history entry |
| Status.Trim | status.ts:200 | `trim` removes only white space from both ends and leaves no white space at either end |
| Status.From | status.ts:202 | `substring(5)` drops the first five characters, or gives the empty string for a shorter string |
| Status.ReadVersion | status.ts:196-220 | for either metadata directory (`.git/` for the version, `._git/` for the deployed version): an unreadable HEAD gives null. A HEAD without a colon gives its trimmed contents. Otherwise the file named by the trimmed HEAD less its first five characters is read from the same directory and trimmed, or null when unreadable |
| Status.RefHeadReadsNamedRef | status.ts:199-203 | a HEAD of the form `ref: <name>` makes the version the trimmed contents of the named ref file |
| Status.DetachedHeadIsVersion | status.ts:199-200 | a detached HEAD holding a commit hash is the version itself |
| Status.NewStatus | status.ts:36-42 | the constructor starts in `PRE_STARTUP` with an empty history and the two version hashes read from the metadata |
| Status.ChangeStateToStartupBlockSync | status.ts:68-73 | sets `STARTUP_BLOCK_SYNC` and the network, changes nothing else, and saves |
| Status.ChangeStateToStartupSlpProcessing | status.ts:75-79 | sets `STARTUP_TOKEN_PROCESSING`, changes nothing else, and saves |
| Status.ChangeStateToRunning | status.ts:81-85 | sets `RUNNING`, changes nothing else, and saves |
| Status.PushTrace | status.ts:89-91 | the new trace comes first. The older entries follow, less the oldest one when the history grows past five |
| Status.PushTraceBounded | status.ts:89-91 | a history of at most five stays at most five, and the older traces keep their order |
| Status.PushTraceKeepsOverlongLength | status.ts:89-91 | a loaded history longer than five is not cut back to five; it keeps its length |
| Status.ChangeStateToExitOnError | status.ts:87-93 | sets `EXITED_ON_ERROR` and puts the trace first in the capped history. Nothing else changes, and the saved document's newest trace is the message |
| Status.LoadPreviousAttributes | status.ts:189-194 | a stored document replaces the history; without one the status is unchanged |
| Status.LogExitReason | status.ts:100-107 | as written: a non-empty message is an error exit; an empty one saves the status without changing it |
| Status.CleanExitStaysRunning | status.ts:103-105 | as written, a clean exit of a running indexer is saved as `RUNNING` |
| Status.Step | status.ts:68-107 | as written, no event leads into `EXITED_NORMAL` from another state. With the intended `logExitReason`, an exit event leads there exactly when its message is empty |
| Status.RunKeepsVersions | status.ts:36-107 | no sequence of lifecycle events changes the version hashes read by the constructor, and without a block-sync transition the network stays as it was |
| Status.ExitedNormalUnreachable | status.ts:100-107 | as written, no sequence of lifecycle events from the constructor reaches `EXITED_NORMAL` |
| Status.LogExitReasonIntended | status.ts:100-107 | corrected: an empty message records `EXITED_NORMAL` in the status and in the saved document; a non-empty one is the error exit; the history is as written |
| Status.IntendedExitIsRecorded | status.ts:100-107 | corrected: every exit is recorded as an exit state, and it is `EXITED_NORMAL` exactly when the message is empty |
| Status.CleanExitReachable | status.ts:223-230 | corrected: the start-up phases, running, and an exit without a message end in `EXITED_NORMAL` |

## Left out

- The ZeroMQ and gRPC notification wiring, the `pQueue` work queue and the callbacks to the graph manager (bit.ts:581-619, 596-601, 629-634) are left out. Only the block-hash dedupe is modelled, in `Sync.OnBlockHash`, and notifications are processed one at a time as the queue's concurrency of one implies.
- RPC, database and `Info` calls are oracles or returned effects. Whether a write succeeds is not modelled, except for the unconfirmed insert's outcome in `Sync.SyncMempool`.
- The transaction deserialiser, the txid hash (bit.ts:623), the SLP script parser and the token filter rules are foreign libraries. They are fields of `SlpFilter.Parser`.
- SlpFilter.ApplySlpTxnFilter: the hex-string argument (bit.ts:88-90) is searched for the marker as bytes. The source searches the hex text, which could also match at an odd digit offset. The parse that follows decides such a transaction anyway.
- `setSlpProp` (bit.ts:439-537) and the token-graph internals (`addGraphTransaction`, `markInvalidSlpOutputAsBurned`, `removeGraphTransaction`, `scanDoubleSpendTxids`, `commitToDb`) are answers of the `Crawl.Graphs` oracle or recorded effects.
- `crawl` (bit.ts:355-437), `syncSlpMempool` (bit.ts:215-264), `waitForFullNodeSync`, `processBlocksForSLP` and `processCurrentMempoolForSLP` are left out. The block sync does not call `crawl`, and the others are start-up drivers.
- The `PruneStack` step of the block loop (bit.ts:674-681) is left out: its internals are not part of this model. It only adds token ids to the modified set, which `Crawl.CrawlBlock` takes as its starting value.
- Mempool.HandleMempoolTransaction: the ignore list is a bounded `CacheSet` whose eviction is not part of this model. The model keeps every ignored txid, so a very old ignored txid is treated as still ignored.
- Mempool.ClaimInputs: the spent-outpoint cache is a `CacheMap` of a hundred thousand entries (bit.ts:62) whose eviction is not part of this model. The model's claim map is unbounded, so "every other claim is kept" holds only while the cache has not evicted it.
- Mempool.HandleMempoolTransaction: other claims are kept only while the hundred-thousand-entry spent-outpoint cache (bit.ts:62) has not evicted them; eviction is not modelled, and a double spend against an evicted claim goes undetected in the source.
- Crawl.CrawlBlock: "no claim is dropped" holds only while the hundred-thousand-entry spent-outpoint cache (bit.ts:62) has not evicted the claim. Eviction is not modelled.
- Mempool.RemoveReorgTransactionsAtHeight: "other claims survive" holds only while the hundred-thousand-entry spent-outpoint cache (bit.ts:62) has not evicted them. Eviction is not modelled.
- Mempool.DetectDoubleSpends: the double-spend record cache holds twenty entries and evicts the oldest. The model keeps every record and omits the wall-clock time and the copy into the status history.
- Sync.CrawledBlockNotificationIsDropped: holds while the hundred-entry block-hash ignore list has not evicted the block's hash. Eviction is not modelled.
- Crawl.CrawlBlock: when a spent outpoint's token has no graph, the source dereferences a missing graph. The model takes the oracle's answer instead of throwing. A crawl that fails part-way is modelled only as a failed height in `Sync.BlockLoop`, without its partial writes.
- Reorg.CheckForBlockReorg: `Info` is not part of this model. `updateBlockCheckpoint` is taken to record the hash of its height, the one `getCheckpointHash` returns, as the block loop's use of it (bit.ts:706-711) shows. Only the first phase's final write is read back, because the second phase reads no height above it. Whether a rollback throws is the `rollbackFails` oracle, standing in for the records and token graphs `removeReorgTransactionsAtHeight` consults. Hashes are non-empty strings, as the source's truthiness tests assume.
- SlpFilter.ApplySlpTxnFilter: bytes the transaction deserialiser rejects (bit.ts:94, outside the `try`) make the source throw. The model folds that into a failed script parse and answers None.
- Mempool.HandleMempoolTransaction: bytes that fail to deserialise at bit.ts:162 make the source throw before the txid is ignored. The model treats them as rejected and ignores the txid.
- Sync.SyncBlocks: the node and store reads `getBlockCount` (bit.ts:667, 713), `Info.getBlockCheckpoint` and `Info.getNetwork` (bit.ts:665, 716) and, inside `removeExtraneousMempoolTxns`, `getRawMemPool` and `unconfirmedTxids` (bit.ts:643-644) are taken never to throw. Its error list leaves out their throws.
- Sync.BlockLoop: `getBlockCount` (bit.ts:713) is taken never to throw, so "a push-triggered run never throws" holds only under that assumption.
- Sync.PushedSyncReconciles: "does not throw" assumes `getRawMemPool` and `unconfirmedTxids` (bit.ts:643-644) never throw.
- Sync.SyncBlocks: the checkpoint height read after the reorg check is an input, not derived from the reorg's writes. The final re-read of the checkpoint is taken to be the height the loop last wrote. The reorg check's returned checkpoint is discarded, as in the source.
- Sync.BlockLoop: termination rests on an upper bound for every tip the node reports during the run. This stands in for the node's chain being finite while it is crawled.
- `sync` with a type other than `block` or `mempool` answers null (bit.ts:768); that branch is left out.
- Status: timestamps, telemetry, Mongo statistics, the node's mempool info and the `getSyncdCheckpoint` and count callbacks are left out. The document write itself is an effect that always succeeds.
- Status.LoadPreviousAttributes: a stored document without a history field is modelled as no document.

## Findings

| source | as written | input that shows it | evidently intended | confidence | as-written member | corrected member |
|---|---|---|---|---|---|---|
| bit.ts:797-813 | the first phase writes the found hash as the checkpoint of height `h`, then the second phase reads the stored hash of `h` back and compares it with the same node hash | the node drops height 10 and holds block `a` at 9, where the indexer stored `b`; 8 agrees. The check returns `{9, a, true}` and keeps the transactions indexed from `b` | the second phase compares against the hash stored before the check, rolls 9 back too and returns `{8, c, true}` | medium; not executed | Reorg.TipDropSkipsComparison | Reorg.CheckForBlockReorgIntended |
| status.ts:104 | `SlpdbState.EXITED_NORMAL;` is an expression statement, so a clean exit never assigns the state | `logExitReason("")` on a running indexer saves the status with state `RUNNING` | the state becomes `EXITED_NORMAL` before the status is saved | high; not executed | Status.ExitedNormalUnreachable | Status.LogExitReasonIntended |

=== FILE: crawl.dfy ===
/** Block crawl bookkeeping (bit.ts `crawlBlock`): every input of every block
    transaction is recorded as spent; SLP transactions claim their inputs in
    the spent-outpoint index tagged with the block height (coinbase inputs
    included), are sorted by dependency and validated in that order; then the
    burn scan removes every spent outpoint from the global SLP UTXO index and
    the modified token graphs are committed.  Validation, graph updates and
    burn marking belong to the token-graph component and are oracles here. */
module Crawl {
  import opened Types
  import opened SlpFilter
  import opened TopoSort
  import opened Mempool

  /** What `setSlpProp` yields for one transaction: the token id of its
      details, if any, and whether it is valid. */
  datatype Validation = Validation(tokenId: Option<TokenId>, valid: bool)
  {
    /** The details carry a token id the crawl acts on: present and, as the
        source's truthiness test has it, not empty. */
    predicate HasTokenId() {
      tokenId.Some? && tokenId.value != ""
    }
  }

  /** The token-graph component: validation, whether a graph exists for a
      token, and `markInvalidSlpOutputAsBurned`'s "updated" answer. */
  datatype Graphs = Graphs(
    validate: Txid -> Validation,
    hasGraph: TokenId -> bool,
    markBurned: (TokenId, Outpoint, Txid, int) -> bool)

  /** One entry of `spentOutpoints`: an outpoint and the txid spending it. */
  datatype SpentOutpoint = SpentOutpoint(outpoint: Outpoint, spentIn: Txid)

  /** The state a crawl touches: the spent-outpoint index, the global SLP UTXO
      index (outpoint to token id) and the set of modified token ids. */
  datatype CrawlState = CrawlState(
    spent: map<Outpoint, SpentClaim>,
    utxos: map<Outpoint, TokenId>,
    modified: set<TokenId>)

  datatype CrawlEffect =
    | ConfirmedReplace(txid: Txid, height: int)
    | GraphAdd(tokenId: TokenId, txid: Txid, height: int)
    | MarkBurned(tokenId: TokenId, outpoint: Outpoint, spentIn: Txid, height: int)
    | Commit(tokens: set<TokenId>)

  datatype CrawlError = SortCountMismatch

  datatype CrawlOutcome = CrawlOutcome(
    state: CrawlState,
    sorted: seq<Txid>,
    spentOutpoints: seq<SpentOutpoint>,
    effects: seq<CrawlEffect>)

  // ---------------------------------------------------------------------
  // Spent outpoints of the whole block

  function TxSpends(inputs: seq<Outpoint>, spender: Txid): (r: seq<SpentOutpoint>)
    ensures |r| == |inputs|
    ensures forall k :: 0 <= k < |r| ==> r[k] == SpentOutpoint(inputs[k], spender)
  {
    if |inputs| == 0 then [] else [SpentOutpoint(inputs[0], spender)] + TxSpends(inputs[1..], spender)
  }

  /** Total number of inputs in the block. */
  function InputCount(p: Parser, txs: seq<Bytes>): nat {
    if |txs| == 0 then 0 else |p.inputsOf(txs[0])| + InputCount(p, txs[1..])
  }

  /** Every input of every transaction has an entry in `r`, naming the
      transaction as spender. */
  ghost predicate ListsAllInputs(p: Parser, txs: seq<Bytes>, r: seq<SpentOutpoint>) {
    forall k, o :: 0 <= k < |txs| && o in p.inputsOf(txs[k]) ==> SpentOutpoint(o, p.hashOf(txs[k])) in r
  }

  /** Every entry of `r` is an input of one of the transactions, spent by it. */
  ghost predicate ListsOnlyInputs(p: Parser, txs: seq<Bytes>, r: seq<SpentOutpoint>) {
    forall e :: e in r ==> exists k :: 0 <= k < |txs| && e.spentIn == p.hashOf(txs[k]) && e.outpoint in p.inputsOf(txs[k])
  }

  lemma SpentOutpointsStep(p: Parser, txs: seq<Bytes>, rest: seq<SpentOutpoint>)
    requires |txs| > 0
    requires ListsAllInputs(p, txs[1..], rest) && ListsOnlyInputs(p, txs[1..], rest)
    ensures var head := TxSpends(p.inputsOf(txs[0]), p.hashOf(txs[0]));
      ListsAllInputs(p, txs, head + rest) && ListsOnlyInputs(p, txs, head + rest)
  {
    var head := TxSpends(p.inputsOf(txs[0]), p.hashOf(txs[0]));
    assert forall k :: 1 <= k < |txs| ==> txs[k] == txs[1..][k - 1];
    assert forall o :: o in p.inputsOf(txs[0]) ==> SpentOutpoint(o, p.hashOf(txs[0])) in head;
    forall e | e in head + rest
      ensures exists k :: 0 <= k < |txs| && e.spentIn == p.hashOf(txs[k]) && e.outpoint in p.inputsOf(txs[k])
    {
      if e in rest {
        var k :| 0 <= k < |txs[1..]| && e.spentIn == p.hashOf(txs[1..][k]) && e.outpoint in p.inputsOf(txs[1..][k]);
        assert txs[k + 1] == txs[1..][k];
      } else {
        assert e.spentIn == p.hashOf(txs[0]) && e.outpoint in p.inputsOf(txs[0]);
      }
    }
  }

  /** The `spentOutpoints` list: one entry per input of every transaction,
      SLP or not, in block order. */
  function BlockSpentOutpoints(p: Parser, txs: seq<Bytes>): (r: seq<SpentOutpoint>)
    ensures |r| == InputCount(p, txs)
    ensures ListsAllInputs(p, txs, r) && ListsOnlyInputs(p, txs, r)
  {
    if |txs| == 0 then []
    else
      var rest := BlockSpentOutpoints(p, txs[1..]);
      SpentOutpointsStep(p, txs, rest);
      TxSpends(p.inputsOf(txs[0]), p.hashOf(txs[0])) + rest
  }

  // ---------------------------------------------------------------------
  // The SLP subset

  predicate IsSlp(p: Parser, raw: Bytes) {
    ApplySlpTxnFilter(p, raw).Some?
  }

  /** `blockTxCache`: SLP txid to its in-batch dependency list.  The cache is
      filled in block order, so for a repeated txid the last transaction's
      list is the one kept. */
  function SlpBatch(p: Parser, txs: seq<Bytes>): (b: Batch)
    ensures forall k :: 0 <= k < |txs| && IsSlp(p, txs[k]) ==> p.hashOf(txs[k]) in b
    ensures forall t :: t in b ==> exists k :: 0 <= k < |txs| && IsSlp(p, txs[k]) && p.hashOf(txs[k]) == t
  {
    if |txs| == 0 then map[]
    else
      var rest := SlpBatch(p, txs[1..]);
      assert forall k :: 1 <= k < |txs| ==> txs[k] == txs[1..][k - 1];
      if IsSlp(p, txs[0]) && p.hashOf(txs[0]) !in rest then rest[p.hashOf(txs[0]) := ParentTxids(p.inputsOf(txs[0]))]
      else rest
  }

  function ParentTxids(inputs: seq<Outpoint>): (r: seq<Txid>)
    ensures |r| == |inputs| && forall k :: 0 <= k < |r| ==> r[k] == inputs[k].prevHash
  {
    if |inputs| == 0 then [] else [inputs[0].prevHash] + ParentTxids(inputs[1..])
  }

  /** The iteration order of `blockTxCache`: SLP txids by first insertion. */
  function SlpOrder(p: Parser, txs: seq<Bytes>, acc: seq<Txid>): (r: seq<Txid>)
    ensures Elems(r) == Elems(acc) + SlpTxids(p, txs)
    decreases |txs|
  {
    if |txs| == 0 then acc
    else
      var t := p.hashOf(txs[0]);
      var acc' := if IsSlp(p, txs[0]) && t !in acc then acc + [t] else acc;
      SlpOrder(p, txs[1..], acc')
  }

  function SlpTxids(p: Parser, txs: seq<Bytes>): set<Txid> {
    set k | 0 <= k < |txs| && IsSlp(p, txs[k]) :: p.hashOf(txs[k])
  }

  /** Every input of every SLP transaction of the block is claimed at `height`. */
  ghost predicate ClaimsSlpInputs(p: Parser, txs: seq<Bytes>, height: int, spent: map<Outpoint, SpentClaim>) {
    forall k, o :: 0 <= k < |txs| && IsSlp(p, txs[k]) && o in p.inputsOf(txs[k]) ==>
      o in spent && spent[o].block == Some(height)
  }

  /** One transaction's claims: an SLP transaction claims every one of its
      inputs for itself at `height`; anything else claims nothing. */
  function ClaimTx(p: Parser, spent: map<Outpoint, SpentClaim>, raw: Bytes, height: int)
    : (r: map<Outpoint, SpentClaim>)
    ensures IsSlp(p, raw) ==> forall o :: o in p.inputsOf(raw) ==>
      o in r && r[o] == SpentClaim(p.hashOf(raw), Some(height))
    ensures forall o :: o in r && (o !in spent || r[o] != spent[o]) ==>
      IsSlp(p, raw) && o in p.inputsOf(raw) && r[o] == SpentClaim(p.hashOf(raw), Some(height))
    ensures spent.Keys <= r.Keys
  {
    if IsSlp(p, raw)
    then ClaimInputs(spent, p.inputsOf(raw), SpentClaim(p.hashOf(raw), Some(height)), false)
    else spent
  }

  /** The SLP transactions claim all their inputs, tagged with the height;
      every claim that changed was made by one of them. */
  function ClaimSlpInputs(p: Parser, spent: map<Outpoint, SpentClaim>, txs: seq<Bytes>, height: int)
    : (r: map<Outpoint, SpentClaim>)
    ensures forall o :: o in r && (o !in spent || r[o] != spent[o]) ==>
      exists k :: 0 <= k < |txs| && IsSlp(p, txs[k]) && o in p.inputsOf(txs[k]) && r[o] == SpentClaim(p.hashOf(txs[k]), Some(height))
    ensures spent.Keys <= r.Keys
    decreases |txs|
  {
    if |txs| == 0 then spent
    else
      var spent' := ClaimTx(p, spent, txs[0], height);
      var r := ClaimSlpInputs(p, spent', txs[1..], height);
      forall o | o in r && (o !in spent || r[o] != spent[o])
        ensures exists k :: 0 <= k < |txs| && IsSlp(p, txs[k]) && o in p.inputsOf(txs[k]) && r[o] == SpentClaim(p.hashOf(txs[k]), Some(height))
      {
        if o in spent' && r[o] == spent'[o] {
          assert IsSlp(p, txs[0]) && o in p.inputsOf(txs[0]);
        } else {
          var k :| 0 <= k < |txs[1..]| && IsSlp(p, txs[1..][k]) && o in p.inputsOf(txs[1..][k])
            && r[o] == SpentClaim(p.hashOf(txs[1..][k]), Some(height));
          assert txs[k + 1] == txs[1..][k];
        }
      }
      r
  }

  /** Every input of every SLP transaction ends up claimed at this height:
      a later transaction may take over an outpoint, but only with a claim of
      the same height. */
  lemma {:induction false} ClaimSlpInputsCovers(p: Parser, spent: map<Outpoint, SpentClaim>, txs: seq<Bytes>, height: int)
    ensures ClaimsSlpInputs(p, txs, height, ClaimSlpInputs(p, spent, txs, height))
    decreases |txs|
  {
    if |txs| > 0 {
      var spent' := ClaimTx(p, spent, txs[0], height);
      var r := ClaimSlpInputs(p, spent', txs[1..], height);
      assert r == ClaimSlpInputs(p, spent, txs, height);
      ClaimSlpInputsCovers(p, spent', txs[1..], height);
      forall o | IsSlp(p, txs[0]) && o in p.inputsOf(txs[0])
        ensures o in r && r[o].block == Some(height)
      {
        LaterClaimsKeepHeight(p, spent', txs[1..], height, o);
      }
      ClaimsSlpInputsStep(p, txs, height, r);
    }
  }

  /** The head's inputs claimed at `height`, and the tail's: all of them. */
  lemma ClaimsSlpInputsStep(p: Parser, txs: seq<Bytes>, height: int, r: map<Outpoint, SpentClaim>)
    requires |txs| > 0
    requires IsSlp(p, txs[0]) ==> forall o :: o in p.inputsOf(txs[0]) ==> o in r && r[o].block == Some(height)
    requires ClaimsSlpInputs(p, txs[1..], height, r)
    ensures ClaimsSlpInputs(p, txs, height, r)
  {
    forall k, o | 1 <= k < |txs| && IsSlp(p, txs[k]) && o in p.inputsOf(txs[k])
      ensures o in r && r[o].block == Some(height)
    {
      assert txs[k] == txs[1..][k - 1];
    }
  }

  /** An outpoint already claimed at `height` stays claimed at `height`. */
  lemma LaterClaimsKeepHeight(p: Parser, spent: map<Outpoint, SpentClaim>, txs: seq<Bytes>, height: int, o: Outpoint)
    requires o in spent && spent[o].block == Some(height)
    ensures var r := ClaimSlpInputs(p, spent, txs, height); o in r && r[o].block == Some(height)
  {
    var r := ClaimSlpInputs(p, spent, txs, height);
    if r[o] != spent[o] {
      var j :| 0 <= j < |txs| && IsSlp(p, txs[j]) && o in p.inputsOf(txs[j])
        && r[o] == SpentClaim(p.hashOf(txs[j]), Some(height));
    }
  }

  /** The block's SLP txids in dependency order. */
  function SortedSlp(p: Parser, txs: seq<Bytes>): (s: seq<Txid>)
    ensures NoDup(s) && Elems(s) == SlpTxids(p, txs) && |s| == |SlpBatch(p, txs)|
  {
    var batch := SlpBatch(p, txs);
    var order := SlpOrder(p, txs, []);
    assert SlpTxids(p, txs) == batch.Keys;
    TopologicalSort(batch, order)
  }

  /** For a block whose SLP transactions are acyclic, every same-block SLP
      parent comes before the transaction spending from it. */
  lemma SortedSlpRespectsDependencies(p: Parser, txs: seq<Bytes>, rank: Txid -> nat)
    requires Ranked(SlpBatch(p, txs), rank)
    ensures var s := SortedSlp(p, txs);
      var b := SlpBatch(p, txs);
      forall i, j :: 0 <= i < |s| && 0 <= j < |s| && s[j] in b[s[i]] ==> j < i
  {
    var batch := SlpBatch(p, txs);
    assert SlpTxids(p, txs) == batch.Keys;
    ParentsPrecedeChildren(batch, SlpOrder(p, txs, []), rank);
  }

  // ---------------------------------------------------------------------
  // Validation in sorted order

  datatype Validated = Validated(modified: set<TokenId>, effects: seq<CrawlEffect>)

  /** The txids in `sorted` whose validation carries a token id: the ones
      persisted with `confirmedReplace`, in order. */
  function WithTokenId(g: Graphs, sorted: seq<Txid>): seq<Txid> {
    if |sorted| == 0 then []
    else (if g.validate(sorted[0]).HasTokenId() then [sorted[0]] else []) + WithTokenId(g, sorted[1..])
  }

  /** The txids of the `ConfirmedReplace` effects, in order. */
  function Persisted(fx: seq<CrawlEffect>): seq<Txid> {
    if |fx| == 0 then []
    else (if fx[0].ConfirmedReplace? then [fx[0].txid] else []) + Persisted(fx[1..])
  }

  lemma {:induction false} PersistedAppend(a: seq<CrawlEffect>, b: seq<CrawlEffect>)
    ensures Persisted(a + b) == Persisted(a) + Persisted(b)
    decreases |a|
  {
    if |a| == 0 {
      assert a + b == b;
    } else {
      assert (a + b)[0] == a[0];
      assert (a + b)[1..] == a[1..] + b;
      PersistedAppend(a[1..], b);
    }
  }

  /** The effects of one sorted transaction. */
  function TxEffects(g: Graphs, txid: Txid, height: int): seq<CrawlEffect> {
    var v := g.validate(txid);
    if !v.HasTokenId() then []
    else
      [ConfirmedReplace(txid, height)]
        + (if v.valid && g.hasGraph(v.tokenId.value) then [GraphAdd(v.tokenId.value, txid, height)] else [])
  }

  /** The tokens the valid records among `sorted` belong to. */
  function ValidTokens(g: Graphs, sorted: seq<Txid>): set<TokenId> {
    set k | 0 <= k < |sorted| && g.validate(sorted[k]).HasTokenId() && g.validate(sorted[k]).valid
      :: g.validate(sorted[k]).tokenId.value
  }

  /** The valid tokens of a list are those of its head and of its tail. */
  lemma ValidTokensSplit(g: Graphs, sorted: seq<Txid>)
    requires |sorted| > 0
    ensures var v := g.validate(sorted[0]);
      ValidTokens(g, sorted)
        == (if v.HasTokenId() && v.valid then {v.tokenId.value} else {}) + ValidTokens(g, sorted[1..])
  {
    assert forall k :: 1 <= k < |sorted| ==> sorted[k] == sorted[1..][k - 1];
    var tail := sorted[1..];
    forall t | t in ValidTokens(g, tail) ensures t in ValidTokens(g, sorted) {
      var k :| 0 <= k < |tail| && g.validate(tail[k]).HasTokenId() && g.validate(tail[k]).valid
        && g.validate(tail[k]).tokenId.value == t;
      assert sorted[k + 1] == tail[k];
    }
  }

  /** The loop over the sorted stack. */
  function ValidateSorted(g: Graphs, sorted: seq<Txid>, height: int, modified: set<TokenId>): (r: Validated)
    ensures r.modified == modified + ValidTokens(g, sorted)
    ensures Persisted(r.effects) == WithTokenId(g, sorted)
    decreases |sorted|
  {
    if |sorted| == 0 then Validated(modified, [])
    else
      var txid := sorted[0];
      var v := g.validate(txid);
      var m := if v.HasTokenId() && v.valid then modified + {v.tokenId.value} else modified;
      var rest := ValidateSorted(g, sorted[1..], height, m);
      ValidTokensSplit(g, sorted);
      PersistedAppend(TxEffects(g, txid, height), rest.effects);
      assert Persisted(TxEffects(g, txid, height)) == if v.HasTokenId() then [txid] else [];
      Validated(rest.modified, TxEffects(g, txid, height) + rest.effects)
  }

  // ---------------------------------------------------------------------
  // Burn scan

  datatype Burned = Burned(utxos: map<Outpoint, TokenId>, modified: set<TokenId>, effects: seq<CrawlEffect>)

  function OutpointsOf(spents: seq<SpentOutpoint>): set<Outpoint> {
    set e | e in spents :: e.outpoint
  }

  /** A burn that marks its token modified: entry `i` is the first mention of
      an outpoint the UTXO index holds, and the graph reports an update. */
  predicate BurnsAt(g: Graphs, spents: seq<SpentOutpoint>, i: int, height: int, utxos: map<Outpoint, TokenId>)
    requires 0 <= i < |spents|
  {
    var o := spents[i].outpoint;
    o in utxos && o !in OutpointsOf(spents[..i]) && g.markBurned(utxos[o], o, spents[i].spentIn, height)
  }

  /** The index with one outpoint removed. */
  function Without(utxos: map<Outpoint, TokenId>, o: Outpoint): (r: map<Outpoint, TokenId>)
    ensures r.Keys == utxos.Keys - {o}
    ensures forall x :: x in r ==> r[x] == utxos[x]
  {
    map x | x in utxos && x != o :: utxos[x]
  }

  /** The tokens whose burns mark them modified. */
  function Burns(g: Graphs, spents: seq<SpentOutpoint>, height: int, utxos: map<Outpoint, TokenId>): set<TokenId> {
    set i | 0 <= i < |spents| && BurnsAt(g, spents, i, height, utxos) :: utxos[spents[i].outpoint]
  }

  /** The burn scan: every spent outpoint found in the UTXO index is handed
      to its token's graph and removed from the index; the token is marked
      modified only when the graph reports an update. */
  function BurnScan(g: Graphs, spents: seq<SpentOutpoint>, height: int,
                    utxos: map<Outpoint, TokenId>, modified: set<TokenId>): (r: Burned)
    ensures r.utxos.Keys == utxos.Keys - OutpointsOf(spents)
    ensures forall o :: o in r.utxos ==> r.utxos[o] == utxos[o]
    ensures r.modified == modified + Burns(g, spents, height, utxos)
    decreases |spents|
  {
    if |spents| == 0 then Burned(utxos, modified, [])
    else
      var e := spents[0];
      var o := e.outpoint;
      var rest := spents[1..];
      if o in utxos then
        var t := utxos[o];
        var updated := g.markBurned(t, o, e.spentIn, height);
        var utxos' := Without(utxos, o);
        var m := if updated then modified + {t} else modified;
        var r := BurnScan(g, rest, height, utxos', m);
        BurnScanStep(g, spents, height, utxos, utxos');
        Burned(r.utxos, r.modified, [MarkBurned(t, o, e.spentIn, height)] + r.effects)
      else
        var r := BurnScan(g, rest, height, utxos, modified);
        BurnScanStep(g, spents, height, utxos, utxos);
        r
  }

  /** The burns of `spents` are the burn at its head plus the burns of its tail
      against the index with the head's outpoint removed. */
  lemma BurnScanStep(g: Graphs, spents: seq<SpentOutpoint>, height: int,
                     utxos: map<Outpoint, TokenId>, utxos': map<Outpoint, TokenId>)
    requires |spents| > 0
    requires utxos'.Keys == utxos.Keys - {spents[0].outpoint}
    requires forall x :: x in utxos' ==> utxos'[x] == utxos[x]
    ensures OutpointsOf(spents) == {spents[0].outpoint} + OutpointsOf(spents[1..])
    ensures Burns(g, spents, height, utxos)
      == (if BurnsAt(g, spents, 0, height, utxos) then {utxos[spents[0].outpoint]} else {})
         + Burns(g, spents[1..], height, utxos')
  {
    var o := spents[0].outpoint;
    var rest := spents[1..];
    assert spents == [spents[0]] + rest;
    forall i | 1 <= i < |spents|
      ensures BurnsAt(g, spents, i, height, utxos) <==> BurnsAt(g, rest, i - 1, height, utxos')
      ensures BurnsAt(g, spents, i, height, utxos) ==> utxos[spents[i].outpoint] == utxos'[rest[i - 1].outpoint]
    {
      assert spents[i] == rest[i - 1];
      assert spents[..i] == [spents[0]] + rest[..i - 1];
      assert OutpointsOf(spents[..i]) == {o} + OutpointsOf(rest[..i - 1]);
    }
    var lhs := set i | 0 <= i < |spents| && BurnsAt(g, spents, i, height, utxos) :: utxos[spents[i].outpoint];
    var rhs := set i | 0 <= i < |spents| - 1 && BurnsAt(g, rest, i, height, utxos') :: utxos'[rest[i].outpoint];
    forall t | t in lhs
      ensures t in (if BurnsAt(g, spents, 0, height, utxos) then {utxos[o]} else {}) + rhs
    {
      var i :| 0 <= i < |spents| && BurnsAt(g, spents, i, height, utxos) && utxos[spents[i].outpoint] == t;
      if i > 0 {
        assert BurnsAt(g, rest, i - 1, height, utxos');
      }
    }
    forall t | t in rhs
      ensures t in lhs
    {
      var i :| 0 <= i < |spents| - 1 && BurnsAt(g, rest, i, height, utxos') && utxos'[rest[i].outpoint] == t;
      assert BurnsAt(g, spents, i + 1, height, utxos);
    }
    assert spents[..0] == [];
  }

  // ---------------------------------------------------------------------
  // The whole block

  /** `crawlBlock(height)` over the block's transactions, from the spent
      index, the UTXO index and the modified set it starts with (the pruning
      stack may already have marked tokens modified). */
  function CrawlBlock(p: Parser, g: Graphs, st: CrawlState, height: int, txs: seq<Bytes>)
    : (r: Result<CrawlOutcome, CrawlError>)
    // the topological-sort count check never fires
    ensures r.Success?
    // the sorted stack is exactly the block's SLP txids, in dependency order
    ensures r.value.sorted == SortedSlp(p, txs)
    // every input of every transaction is recorded as spent
    ensures r.value.spentOutpoints == BlockSpentOutpoints(p, txs)
    // SLP transactions claim all their inputs at this height
    ensures ClaimsSlpInputs(p, txs, height, r.value.state.spent)
    // no claim is dropped, and only the SLP transactions' inputs change
    ensures st.spent.Keys <= r.value.state.spent.Keys
    ensures forall o :: o in r.value.state.spent && (o !in st.spent || r.value.state.spent[o] != st.spent[o]) ==>
      exists k :: 0 <= k < |txs| && IsSlp(p, txs[k]) && o in p.inputsOf(txs[k])
    // no spent outpoint survives in the UTXO index; the rest is unchanged
    ensures r.value.state.utxos.Keys == st.utxos.Keys - OutpointsOf(r.value.spentOutpoints)
    ensures forall o :: o in r.value.state.utxos ==> r.value.state.utxos[o] == st.utxos[o]
    // the modified set is cleared after the commit
    ensures r.value.state.modified == {}
    // the final commit covers every token modified before the crawl, by a
    // valid record or by a burn, that has a graph
    ensures |r.value.effects| > 0
    ensures r.value.effects[|r.value.effects| - 1]
      == Commit(set t | t in st.modified + ValidTokens(g, r.value.sorted) + Burns(g, r.value.spentOutpoints, height, st.utxos)
                        && g.hasGraph(t))
    // SLP records are persisted in dependency order
    ensures Persisted(r.value.effects) == WithTokenId(g, r.value.sorted)
  {
    var spents := BlockSpentOutpoints(p, txs);
    ClaimSlpInputsCovers(p, st.spent, txs, height);
    var sorted := SortedSlp(p, txs);
    if |sorted| != |SlpBatch(p, txs)| then Failure(SortCountMismatch)
    else
      var v := ValidateSorted(g, sorted, height, st.modified);
      var b := BurnScan(g, spents, height, st.utxos, v.modified);
      var committed := set t | t in b.modified && g.hasGraph(t);
      var fx := v.effects + (b.effects + [Commit(committed)]);
      BurnEffectsPersistNothing(g, spents, height, st.utxos, v.modified, committed);
      PersistedAppend(v.effects, b.effects + [Commit(committed)]);
      Success(CrawlOutcome(CrawlState(ClaimSlpInputs(p, st.spent, txs, height), b.utxos, {}), sorted, spents, fx))
  }

  lemma {:induction false} BurnEffectsPersistNothing(g: Graphs, spents: seq<SpentOutpoint>, height: int,
                                                     utxos: map<Outpoint, TokenId>, modified: set<TokenId>,
                                                     committed: set<TokenId>)
    ensures Persisted(BurnScan(g, spents, height, utxos, modified).effects + [Commit(committed)]) == []
    decreases |spents|
  {
    var fx := BurnScan(g, spents, height, utxos, modified).effects;
    if |spents| > 0 {
      var o := spents[0].outpoint;
      if o in utxos {
        var t := utxos[o];
        var utxos' := Without(utxos, o);
        var m := if g.markBurned(t, o, spents[0].spentIn, height) then modified + {t} else modified;
        var tail := BurnScan(g, spents[1..], height, utxos', m).effects;
        BurnEffectsPersistNothing(g, spents[1..], height, utxos', m, committed);
        assert fx + [Commit(committed)] == [MarkBurned(t, o, spents[0].spentIn, height)] + (tail + [Commit(committed)]);
        PersistedAppend([MarkBurned(t, o, spents[0].spentIn, height)], tail + [Commit(committed)]);
      } else {
        BurnEffectsPersistNothing(g, spents[1..], height, utxos, modified, committed);
      }
    } else {
      PersistedAppend(fx, [Commit(committed)]);
    }
  }
}

=== FILE: filter.dfy ===
/** The protocol filter (bit.ts `applySlpTxnFilter`): decides whether a raw
    transaction is an SLP transaction the indexer should follow.  The
    transaction deserialiser, the output-script parser and the token-id
    filter rules belong to libraries outside this model; they are the fields
    of a `Parser`. */
module SlpFilter {
  import opened Types

  /** The protocol's lokad id, `534c5000`, as bytes. */
  const LokadId: Bytes := [0x53, 0x4c, 0x50, 0x00]

  datatype TxType = Genesis | Mint | Send

  /** What the script parser extracts from the first output.  `tokenId` is
      absent when the message does not carry one; like the empty id, that is
      the source's falsy `tokenIdHex`. */
  datatype SlpMessage = SlpMessage(txType: TxType, tokenId: Option<TokenId>)

  /** The foreign collaborators, as pure functions of the raw bytes:
      `hashOf` is the deserialised transaction's hash, `inputsOf` its inputs'
      previous outpoints, `parseScript` the first output's script parse
      (None when the parser throws), `passesFilter` the configured token-id
      rules. */
  datatype Parser = Parser(
    hashOf: Bytes -> Txid,
    inputsOf: Bytes -> seq<Outpoint>,
    parseScript: Bytes -> Option<SlpMessage>,
    passesFilter: TokenId -> bool)

  /** An accepted transaction: its hash and its (possibly re-keyed) message. */
  datatype SlpMatch = SlpMatch(txid: Txid, msg: SlpMessage)

  /** The lokad id occurs in `raw` starting at byte `i`. */
  predicate MarkerAt(raw: Bytes, i: int) {
    0 <= i && i + |LokadId| <= |raw| && raw[i..i + |LokadId|] == LokadId
  }

  /** Byte-wise search for the lokad id from position `from` on. */
  function FindMarker(raw: Bytes, from: nat): (found: bool)
    ensures found <==> exists i :: from <= i && MarkerAt(raw, i)
    decreases |raw| - from
  {
    if from + |LokadId| > |raw| then
      assert forall i :: from <= i ==> !MarkerAt(raw, i);
      false
    else if raw[from..from + |LokadId|] == LokadId then
      assert MarkerAt(raw, from);
      true
    else
      var rest := FindMarker(raw, from + 1);
      assert forall i :: from <= i && MarkerAt(raw, i) ==> i == from || from + 1 <= i;
      rest
  }

  /** `Buffer.includes` of the lokad id. */
  function ContainsLokadId(raw: Bytes): (found: bool)
    ensures found <==> exists i :: MarkerAt(raw, i)
  {
    assert forall i :: MarkerAt(raw, i) ==> 0 <= i;
    FindMarker(raw, 0)
  }

  /** The message with the GENESIS rule applied: a genesis transaction's
      token id is its own hash. */
  function Rekey(p: Parser, raw: Bytes, m: SlpMessage): SlpMessage {
    if m.txType == Genesis then m.(tokenId := Some(p.hashOf(raw))) else m
  }

  /** A message passes the token filter when it names no token id, names the
      empty one (falsy, so the rules are skipped), or the rules accept the id
      it names. */
  predicate PassesTokenRules(p: Parser, m: SlpMessage) {
    m.tokenId.None? || m.tokenId.value == "" || p.passesFilter(m.tokenId.value)
  }

  /** The declarative meaning of acceptance: the lokad id occurs somewhere in
      the bytes, the script parses, and the (re-keyed) token id passes. */
  ghost predicate IsRelevant(p: Parser, raw: Bytes) {
    && (exists i :: MarkerAt(raw, i))
    && p.parseScript(raw).Some?
    && PassesTokenRules(p, Rekey(p, raw, p.parseScript(raw).value))
  }

  /** The filter decision.  Missing marker, a throwing parser and a filtered
      token id all yield None; an accepted genesis transaction names itself as
      its token. */
  function ApplySlpTxnFilter(p: Parser, raw: Bytes): (r: Option<SlpMatch>)
    ensures r.Some? <==> IsRelevant(p, raw)
    ensures r.Some? ==> r.value.txid == p.hashOf(raw)
    ensures r.Some? && r.value.msg.txType == Genesis ==> r.value.msg.tokenId == Some(p.hashOf(raw))
    ensures r.Some? && r.value.msg.txType != Genesis ==> r.value.msg == p.parseScript(raw).value
  {
    if !ContainsLokadId(raw) then None
    else
      match p.parseScript(raw)
      case None => None
      case Some(m) =>
        var m' := Rekey(p, raw, m);
        if !PassesTokenRules(p, m') then None
        else Some(SlpMatch(p.hashOf(raw), m'))
  }

  /** Bytes too short to hold the lokad id are never accepted, whatever the
      parser and the token rules say. */
  lemma ShortInputNeverMatches(p: Parser, raw: Bytes)
    requires |raw| < |LokadId|
    ensures ApplySlpTxnFilter(p, raw).None?
  {
  }

  /** A transaction that is just the lokad id followed by anything carries the
      marker, so the decision is left to the parser and the token rules. */
  lemma MarkerPrefixDefersToParser(p: Parser, tail: Bytes)
    ensures var raw := LokadId + tail;
      ApplySlpTxnFilter(p, raw).Some? <==>
        p.parseScript(raw).Some? && PassesTokenRules(p, Rekey(p, raw, p.parseScript(raw).value))
  {
    var raw := LokadId + tail;
    assert raw[0..4] == LokadId;
    assert MarkerAt(raw, 0);
  }
}

=== FILE: mempool.dfy ===
/** The mempool manager (bit.ts `handleMempoolTransaction`,
    `removeExtraneousMempoolTxns`, `removeReorgTransactionsAtHeight`): a state
    machine over the tracked SLP mempool, the ignore set, the spent-outpoint
    index, the double-spend record map and the token graphs the graph manager
    holds.  Database calls are not awaited by the source and appear here as an
    emitted list of store effects. */
module Mempool {
  import opened Types
  import opened SlpFilter

  /** The all-zero previous hash of a coinbase input. */
  const CoinbaseHash: string := "0000000000000000000000000000000000000000000000000000000000000000"

  /** `previousTxHash.startsWith('0'.repeat(64))`. */
  predicate IsCoinbasePlaceholder(h: Hash) {
    |h| >= 64 && h[..64] == CoinbaseHash
  }

  /** Who spends an outpoint, and in which block (None while unconfirmed). */
  datatype SpentClaim = SpentClaim(txid: Txid, block: Option<int>)

  /** A detected double spend: the previous claimant and the newcomer.  The
      wall-clock time the source attaches is left out. */
  datatype DoubleSpend = DoubleSpend(originalTxid: Txid, current: Txid)

  datatype MempoolState = MempoolState(
    slpMempool: map<Txid, Bytes>,
    ignored: set<Txid>,
    spent: map<Outpoint, SpentClaim>,
    doubleSpends: map<Outpoint, DoubleSpend>,
    tokens: set<TokenId>)

  /** Calls into the store and the token graphs, in the order issued. */
  datatype StoreEffect =
    | UnconfirmedDelete(txids: seq<Txid>)
    | ConfirmedDelete(txid: Txid)
    | TokenDelete(tokenId: TokenId)
    | GraphDelete(tokenId: TokenId)
    | ScanGraphsForDoubleSpends(doomed: set<Txid>)
    | RemoveFromGraph(tokenId: TokenId, txid: Txid)
    | CommitGraph(tokenId: TokenId)
    | ConfirmedDeleteForReorg(height: int)

  /** `{ isSlp, added }`. */
  datatype Verdict = Verdict(isSlp: bool, added: bool)

  datatype MempoolStep = MempoolStep(verdict: Verdict, state: MempoolState, effects: seq<StoreEffect>)

  // ---------------------------------------------------------------------
  // Spent-outpoint claims

  /** Whether an input is indexed: the mempool path skips coinbase inputs,
      the block path does not. */
  predicate Indexed(o: Outpoint, skipCoinbase: bool) {
    !(skipCoinbase && IsCoinbasePlaceholder(o.prevHash))
  }

  /** Record `claim` for every indexed input outpoint. */
  function ClaimInputs(spent: map<Outpoint, SpentClaim>, inputs: seq<Outpoint>, claim: SpentClaim, skipCoinbase: bool)
    : (r: map<Outpoint, SpentClaim>)
    ensures forall o :: o in inputs && Indexed(o, skipCoinbase) ==> o in r && r[o] == claim
    ensures forall o :: o in spent && !(o in inputs && Indexed(o, skipCoinbase)) ==> o in r && r[o] == spent[o]
    ensures forall o :: o in r ==> o in spent || (o in inputs && Indexed(o, skipCoinbase))
    decreases |inputs|
  {
    if |inputs| == 0 then spent
    else
      var o := inputs[0];
      var spent' := if Indexed(o, skipCoinbase) then spent[o := claim] else spent;
      var r := ClaimInputs(spent', inputs[1..], claim, skipCoinbase);
      assert forall x :: x in inputs ==> x == o || x in inputs[1..];
      r
  }

  // ---------------------------------------------------------------------
  // Double-spend detection

  /** Input outpoints already claimed by a different transaction. */
  function Contested(spent: map<Outpoint, SpentClaim>, txid: Txid, inputs: seq<Outpoint>): set<Outpoint> {
    set o | o in inputs && o in spent && spent[o].txid != txid
  }

  /** The previous claimants of the contested outpoints. */
  function Losers(spent: map<Outpoint, SpentClaim>, txid: Txid, inputs: seq<Outpoint>): set<Txid> {
    set o | o in Contested(spent, txid, inputs) :: spent[o].txid
  }

  /** The result of the double-spend pass: the new state, the losers queued
      for a scan of every graph, and the store effects issued. */
  datatype DsPass = DsPass(state: MempoolState, doomed: set<Txid>, effects: seq<StoreEffect>)

  /** The effects issued for one loser; `isToken` says whether the graph
      manager holds a graph keyed by the loser's txid. */
  function LoserEffects(loser: Txid, isToken: bool): seq<StoreEffect> {
    [UnconfirmedDelete([loser]), ConfirmedDelete(loser)]
      + (if isToken then [TokenDelete(loser), GraphDelete(loser)] else [])
  }

  /** The first input's part of the double-spend pass. */
  function DsFirst(st: MempoolState, txid: Txid, o: Outpoint): (r: DsPass)
    ensures r.state == st.(tokens := r.state.tokens, doubleSpends := r.state.doubleSpends)
  {
    if o in st.spent && st.spent[o].txid != txid then
      var loser := st.spent[o].txid;
      var isToken := loser in st.tokens;
      DsPass(
        st.(tokens := st.tokens - {loser},
            doubleSpends := st.doubleSpends[o := DoubleSpend(loser, txid)]),
        if isToken then {} else {loser},
        LoserEffects(loser, isToken))
    else DsPass(st, {}, [])
  }

  /** The pass drops every loser from the graph manager and queues for a
      scan exactly the losers it did not hold. */
  ghost predicate DsTokens(st: MempoolState, txid: Txid, inputs: seq<Outpoint>, r: DsPass) {
    var losers := Losers(st.spent, txid, inputs);
    && r.state.tokens == st.tokens - losers
    && losers - st.tokens <= r.doomed <= losers
  }

  /** The pass records each contested outpoint as a double spend of its
      previous claimant and leaves the other records alone. */
  ghost predicate DsRecords(st: MempoolState, txid: Txid, inputs: seq<Outpoint>, r: DsPass) {
    var contested := Contested(st.spent, txid, inputs);
    && r.state.doubleSpends.Keys == st.doubleSpends.Keys + contested
    && (forall o :: o in contested ==> r.state.doubleSpends[o] == DoubleSpend(st.spent[o].txid, txid))
    && (forall o :: o in st.doubleSpends && o !in contested ==> r.state.doubleSpends[o] == st.doubleSpends[o])
  }

  /** The pass deletes every loser from both stores, and does nothing at all
      when no input is contested. */
  ghost predicate DsEffects(st: MempoolState, txid: Txid, inputs: seq<Outpoint>, r: DsPass) {
    && (forall l :: l in Losers(st.spent, txid, inputs) ==>
          UnconfirmedDelete([l]) in r.effects && ConfirmedDelete(l) in r.effects)
    && (Contested(st.spent, txid, inputs) == {} ==> r == DsPass(st, {}, []))
  }

  /** The contested outpoints and losers of a list are those of its head
      and of its tail. */
  lemma ContestedSplit(spent: map<Outpoint, SpentClaim>, txid: Txid, inputs: seq<Outpoint>)
    requires |inputs| > 0
    ensures Contested(spent, txid, inputs) == Contested(spent, txid, [inputs[0]]) + Contested(spent, txid, inputs[1..])
    ensures Losers(spent, txid, inputs) == Losers(spent, txid, [inputs[0]]) + Losers(spent, txid, inputs[1..])
  {
    assert forall x :: x in inputs <==> x == inputs[0] || x in inputs[1..];
  }

  lemma DsTokensStep(st: MempoolState, txid: Txid, inputs: seq<Outpoint>, r: DsPass)
    requires |inputs| > 0
    requires DsTokens(DsFirst(st, txid, inputs[0]).state, txid, inputs[1..], r)
    ensures var first := DsFirst(st, txid, inputs[0]);
      DsTokens(st, txid, inputs, DsPass(r.state, first.doomed + r.doomed, first.effects + r.effects))
  {
    ContestedSplit(st.spent, txid, inputs);
  }

  lemma DsRecordsStep(st: MempoolState, txid: Txid, inputs: seq<Outpoint>, r: DsPass)
    requires |inputs| > 0
    requires DsRecords(DsFirst(st, txid, inputs[0]).state, txid, inputs[1..], r)
    ensures var first := DsFirst(st, txid, inputs[0]);
      DsRecords(st, txid, inputs, DsPass(r.state, first.doomed + r.doomed, first.effects + r.effects))
  {
    ContestedSplit(st.spent, txid, inputs);
  }

  lemma DsEffectsStep(st: MempoolState, txid: Txid, inputs: seq<Outpoint>, r: DsPass)
    requires |inputs| > 0
    requires DsEffects(DsFirst(st, txid, inputs[0]).state, txid, inputs[1..], r)
    ensures var first := DsFirst(st, txid, inputs[0]);
      DsEffects(st, txid, inputs, DsPass(r.state, first.doomed + r.doomed, first.effects + r.effects))
  {
    ContestedSplit(st.spent, txid, inputs);
    var first := DsFirst(st, txid, inputs[0]);
    var fx := first.effects + r.effects;
    forall l | l in Losers(st.spent, txid, inputs)
      ensures UnconfirmedDelete([l]) in fx && ConfirmedDelete(l) in fx
    {
      if l in Losers(st.spent, txid, [inputs[0]]) {
        assert first.effects[0] == UnconfirmedDelete([l]) && first.effects[1] == ConfirmedDelete(l);
        assert fx[0] == first.effects[0] && fx[1] == first.effects[1];
      } else {
        assert fx[|first.effects|..] == r.effects;
      }
    }
  }

  /** The `inputTxos.forEach` double-spend loop.  The spent index is only
      read here; the loser is NOT removed from the tracked mempool (that line
      is commented out in the source).  A loser that is a token id is
      dropped from the graph manager; any other is queued for a scan. */
  function DetectDoubleSpends(st: MempoolState, txid: Txid, inputs: seq<Outpoint>): (r: DsPass)
    ensures r.state == st.(tokens := r.state.tokens, doubleSpends := r.state.doubleSpends)
    ensures DsTokens(st, txid, inputs, r)
    ensures DsRecords(st, txid, inputs, r)
    ensures DsEffects(st, txid, inputs, r)
    decreases |inputs|
  {
    if |inputs| == 0 then DsPass(st, {}, [])
    else
      var first := DsFirst(st, txid, inputs[0]);
      var r := DetectDoubleSpends(first.state, txid, inputs[1..]);
      DsTokensStep(st, txid, inputs, r);
      DsRecordsStep(st, txid, inputs, r);
      DsEffectsStep(st, txid, inputs, r);
      DsPass(r.state, first.doomed + r.doomed, first.effects + r.effects)
  }

  // ---------------------------------------------------------------------
  // handleMempoolTransaction

  /** The raw bytes used: the ones supplied, else a fetch from the node
      (None when the RPC throws). */
  function RawFor(txid: Txid, txnBuf: Option<Bytes>, fetch: Txid -> Option<Bytes>): Option<Bytes> {
    if txnBuf.Some? then txnBuf else fetch(txid)
  }

  /** The state change after the double-spend pass: accept into the tracked
      mempool and claim the non-coinbase inputs, or add to the ignore set. */
  function Admit(p: Parser, st: MempoolState, txid: Txid, raw: Bytes): MempoolStep {
    var inputs := p.inputsOf(raw);
    var ds := DetectDoubleSpends(st, txid, inputs);
    var scan := if ds.doomed != {} then [ScanGraphsForDoubleSpends(ds.doomed)] else [];
    var s := ds.state;
    if ApplySlpTxnFilter(p, raw).Some? then
      MempoolStep(Verdict(true, true),
        s.(slpMempool := s.slpMempool[txid := raw],
           spent := ClaimInputs(s.spent, inputs, SpentClaim(txid, None), true)),
        ds.effects + scan)
    else
      MempoolStep(Verdict(false, false), s.(ignored := s.ignored + {txid}), ds.effects + scan)
  }

  /** The store calls of `Admit`: the double-spend pass's, then at most a
      graph scan of the losers. */
  lemma AdmitEffects(p: Parser, st: MempoolState, txid: Txid, raw: Bytes)
    ensures var inputs := p.inputsOf(raw);
      var losers := Losers(st.spent, txid, inputs);
      var ds := DetectDoubleSpends(st, txid, inputs);
      var r := Admit(p, st, txid, raw);
      && ds.effects <= r.effects
      && (forall l :: l in losers ==> UnconfirmedDelete([l]) in r.effects && ConfirmedDelete(l) in r.effects)
      && (forall e :: e in r.effects[|ds.effects|..] ==> e.ScanGraphsForDoubleSpends? && e.doomed <= losers)
      && (losers - st.tokens != {} ==> ScanGraphsForDoubleSpends(ds.doomed) in r.effects)
  {
    var inputs := p.inputsOf(raw);
    var losers := Losers(st.spent, txid, inputs);
    var ds := DetectDoubleSpends(st, txid, inputs);
    var scan := if ds.doomed != {} then [ScanGraphsForDoubleSpends(ds.doomed)] else [];
    var fx := Admit(p, st, txid, raw).effects;
    assert fx == ds.effects + scan;
    assert fx[..|ds.effects|] == ds.effects;
    assert fx[|ds.effects|..] == scan;
    forall l | l in losers
      ensures UnconfirmedDelete([l]) in fx && ConfirmedDelete(l) in fx
    {
      assert UnconfirmedDelete([l]) in ds.effects && ConfirmedDelete(l) in ds.effects;
    }
    if losers - st.tokens != {} {
      assert ds.doomed != {};
      assert fx[|ds.effects|] == ScanGraphsForDoubleSpends(ds.doomed);
    }
  }

  /** `handleMempoolTransaction(txid, txnBuf?)`. */
  function HandleMempoolTransaction(p: Parser, st: MempoolState, txid: Txid, txnBuf: Option<Bytes>,
                                    fetch: Txid -> Option<Bytes>): (r: MempoolStep)
    // already tracked, already ignored, or not fetchable: nothing changes
    ensures txid in st.slpMempool ==> r == MempoolStep(Verdict(true, false), st, [])
    ensures txid !in st.slpMempool && txid in st.ignored ==> r == MempoolStep(Verdict(false, false), st, [])
    ensures txid !in st.slpMempool && txid !in st.ignored && RawFor(txid, txnBuf, fetch).None? ==>
      r == MempoolStep(Verdict(false, false), st, [])
    // accepted exactly when new and relevant
    ensures r.verdict.added <==>
      txid !in st.slpMempool && txid !in st.ignored && RawFor(txid, txnBuf, fetch).Some? &&
      IsRelevant(p, RawFor(txid, txnBuf, fetch).value)
    ensures r.verdict.isSlp <==> r.verdict.added || txid in st.slpMempool
    ensures r.verdict.added ==>
      var raw := RawFor(txid, txnBuf, fetch).value;
      && r.state.slpMempool == st.slpMempool[txid := raw]
      && r.state.ignored == st.ignored
      && (forall o :: o in p.inputsOf(raw) && !IsCoinbasePlaceholder(o.prevHash) ==>
            o in r.state.spent && r.state.spent[o] == SpentClaim(txid, None))
      && (forall o :: o in st.spent && o !in p.inputsOf(raw) ==> o in r.state.spent && r.state.spent[o] == st.spent[o])
    // rejected after processing: ignored from now on, tracked mempool untouched
    ensures !r.verdict.isSlp && r.state != st ==>
      r.state.ignored == st.ignored + {txid} && r.state.slpMempool == st.slpMempool && r.state.spent == st.spent
    // double spends are recorded whether or not the newcomer is relevant
    ensures txid !in st.slpMempool && txid !in st.ignored && RawFor(txid, txnBuf, fetch).Some? ==>
      var inputs := p.inputsOf(RawFor(txid, txnBuf, fetch).value);
      && (forall o :: o in Contested(st.spent, txid, inputs) ==>
            o in r.state.doubleSpends && r.state.doubleSpends[o] == DoubleSpend(st.spent[o].txid, txid))
      && r.state.tokens == st.tokens - Losers(st.spent, txid, inputs)
    // the store calls open with the double-spend pass's deletes, which remove
    // every loser from both stores; at most a graph scan of losers follows,
    // and it is issued whenever some loser was not a token
    ensures txid !in st.slpMempool && txid !in st.ignored && RawFor(txid, txnBuf, fetch).Some? ==>
      var inputs := p.inputsOf(RawFor(txid, txnBuf, fetch).value);
      var losers := Losers(st.spent, txid, inputs);
      var ds := DetectDoubleSpends(st, txid, inputs);
      && ds.effects <= r.effects
      && (forall l :: l in losers ==> UnconfirmedDelete([l]) in r.effects && ConfirmedDelete(l) in r.effects)
      && (forall e :: e in r.effects[|ds.effects|..] ==> e.ScanGraphsForDoubleSpends? && e.doomed <= losers)
      && (losers - st.tokens != {} ==> ScanGraphsForDoubleSpends(ds.doomed) in r.effects)
  {
    if txid in st.slpMempool then MempoolStep(Verdict(true, false), st, [])
    else if txid in st.ignored then MempoolStep(Verdict(false, false), st, [])
    else
      match RawFor(txid, txnBuf, fetch)
      case None => MempoolStep(Verdict(false, false), st, [])
      case Some(raw) =>
        var r := Admit(p, st, txid, raw);
        AdmitEffects(p, st, txid, raw);
        assert !r.verdict.isSlp ==> r.state != st by {
          assert !r.verdict.isSlp ==> txid in r.state.ignored;
        }
        r
  }

  /** A second notification of an accepted transaction changes nothing. */
  lemma HandleIsIdempotent(p: Parser, st: MempoolState, txid: Txid, txnBuf: Option<Bytes>,
                           again: Option<Bytes>, fetch: Txid -> Option<Bytes>)
    requires HandleMempoolTransaction(p, st, txid, txnBuf, fetch).verdict.added
    ensures var st' := HandleMempoolTransaction(p, st, txid, txnBuf, fetch).state;
      HandleMempoolTransaction(p, st', txid, again, fetch) == MempoolStep(Verdict(true, false), st', [])
  {
  }

  /** A rejected transaction is answered from the ignore set from then on. */
  lemma RejectedStaysIgnored(p: Parser, st: MempoolState, txid: Txid, raw: Bytes,
                             again: Option<Bytes>, fetch: Txid -> Option<Bytes>)
    requires txid !in st.slpMempool && txid !in st.ignored
    requires !IsRelevant(p, raw)
    ensures var st' := HandleMempoolTransaction(p, st, txid, Some(raw), fetch).state;
      HandleMempoolTransaction(p, st', txid, again, fetch) == MempoolStep(Verdict(false, false), st', [])
  {
    var r := HandleMempoolTransaction(p, st, txid, Some(raw), fetch);
    assert r == Admit(p, st, txid, raw);
    assert txid in r.state.ignored;
    assert txid !in r.state.slpMempool;
  }

  /** The double-spend scenario: X is tracked and claims (Y, 0); Z arrives,
      also spends (Y, 0), and is relevant.  Afterwards Z owns the outpoint and
      a record keyed (Y, 0) names X as original and Z as current, but X is
      still tracked, because the source does not remove it. */
  lemma DoubleSpendReplacesClaim(p: Parser, st: MempoolState, x: Txid, z: Txid, y: Hash, raw: Bytes,
                                 fetch: Txid -> Option<Bytes>)
    requires x != z && x in st.slpMempool
    requires z !in st.slpMempool && z !in st.ignored
    requires !IsCoinbasePlaceholder(y)
    requires Outpoint(y, 0) in st.spent && st.spent[Outpoint(y, 0)].txid == x
    requires p.inputsOf(raw) == [Outpoint(y, 0)] && IsRelevant(p, raw)
    ensures var r := HandleMempoolTransaction(p, st, z, Some(raw), fetch);
      && r.verdict == Verdict(true, true)
      && r.state.spent[Outpoint(y, 0)] == SpentClaim(z, None)
      && r.state.doubleSpends[Outpoint(y, 0)] == DoubleSpend(x, z)
      && x in r.state.slpMempool
      && UnconfirmedDelete([x]) in r.effects
  {
    var inputs := [Outpoint(y, 0)];
    assert Outpoint(y, 0) in Contested(st.spent, z, inputs);
    assert x in Losers(st.spent, z, inputs);
    var ds := DetectDoubleSpends(st, z, inputs);
    var r := HandleMempoolTransaction(p, st, z, Some(raw), fetch);
    assert r == Admit(p, st, z, raw);
    assert r.effects[..|ds.effects|] == ds.effects;
  }

  /** A transaction re-spending outpoints it already claims is not a double
      spend: no record, no token dropped, no effect. */
  lemma SelfClaimIsNotDoubleSpend(st: MempoolState, txid: Txid, inputs: seq<Outpoint>)
    requires forall o :: o in inputs && o in st.spent ==> st.spent[o].txid == txid
    ensures DetectDoubleSpends(st, txid, inputs) == DsPass(st, {}, [])
  {
    assert Contested(st.spent, txid, inputs) == {};
  }

  // ---------------------------------------------------------------------
  // removeExtraneousMempoolTxns

  /** The txids of the unconfirmed store that the node no longer lists, in
      store order and without repeats (the source collects them in a Set). */
  function Extraneous(unconfirmed: seq<Txid>, nodeMempool: seq<Txid>, acc: seq<Txid>): (r: seq<Txid>)
    requires NoDup(acc)
    ensures NoDup(r)
    ensures Elems(r) == Elems(acc) + (Elems(unconfirmed) - Elems(nodeMempool))
    ensures Extends(acc, r)
    decreases |unconfirmed|
  {
    if |unconfirmed| == 0 then acc
    else
      var t := unconfirmed[0];
      assert Elems(unconfirmed) == {t} + Elems(unconfirmed[1..]);
      if t !in nodeMempool && t !in acc then
        AppendFresh(acc, t);
        var r := Extraneous(unconfirmed[1..], nodeMempool, acc + [t]);
        assert r[..|acc|] == (acc + [t])[..|acc|];
        r
      else Extraneous(unconfirmed[1..], nodeMempool, acc)
  }

  datatype Reconciled = Reconciled(state: MempoolState, effects: seq<StoreEffect>)

  /** `removeExtraneousMempoolTxns`: every txid of the unconfirmed store that
      the node's mempool no longer lists is dropped from the tracked mempool
      and scheduled for deletion.  Only the store's txids are candidates. */
  function RemoveExtraneousMempoolTxns(st: MempoolState, nodeMempool: seq<Txid>, unconfirmed: seq<Txid>)
    : (r: Reconciled)
    ensures var gone := Elems(unconfirmed) - Elems(nodeMempool);
      && r.state.slpMempool.Keys == st.slpMempool.Keys - gone
      && (forall t :: t in r.state.slpMempool ==> r.state.slpMempool[t] == st.slpMempool[t])
      && |r.effects| == 1 && r.effects[0].UnconfirmedDelete?
      && NoDup(r.effects[0].txids) && Elems(r.effects[0].txids) == gone
    ensures r.state == st.(slpMempool := r.state.slpMempool)
  {
    var toDelete := Extraneous(unconfirmed, nodeMempool, []);
    var gone := Elems(toDelete);
    Reconciled(
      st.(slpMempool := map t | t in st.slpMempool && t !in gone :: st.slpMempool[t]),
      [UnconfirmedDelete(toDelete)])
  }

  /** A tracked transaction the node still lists survives reconciliation,
      and so does one the node dropped but the unconfirmed store never held. */
  lemma ReconcileKeepsListedAndUnstored(st: MempoolState, nodeMempool: seq<Txid>, unconfirmed: seq<Txid>, t: Txid)
    requires t in st.slpMempool
    requires t in nodeMempool || t !in unconfirmed
    ensures var r := RemoveExtraneousMempoolTxns(st, nodeMempool, unconfirmed);
      t in r.state.slpMempool && r.state.slpMempool[t] == st.slpMempool[t]
  {
  }

  // ---------------------------------------------------------------------
  // removeReorgTransactionsAtHeight

  /** A confirmed record at the rolled-back height: its txid, the token id of
      its SLP details, and its inputs' previous outpoints. */
  datatype ConfirmedRecord = ConfirmedRecord(txid: Txid, tokenId: TokenId, inputs: seq<Outpoint>)

  /** The run: the state reached, the effects issued, and whether it threw
      (a record whose token graph is not held: `tg!` is undefined).  State
      changes made before a throw are kept, as in the source. */
  datatype RemovalRun = RemovalRun(state: MempoolState, effects: seq<StoreEffect>, thrown: bool)

  /** All outpoints the records spend. */
  function SpentBy(records: seq<ConfirmedRecord>): set<Outpoint> {
    set i, o | 0 <= i < |records| && o in records[i].inputs :: o
  }

  function TxidsOf(records: seq<ConfirmedRecord>): set<Txid> {
    set i | 0 <= i < |records| :: records[i].txid
  }

  /** The txids and spent outpoints of a list are those of its head and of
      its tail. */
  lemma RecordsSplit(records: seq<ConfirmedRecord>)
    requires |records| > 0
    ensures TxidsOf(records) == {records[0].txid} + TxidsOf(records[1..])
    ensures SpentBy(records) == Elems(records[0].inputs) + SpentBy(records[1..])
  {
    var t := records[0];
    forall x | x in TxidsOf(records) ensures x in {t.txid} + TxidsOf(records[1..]) {
      var i :| 0 <= i < |records| && records[i].txid == x;
      if i > 0 { assert records[1..][i - 1] == records[i]; }
    }
    forall x | x in TxidsOf(records[1..]) ensures x in TxidsOf(records) {
      var i :| 0 <= i < |records[1..]| && records[1..][i].txid == x;
      assert records[i + 1] == records[1..][i];
    }
    forall o | o in SpentBy(records) ensures o in Elems(t.inputs) + SpentBy(records[1..]) {
      var i :| 0 <= i < |records| && o in records[i].inputs;
      if i > 0 { assert records[1..][i - 1] == records[i]; }
    }
    forall o | o in SpentBy(records[1..]) ensures o in SpentBy(records) {
      var i :| 0 <= i < |records[1..]| && o in records[1..][i].inputs;
      assert records[i + 1] == records[1..][i];
    }
    forall o | o in Elems(t.inputs) ensures o in SpentBy(records) {
      assert o in records[0].inputs;
    }
  }

  /** One record: drop its txid from the tracked mempool and the ignore
      set; then, if its token graph is held, remove it from the graph, free
      its inputs, and drop the graph when that left it empty. */
  function RemoveFirst(st: MempoolState, t: ConfirmedRecord, emptied: (TokenId, Txid) -> bool): (r: RemovalRun)
    ensures r.state.slpMempool.Keys == st.slpMempool.Keys - {t.txid}
    ensures r.state.ignored == st.ignored - {t.txid}
    ensures r.thrown <==> t.tokenId !in st.tokens
    ensures r.thrown ==> r.state.spent == st.spent && r.state.tokens == st.tokens && r.effects == []
    ensures !r.thrown ==> r.state.spent.Keys == st.spent.Keys - Elems(t.inputs)
    ensures r.state.tokens == st.tokens || (!r.thrown && emptied(t.tokenId, t.txid) && r.state.tokens == st.tokens - {t.tokenId})
    ensures r.state.doubleSpends == st.doubleSpends
    ensures forall e :: e in r.effects ==> !e.ConfirmedDeleteForReorg?
  {
    var s1 := st.(ignored := st.ignored - {t.txid},
                  slpMempool := map x | x in st.slpMempool && x != t.txid :: st.slpMempool[x]);
    if t.tokenId !in s1.tokens then RemovalRun(s1, [], true)
    else
      var s2 := s1.(spent := map o | o in s1.spent && o !in t.inputs :: s1.spent[o]);
      var drop := emptied(t.tokenId, t.txid);
      var s3 := if drop then s2.(tokens := s2.tokens - {t.tokenId}) else s2;
      var fx := [RemoveFromGraph(t.tokenId, t.txid), CommitGraph(t.tokenId)]
        + (if drop then [TokenDelete(t.tokenId)] else []);
      RemovalRun(s3, fx, false)
  }

  /** A run that did not throw removed every record's txid and inputs, and
      every record's token graph was held. */
  ghost predicate RemovedAll(st: MempoolState, records: seq<ConfirmedRecord>, r: RemovalRun) {
    !r.thrown ==>
      && r.state.slpMempool.Keys == st.slpMempool.Keys - TxidsOf(records)
      && r.state.ignored == st.ignored - TxidsOf(records)
      && r.state.spent.Keys == st.spent.Keys - SpentBy(records)
      && (forall i :: 0 <= i < |records| ==> records[i].tokenId in st.tokens)
  }

  /** Graphs are only ever dropped, double-spend records are untouched, and
      the bulk delete is not part of the loop. */
  ghost predicate RemovalFrame(st: MempoolState, r: RemovalRun) {
    && r.state.tokens <= st.tokens
    && r.state.doubleSpends == st.doubleSpends
    && (forall e :: e in r.effects ==> !e.ConfirmedDeleteForReorg?)
  }

  /** When every record's graph is held and none is emptied, the run does
      not throw and keeps every graph. */
  ghost predicate RemovalKeepsGraphs(st: MempoolState, records: seq<ConfirmedRecord>,
                                     emptied: (TokenId, Txid) -> bool, r: RemovalRun) {
    (forall i :: 0 <= i < |records| ==> records[i].tokenId in st.tokens && !emptied(records[i].tokenId, records[i].txid))
      ==> !r.thrown && r.state.tokens == st.tokens
  }

  lemma RemovedAllStep(st: MempoolState, records: seq<ConfirmedRecord>, emptied: (TokenId, Txid) -> bool, rest: RemovalRun)
    requires |records| > 0
    requires !RemoveFirst(st, records[0], emptied).thrown
    requires RemovedAll(RemoveFirst(st, records[0], emptied).state, records[1..], rest)
    requires rest.state.tokens <= RemoveFirst(st, records[0], emptied).state.tokens
    ensures var first := RemoveFirst(st, records[0], emptied);
      RemovedAll(st, records, RemovalRun(rest.state, first.effects + rest.effects, rest.thrown))
  {
    RecordsSplit(records);
    var first := RemoveFirst(st, records[0], emptied);
    if !rest.thrown {
      forall i | 0 <= i < |records|
        ensures records[i].tokenId in st.tokens
      {
        if i > 0 {
          assert records[i] == records[1..][i - 1];
        }
      }
    }
  }

  lemma RemovalFrameStep(st: MempoolState, records: seq<ConfirmedRecord>, emptied: (TokenId, Txid) -> bool, rest: RemovalRun)
    requires |records| > 0
    requires RemovalFrame(RemoveFirst(st, records[0], emptied).state, rest)
    ensures var first := RemoveFirst(st, records[0], emptied);
      RemovalFrame(st, RemovalRun(rest.state, first.effects + rest.effects, rest.thrown))
  {
    var first := RemoveFirst(st, records[0], emptied);
    assert forall e :: e in first.effects + rest.effects ==> e in first.effects || e in rest.effects;
  }

  lemma RemovalKeepsGraphsStep(st: MempoolState, records: seq<ConfirmedRecord>, emptied: (TokenId, Txid) -> bool, rest: RemovalRun)
    requires |records| > 0
    requires !RemoveFirst(st, records[0], emptied).thrown
    requires RemovalKeepsGraphs(RemoveFirst(st, records[0], emptied).state, records[1..], emptied, rest)
    ensures var first := RemoveFirst(st, records[0], emptied);
      RemovalKeepsGraphs(st, records, emptied, RemovalRun(rest.state, first.effects + rest.effects, rest.thrown))
  {
    var tail := records[1..];
    if forall i :: 0 <= i < |records| ==> records[i].tokenId in st.tokens && !emptied(records[i].tokenId, records[i].txid) {
      assert forall i :: 0 <= i < |tail| ==> tail[i] == records[i + 1];
    }
  }

  /** The per-record loop; `emptied(token, txid)` is whether the graph is
      empty after removing `txid` from it (`graphSize === 0`). */
  function RemoveRecords(st: MempoolState, records: seq<ConfirmedRecord>, emptied: (TokenId, Txid) -> bool)
    : (r: RemovalRun)
    ensures RemovedAll(st, records, r)
    ensures RemovalFrame(st, r)
    ensures RemovalKeepsGraphs(st, records, emptied, r)
    decreases |records|
  {
    if |records| == 0 then RemovalRun(st, [], false)
    else
      var first := RemoveFirst(st, records[0], emptied);
      if first.thrown then first
      else
        var rest := RemoveRecords(first.state, records[1..], emptied);
        RemovedAllStep(st, records, emptied, rest);
        RemovalFrameStep(st, records, emptied, rest);
        RemovalKeepsGraphsStep(st, records, emptied, rest);
        RemovalRun(rest.state, first.effects + rest.effects, rest.thrown)
  }

  /** `removeReorgTransactionsAtHeight(height)`: undo every confirmed record
      at `height`, then bulk-delete the height's records from the store. */
  function RemoveReorgTransactionsAtHeight(st: MempoolState, height: int, records: seq<ConfirmedRecord>,
                                           emptied: (TokenId, Txid) -> bool): (r: RemovalRun)
    ensures !r.thrown ==>
      && (forall i :: 0 <= i < |records| ==> records[i].txid !in r.state.slpMempool && records[i].txid !in r.state.ignored)
      && (forall o :: o in SpentBy(records) ==> o !in r.state.spent)
      && (forall o :: o in st.spent && o !in SpentBy(records) ==> o in r.state.spent)
      && |r.effects| > 0 && r.effects[|r.effects| - 1] == ConfirmedDeleteForReorg(height)
    ensures r.thrown ==> ConfirmedDeleteForReorg(height) !in r.effects
    // nothing else is removed: the other tracked, ignored and claimed entries stay
    ensures !r.thrown ==>
      && r.state.slpMempool.Keys == st.slpMempool.Keys - TxidsOf(records)
      && r.state.ignored == st.ignored - TxidsOf(records)
      && r.state.spent.Keys == st.spent.Keys - SpentBy(records)
    // graphs are only dropped and double-spend records are untouched, thrown or not
    ensures r.state.tokens <= st.tokens && r.state.doubleSpends == st.doubleSpends
  {
    var run := RemoveRecords(st, records, emptied);
    if run.thrown then run
    else RemovalRun(run.state, run.effects + [ConfirmedDeleteForReorg(height)], false)
  }
}

=== FILE: reorg.dfy ===
/** The reorg check that runs before each block sync (bit.ts
    `checkForBlockReorg`).  Starting from the stored checkpoint height it
    first walks down until the node knows a block hash at the height, then
    walks down further while the hash the indexer stored for the height
    disagrees with the node's.  Every height left behind is rolled back; the
    walk never goes below the configured start height and gives up after a
    hundred steps in either phase. */
module Reorg {
  import opened Types

  /** The most heights either phase may roll back before giving up. */
  const MaxRollback: nat := 100

  /** A block hash as the node and the info store hand it out; the source
      tests them for truthiness, so the empty string never occurs. */
  type BlockHash = s: string | |s| > 0 witness "0"

  /** What the check sees: `actual(h)` is the node's hash at height `h`
      (None when the RPC call throws); `stored(h)` is the hash the indexer
      recorded for `h` (None when there is none); `rollbackFails(h)` tells
      whether rolling back the transactions of `h` throws (the height holds
      a record whose token graph is not held, see
      `Mempool.RemoveReorgTransactionsAtHeight`). */
  datatype Chain = Chain(actual: int -> Option<BlockHash>, stored: int -> Option<BlockHash>,
                         rollbackFails: int -> bool)

  /** A sync checkpoint. */
  datatype Checkpoint = Checkpoint(height: int, hash: Option<BlockHash>, hadReorg: bool)

  /** Store calls issued by the check: rolling back every confirmed
      transaction of a height (modelled by `Mempool.RemoveReorgTransactionsAtHeight`)
      and overwriting the stored checkpoint. */
  datatype ReorgEffect = RollBack(height: int) | WriteCheckpoint(height: int, hash: Option<BlockHash>)

  datatype ReorgError =
    | TooManyMissingHashes   // more than MaxRollback heights without a node hash
    | TooManyMismatches      // more than MaxRollback heights whose stored hash disagrees
    | NodeCallFailed         // the node threw while re-reading a hash in phase two
    | RollbackFailed         // rolling back a height's transactions threw

  /** Everything the check did, and how it ended.  Effects issued before a
      throw have happened all the same. */
  datatype ReorgRun = ReorgRun(effects: seq<ReorgEffect>, result: Result<Checkpoint, ReorgError>)

  /** How the first phase ends: with a height the node knows, or with the
      whole check's result. */
  datatype PhaseEnd =
    | Found(height: int, hash: BlockHash, count: nat, hadReorg: bool)
    | Stopped(result: Result<Checkpoint, ReorgError>)

  /** The checkpoint returned when the walk reaches the start height. */
  function FloorCheckpoint(from: int): Checkpoint {
    Checkpoint(from, None, true)
  }

  /** The heights rolled back, in the order of the effects. */
  function Rollbacks(fx: seq<ReorgEffect>): seq<int> {
    if |fx| == 0 then []
    else (if fx[0].RollBack? then [fx[0].height] else []) + Rollbacks(fx[1..])
  }

  lemma {:induction false} RollbacksAppend(a: seq<ReorgEffect>, b: seq<ReorgEffect>)
    ensures Rollbacks(a + b) == Rollbacks(a) + Rollbacks(b)
    decreases |a|
  {
    if |a| == 0 {
      assert a + b == b;
    } else {
      var ab := a + b;
      assert ab[0] == a[0];
      assert ab[1..] == a[1..] + b;
      RollbacksAppend(a[1..], b);
      var head := if a[0].RollBack? then [a[0].height] else [];
      assert Rollbacks(ab) == head + Rollbacks(a[1..] + b);
      assert Rollbacks(a) == head + Rollbacks(a[1..]);
    }
  }

  /** The effects roll back a contiguous run of heights counting down from
      `top` (`top`, `top - 1`, ...), all of them above the floor. */
  ghost predicate Descends(fx: seq<ReorgEffect>, top: int, from: int) {
    var rs := Rollbacks(fx);
    (forall i :: 0 <= i < |rs| ==> rs[i] == top - i) && (|rs| > 0 ==> top - |rs| >= from)
  }

  /** The node had no hash for any height rolled back. */
  ghost predicate NodeLacks(c: Chain, fx: seq<ReorgEffect>) {
    forall x :: x in Rollbacks(fx) ==> c.actual(x).None?
  }

  /** The last height rolled back is one whose rollback throws. */
  ghost predicate LastRollbackFails(c: Chain, fx: seq<ReorgEffect>) {
    var rs := Rollbacks(fx);
    |rs| > 0 && c.rollbackFails(rs[|rs| - 1])
  }

  /** The stored hash disagreed with the node's at every height rolled back,
      where the stored hash read for `h` is `stored`. */
  ghost predicate StoreDisagrees(c: Chain, fx: seq<ReorgEffect>, h: int, stored: Option<BlockHash>) {
    forall x :: x in Rollbacks(fx) ==> (if x == h then stored else c.stored(x)) != c.actual(x)
  }

  /** Two runs, the second starting where the first stopped, make one run. */
  lemma DescendsJoin(a: seq<ReorgEffect>, b: seq<ReorgEffect>, top: int, from: int)
    requires Descends(a, top, from) && Descends(b, top - |Rollbacks(a)|, from)
    ensures Descends(a + b, top, from)
    ensures |Rollbacks(a + b)| == |Rollbacks(a)| + |Rollbacks(b)|
  {
    var ra, rb := Rollbacks(a), Rollbacks(b);
    RollbacksAppend(a, b);
    var rs := ra + rb;
    assert Rollbacks(a + b) == rs;
    forall i | 0 <= i < |rs|
      ensures rs[i] == top - i
    {
      if i >= |ra| {
        assert rs[i] == rb[i - |ra|];
      } else {
        assert rs[i] == ra[i];
      }
    }
  }

  lemma NodeLacksJoin(c: Chain, a: seq<ReorgEffect>, b: seq<ReorgEffect>)
    requires NodeLacks(c, a) && NodeLacks(c, b)
    ensures NodeLacks(c, a + b)
  {
    RollbacksAppend(a, b);
  }

  /** A rollback of `h`, whose stored hash was read as `stored`, in front of
      a run that re-read the stored hashes from `h - 1` down. */
  lemma StoreDisagreesStep(c: Chain, h: int, stored: Option<BlockHash>, rest: seq<ReorgEffect>)
    requires stored != c.actual(h)
    requires StoreDisagrees(c, rest, h - 1, c.stored(h - 1))
    ensures StoreDisagrees(c, [RollBack(h)] + rest, h, stored)
  {
    assert Rollbacks([RollBack(h)]) == [h];
    RollbacksAppend([RollBack(h)], rest);
  }

  /** A rollback of `h`, above the floor, in front of a run descending from
      `h - 1`. */
  lemma DescendsStep(step: seq<ReorgEffect>, rest: seq<ReorgEffect>, h: int, from: int)
    requires Rollbacks(step) == [h] && h > from
    requires Descends(rest, h - 1, from)
    ensures Descends(step + rest, h, from)
  {
    DescendsJoin(step, rest, h, from);
  }

  /** The effects of one step of the first phase that rolls `h` back. */
  function MissingStep(h: int): (fx: seq<ReorgEffect>)
    ensures Rollbacks(fx) == [h]
  {
    var fx := [RollBack(h), WriteCheckpoint(h - 1, None)];
    assert fx[1..] == [WriteCheckpoint(h - 1, None)];
    assert fx[1..][1..] == [];
    assert Rollbacks(fx[1..]) == [];
    fx
  }

  /** A phase that started at `h` with `count` rollbacks done (and `had`
      telling whether an earlier step rolled back) settled on `height` with
      effects `fx`: the height sits just below the run rolled back, the
      reorg flag tells whether anything was rolled back, and a rollback
      always ends with `hash` written as the checkpoint. */
  ghost predicate Settled(fx: seq<ReorgEffect>, h: int, count: nat, had: bool,
                          height: int, hash: Option<BlockHash>, hadReorg: bool) {
    var n := |Rollbacks(fx)|;
    && height == h - n
    && (hadReorg <==> had || n > 0)
    && (count + n > 0 ==> |fx| > 0 && fx[|fx| - 1] == WriteCheckpoint(height, hash))
    && (count + n == 0 ==> fx == [])
  }

  /** A rollback of `h` followed by a run that settled from `h - 1`. */
  lemma SettledStep(step: seq<ReorgEffect>, rest: seq<ReorgEffect>, h: int, count: nat, had: bool,
                    height: int, hash: Option<BlockHash>, hadReorg: bool)
    requires Rollbacks(step) == [h]
    requires Settled(rest, h - 1, count + 1, true, height, hash, hadReorg)
    ensures Settled(step + rest, h, count, had, height, hash, hadReorg)
  {
    RollbacksAppend(step, rest);
    var fx := step + rest;
    assert fx[|fx| - 1] == rest[|rest| - 1];
  }

  /** The first phase settled on `h1` with hash `x`, and the second phase,
      started there, settled on `h2`: together they settled on `h2`. */
  lemma SettledJoin(a: seq<ReorgEffect>, b: seq<ReorgEffect>, top: int, h1: int, x: BlockHash, had1: bool,
                    h2: int, y: Option<BlockHash>, had2: bool)
    requires Settled(a, top, 0, false, h1, Some(x), had1)
    requires Settled(b, h1, 0, had1, h2, y, had2)
    requires |Rollbacks(b)| == 0 ==> y == Some(x)
    ensures Settled(a + b, top, 0, false, h2, y, had2)
  {
    RollbacksAppend(a, b);
    var fx := a + b;
    if |Rollbacks(b)| > 0 {
      assert fx[|fx| - 1] == b[|b| - 1];
    } else {
      assert fx == a;
    }
  }

  /** The first phase's loop, from height `h` with `count` rollbacks done:
      fetch the node's hash; if there is none and the height is above the
      floor, roll the height back.  After a rollback the (possibly absent)
      hash is written as the checkpoint; at or below the floor the check
      ends with the floor checkpoint. */
  function FindActual(c: Chain, from: int, h: int, count: nat, had: bool): (r: (seq<ReorgEffect>, PhaseEnd))
    requires count <= MaxRollback
    ensures r.1.Found? ==> r.1.height > from && c.actual(r.1.height) == Some(r.1.hash)
    ensures r.1.Stopped? && r.1.result.Success? ==> r.1.result.value == FloorCheckpoint(from)
    ensures r.1.Stopped? && r.1.result.Failure? ==>
      r.1.result.error == TooManyMissingHashes || r.1.result.error == RollbackFailed
    // a hash found after rolling back sits just below a height the node lacks
    ensures r.1.Found? ==> count <= r.1.count && (r.1.count == count ==> r.1.height == h)
    ensures r.1.Found? && r.1.count > count ==> c.actual(r.1.height + 1).None?
    decreases MaxRollback - count
  {
    match c.actual(h)
    case Some(a) =>
      if count > 0 && h > from then
        ([WriteCheckpoint(h, Some(a))], Found(h, a, count, had))
      else if h <= from then
        ([], Stopped(Success(FloorCheckpoint(from))))
      else
        ([], Found(h, a, count, had))
    case None =>
      if h <= from then
        ([], Stopped(Success(FloorCheckpoint(from))))
      else if c.rollbackFails(h) then
        ([RollBack(h)], Stopped(Failure(RollbackFailed)))
      else if h - 1 <= from then
        // rolled back onto the floor: no checkpoint write
        ([RollBack(h)], Stopped(Success(FloorCheckpoint(from))))
      else if count + 1 > MaxRollback then
        (MissingStep(h), Stopped(Failure(TooManyMissingHashes)))
      else
        var rest := FindActual(c, from, h - 1, count + 1, true);
        (MissingStep(h) + rest.0, rest.1)
  }

  /** One recursive step of the first phase: `h` is rolled back in front of
      the rest of the run. */
  lemma FindActualRecurse(c: Chain, from: int, h: int, count: nat, had: bool)
    requires count + 1 <= MaxRollback && c.actual(h).None? && h - 1 > from && !c.rollbackFails(h)
    ensures var r := FindActual(c, from, h, count, had);
      var rest := FindActual(c, from, h - 1, count + 1, true);
      && r.0 == MissingStep(h) + rest.0 && r.1 == rest.1
      && Rollbacks(r.0) == [h] + Rollbacks(rest.0)
  {
    var rest := FindActual(c, from, h - 1, count + 1, true);
    RollbacksAppend(MissingStep(h), rest.0);
  }

  /** The steps of the first phase that do not recurse roll back at most `h`,
      and only when the node lacks it. */
  lemma FindActualLast(c: Chain, from: int, h: int, count: nat, had: bool)
    requires count <= MaxRollback
    requires !(c.actual(h).None? && h - 1 > from && count + 1 <= MaxRollback && !c.rollbackFails(h))
    ensures var r := FindActual(c, from, h, count, had);
      && (c.actual(h).Some? || h <= from ==> Rollbacks(r.0) == [])
      && (c.actual(h).None? && h > from ==> Rollbacks(r.0) == [h])
      && (r.1.Stopped? && r.1.result == Failure(TooManyMissingHashes) ==> count + 1 == MaxRollback + 1)
      && (r.1.Stopped? && r.1.result == Failure(RollbackFailed) ==> c.rollbackFails(h))
  {
    var r := FindActual(c, from, h, count, had);
    assert Rollbacks([RollBack(h)]) == [h];
    assert Rollbacks([WriteCheckpoint(h, c.actual(h))]) == [];
  }

  /** The first phase rolls back a contiguous run of heights below `h`, all
      above the floor, and only heights the node has no hash for. */
  lemma {:induction false} FindActualDescends(c: Chain, from: int, h: int, count: nat, had: bool)
    requires count <= MaxRollback
    ensures var r := FindActual(c, from, h, count, had);
      Descends(r.0, h, from) && NodeLacks(c, r.0)
    decreases MaxRollback - count
  {
    if c.actual(h).None? && h - 1 > from && count + 1 <= MaxRollback && !c.rollbackFails(h) {
      FindActualDescends(c, from, h - 1, count + 1, true);
      FindActualDescendsStep(c, from, h, count, had);
    } else {
      FindActualLast(c, from, h, count, had);
    }
  }

  /** A missing height rolled back in front of a contiguous run of missing
      heights below it. */
  lemma FindActualDescendsStep(c: Chain, from: int, h: int, count: nat, had: bool)
    requires count + 1 <= MaxRollback && c.actual(h).None? && h - 1 > from && !c.rollbackFails(h)
    requires var rest := FindActual(c, from, h - 1, count + 1, true);
      Descends(rest.0, h - 1, from) && NodeLacks(c, rest.0)
    ensures var r := FindActual(c, from, h, count, had);
      Descends(r.0, h, from) && NodeLacks(c, r.0)
  {
    var rest := FindActual(c, from, h - 1, count + 1, true);
    FindActualRecurse(c, from, h, count, had);
    DescendsStep(MissingStep(h), rest.0, h, from);
    NodeLacksJoin(c, MissingStep(h), rest.0);
  }

  /** When the first phase finds a hash, it sits just below the run rolled
      back; the phase reports whether it rolled anything back, and a
      rollback always ends with the found hash written as the checkpoint. */
  lemma {:induction false} FindActualFound(c: Chain, from: int, h: int, count: nat, had: bool)
    requires count <= MaxRollback && (count > 0 ==> had)
    ensures var r := FindActual(c, from, h, count, had);
      r.1.Found? ==>
        && Settled(r.0, h, count, had, r.1.height, Some(r.1.hash), r.1.hadReorg)
        && r.1.count == count + |Rollbacks(r.0)| <= MaxRollback
    decreases MaxRollback - count
  {
    if c.actual(h).None? && h - 1 > from && count + 1 <= MaxRollback && !c.rollbackFails(h) {
      FindActualFound(c, from, h - 1, count + 1, true);
      FindActualFoundStep(c, from, h, count, had);
    } else {
      FindActualFoundLast(c, from, h, count, had);
    }
  }

  /** A found hash below a rolled-back height: the step in front keeps the
      run settled. */
  lemma FindActualFoundStep(c: Chain, from: int, h: int, count: nat, had: bool)
    requires count + 1 <= MaxRollback && c.actual(h).None? && h - 1 > from && !c.rollbackFails(h)
    requires var rest := FindActual(c, from, h - 1, count + 1, true);
      rest.1.Found? ==>
        && Settled(rest.0, h - 1, count + 1, true, rest.1.height, Some(rest.1.hash), rest.1.hadReorg)
        && rest.1.count == count + 1 + |Rollbacks(rest.0)| <= MaxRollback
    ensures var r := FindActual(c, from, h, count, had);
      r.1.Found? ==>
        && Settled(r.0, h, count, had, r.1.height, Some(r.1.hash), r.1.hadReorg)
        && r.1.count == count + |Rollbacks(r.0)| <= MaxRollback
  {
    var rest := FindActual(c, from, h - 1, count + 1, true);
    FindActualRecurse(c, from, h, count, had);
    if rest.1.Found? {
      SettledStep(MissingStep(h), rest.0, h, count, had, rest.1.height, Some(rest.1.hash), rest.1.hadReorg);
    }
  }

  /** The steps of the first phase that do not recurse. */
  lemma FindActualFoundLast(c: Chain, from: int, h: int, count: nat, had: bool)
    requires count <= MaxRollback && (count > 0 ==> had)
    requires !(c.actual(h).None? && h - 1 > from && count + 1 <= MaxRollback && !c.rollbackFails(h))
    ensures var r := FindActual(c, from, h, count, had);
      r.1.Found? ==>
        && Settled(r.0, h, count, had, r.1.height, Some(r.1.hash), r.1.hadReorg)
        && r.1.count == count + |Rollbacks(r.0)| <= MaxRollback
  {
    var r := FindActual(c, from, h, count, had);
    if c.actual(h).Some? {
      var a := c.actual(h).value;
      if count > 0 && h > from {
        assert r == ([WriteCheckpoint(h, Some(a))], Found(h, a, count, had));
        assert Rollbacks([WriteCheckpoint(h, Some(a))]) == [];
      } else if h <= from {
        assert r.1.Stopped?;
      } else {
        assert r == ([], Found(h, a, count, had));
      }
    } else {
      assert r.1.Stopped?;
    }
  }

  /** The first phase gives up only after rolling back more than a hundred
      heights, or when the last height it rolls back throws; otherwise it
      rolls back at most one more than a hundred, the last one landing on
      the floor. */
  lemma {:induction false} FindActualGivesUp(c: Chain, from: int, h: int, count: nat, had: bool)
    requires count <= MaxRollback
    ensures var r := FindActual(c, from, h, count, had);
      && (r.1.Stopped? && r.1.result == Failure(TooManyMissingHashes) ==> count + |Rollbacks(r.0)| == MaxRollback + 1)
      && (r.1.Stopped? && r.1.result == Failure(RollbackFailed) ==> LastRollbackFails(c, r.0))
      && (r.1.Stopped? && r.1.result.Success? ==> count + |Rollbacks(r.0)| <= MaxRollback + 1)
    decreases MaxRollback - count
  {
    if c.actual(h).None? && h - 1 > from && count + 1 <= MaxRollback && !c.rollbackFails(h) {
      FindActualRecurse(c, from, h, count, had);
      FindActualGivesUp(c, from, h - 1, count + 1, true);
    } else {
      FindActualLast(c, from, h, count, had);
    }
  }

  /** The second phase's loop, at height `h` whose node hash is known and
      whose stored hash was read as `stored`: while the two differ and the
      height is above the floor, roll the height back and re-read both
      hashes one height down.  After a rollback the matching hash is written
      as the checkpoint. */
  function MatchStored(c: Chain, from: int, h: int, stored: Option<BlockHash>, count: nat, had: bool): (r: ReorgRun)
    requires c.actual(h).Some? && count <= MaxRollback
    // a kept hash is the node's, above the floor, and equals the stored hash
    // read for its height
    ensures r.result.Success? && r.result.value.hash.Some? ==>
      var cp := r.result.value;
      && cp.height > from && cp.height <= h
      && cp.hash == c.actual(cp.height)
      && cp.hash == (if cp.height == h then stored else c.stored(cp.height))
    ensures r.result.Success? && r.result.value.hash.None? ==> r.result.value == FloorCheckpoint(from)
    ensures r.result.Failure? ==> r.result.error != TooManyMissingHashes
    decreases MaxRollback - count
  {
    var actual := c.actual(h).value;
    if stored == Some(actual) || h <= from then
      if count > 0 && h > from then
        ReorgRun([WriteCheckpoint(h, Some(actual))], Success(Checkpoint(h, Some(actual), had)))
      else if h <= from then
        ReorgRun([], Success(FloorCheckpoint(from)))
      else
        ReorgRun([], Success(Checkpoint(h, Some(actual), had)))
    else if c.rollbackFails(h) then
      ReorgRun([RollBack(h)], Failure(RollbackFailed))
    else if c.actual(h - 1).None? then
      ReorgRun([RollBack(h)], Failure(NodeCallFailed))
    else if count + 1 > MaxRollback then
      ReorgRun([RollBack(h)], Failure(TooManyMismatches))
    else
      var rest := MatchStored(c, from, h - 1, c.stored(h - 1), count + 1, true);
      ReorgRun([RollBack(h)] + rest.effects, rest.result)
  }

  /** One recursive step of the second phase: `h` is rolled back in front of
      the rest of the run. */
  lemma MatchStoredRecurse(c: Chain, from: int, h: int, stored: Option<BlockHash>, count: nat, had: bool)
    requires c.actual(h).Some? && count + 1 <= MaxRollback
    requires stored != c.actual(h) && h > from && c.actual(h - 1).Some? && !c.rollbackFails(h)
    ensures var r := MatchStored(c, from, h, stored, count, had);
      var rest := MatchStored(c, from, h - 1, c.stored(h - 1), count + 1, true);
      && r.effects == [RollBack(h)] + rest.effects && r.result == rest.result
      && Rollbacks(r.effects) == [h] + Rollbacks(rest.effects)
  {
    var rest := MatchStored(c, from, h - 1, c.stored(h - 1), count + 1, true);
    assert Rollbacks([RollBack(h)]) == [h];
    RollbacksAppend([RollBack(h)], rest.effects);
  }

  /** The steps of the second phase that do not recurse roll back at most `h`. */
  lemma MatchStoredLast(c: Chain, from: int, h: int, stored: Option<BlockHash>, count: nat, had: bool)
    requires c.actual(h).Some? && count <= MaxRollback
    requires !(stored != c.actual(h) && h > from && c.actual(h - 1).Some? && count + 1 <= MaxRollback && !c.rollbackFails(h))
    ensures var r := MatchStored(c, from, h, stored, count, had);
      && (stored == c.actual(h) || h <= from ==> Rollbacks(r.effects) == [] && r.result.Success?)
      && (stored != c.actual(h) && h > from ==>
            && r.effects == [RollBack(h)] && Rollbacks(r.effects) == [h]
            && r.result == Failure(if c.rollbackFails(h) then RollbackFailed
                                   else if c.actual(h - 1).None? then NodeCallFailed
                                   else TooManyMismatches))
  {
    var r := MatchStored(c, from, h, stored, count, had);
    assert Rollbacks([RollBack(h)]) == [h];
    assert Rollbacks([WriteCheckpoint(h, c.actual(h))]) == [];
  }

  /** The second phase rolls back a contiguous run of heights below `h`, all
      above the floor, and only heights whose stored hash disagreed. */
  lemma {:induction false} MatchStoredDescends(c: Chain, from: int, h: int, stored: Option<BlockHash>, count: nat, had: bool)
    requires c.actual(h).Some? && count <= MaxRollback
    ensures var r := MatchStored(c, from, h, stored, count, had);
      Descends(r.effects, h, from) && StoreDisagrees(c, r.effects, h, stored)
    decreases MaxRollback - count
  {
    if stored != c.actual(h) && h > from && c.actual(h - 1).Some? && count + 1 <= MaxRollback && !c.rollbackFails(h) {
      var rest := MatchStored(c, from, h - 1, c.stored(h - 1), count + 1, true);
      MatchStoredRecurse(c, from, h, stored, count, had);
      MatchStoredDescends(c, from, h - 1, c.stored(h - 1), count + 1, true);
      assert Rollbacks([RollBack(h)]) == [h];
      DescendsStep([RollBack(h)], rest.effects, h, from);
      StoreDisagreesStep(c, h, stored, rest.effects);
    } else {
      MatchStoredDescendsLast(c, from, h, stored, count, had);
    }
  }

  lemma MatchStoredDescendsLast(c: Chain, from: int, h: int, stored: Option<BlockHash>, count: nat, had: bool)
    requires c.actual(h).Some? && count <= MaxRollback
    requires !(stored != c.actual(h) && h > from && c.actual(h - 1).Some? && count + 1 <= MaxRollback && !c.rollbackFails(h))
    ensures var r := MatchStored(c, from, h, stored, count, had);
      Descends(r.effects, h, from) && StoreDisagrees(c, r.effects, h, stored)
  {
    MatchStoredLast(c, from, h, stored, count, had);
  }

  /** When the second phase settles on a height, it sits just below the run
      rolled back; the phase reports whether anything was rolled back, and a
      rollback always ends with the matching hash written as the checkpoint. */
  lemma {:induction false} MatchStoredSettles(c: Chain, from: int, h: int, stored: Option<BlockHash>, count: nat, had: bool)
    requires c.actual(h).Some? && count <= MaxRollback && (count > 0 ==> had)
    ensures var r := MatchStored(c, from, h, stored, count, had);
      r.result.Success? && r.result.value.hash.Some? ==>
        var cp := r.result.value;
        Settled(r.effects, h, count, had, cp.height, cp.hash, cp.hadReorg)
    decreases MaxRollback - count
  {
    if stored != c.actual(h) && h > from && c.actual(h - 1).Some? && count + 1 <= MaxRollback && !c.rollbackFails(h) {
      var rest := MatchStored(c, from, h - 1, c.stored(h - 1), count + 1, true);
      MatchStoredRecurse(c, from, h, stored, count, had);
      if rest.result.Success? && rest.result.value.hash.Some? {
        MatchStoredSettles(c, from, h - 1, c.stored(h - 1), count + 1, true);
        var cp := rest.result.value;
        SettledStep([RollBack(h)], rest.effects, h, count, had, cp.height, cp.hash, cp.hadReorg);
      }
    } else {
      MatchStoredSettlesLast(c, from, h, stored, count, had);
    }
  }

  /** The steps of the second phase that do not recurse. */
  lemma MatchStoredSettlesLast(c: Chain, from: int, h: int, stored: Option<BlockHash>, count: nat, had: bool)
    requires c.actual(h).Some? && count <= MaxRollback && (count > 0 ==> had)
    requires !(stored != c.actual(h) && h > from && c.actual(h - 1).Some? && count + 1 <= MaxRollback && !c.rollbackFails(h))
    ensures var r := MatchStored(c, from, h, stored, count, had);
      r.result.Success? && r.result.value.hash.Some? ==>
        var cp := r.result.value;
        Settled(r.effects, h, count, had, cp.height, cp.hash, cp.hadReorg)
  {
    var r := MatchStored(c, from, h, stored, count, had);
    var actual := c.actual(h).value;
    if stored == Some(actual) || h <= from {
      if count > 0 && h > from {
        assert r == ReorgRun([WriteCheckpoint(h, Some(actual))], Success(Checkpoint(h, Some(actual), had)));
        assert Rollbacks([WriteCheckpoint(h, Some(actual))]) == [];
      } else if h <= from {
        assert r.result.value.hash.None?;
      } else {
        assert r == ReorgRun([], Success(Checkpoint(h, Some(actual), had)));
      }
    } else {
      assert r.result.Failure?;
    }
  }

  /** The second phase gives up after more than a hundred mismatching
      heights, when the node fails on the height it has just reached, or
      when the last height it rolls back throws. */
  lemma {:induction false} MatchStoredGivesUp(c: Chain, from: int, h: int, stored: Option<BlockHash>, count: nat, had: bool)
    requires c.actual(h).Some? && count <= MaxRollback
    ensures var r := MatchStored(c, from, h, stored, count, had);
      && (r.result.Failure? && r.result.error == TooManyMismatches ==> count + |Rollbacks(r.effects)| == MaxRollback + 1)
      && (r.result.Failure? && r.result.error == NodeCallFailed ==> c.actual(h - |Rollbacks(r.effects)|).None?)
      && (r.result == Failure(RollbackFailed) ==> LastRollbackFails(c, r.effects))
    decreases MaxRollback - count
  {
    if stored != c.actual(h) && h > from && c.actual(h - 1).Some? && count + 1 <= MaxRollback && !c.rollbackFails(h) {
      MatchStoredRecurse(c, from, h, stored, count, had);
      MatchStoredGivesUp(c, from, h - 1, c.stored(h - 1), count + 1, true);
    } else {
      MatchStoredLast(c, from, h, stored, count, had);
    }
  }

  /** A second phase that succeeds has rolled back at most a hundred heights in all. */
  lemma {:induction false} MatchStoredBounded(c: Chain, from: int, h: int, stored: Option<BlockHash>, count: nat, had: bool)
    requires c.actual(h).Some? && count <= MaxRollback
    ensures var r := MatchStored(c, from, h, stored, count, had);
      r.result.Success? ==> count + |Rollbacks(r.effects)| <= MaxRollback
    decreases MaxRollback - count
  {
    if stored != c.actual(h) && h > from && c.actual(h - 1).Some? && count + 1 <= MaxRollback && !c.rollbackFails(h) {
      MatchStoredRecurse(c, from, h, stored, count, had);
      MatchStoredBounded(c, from, h - 1, c.stored(h - 1), count + 1, true);
    } else {
      MatchStoredLast(c, from, h, stored, count, had);
    }
  }

  /** The stored hash the second phase compares first, at the height `h`
      where the first phase found the node's hash `a` after `count`
      rollbacks.  `Info.updateBlockCheckpoint` also records the hash of its
      height, the one `getCheckpointHash` returns, so once the first phase
      has rolled back and closed with `updateBlockCheckpoint(h, a)`, the
      source's second phase reads `a` back.  The intended check reads the
      hash the indexer stored before the check began. */
  function FirstStoredRead(c: Chain, h: int, a: BlockHash, count: nat, intended: bool): Option<BlockHash> {
    if !intended && count > 0 then Some(a) else c.stored(h)
  }

  /** Both phases from checkpoint `last` with start height `from`; with
      `intended` the second phase compares against the hashes stored before
      the check, otherwise it reads back the first phase's write as the
      source does.  Without a stored hash for the found height the found
      checkpoint stands. */
  function RunCheck(c: Chain, from: int, last: int, intended: bool): (r: ReorgRun)
    // a returned hash is the node's hash at the returned height, above the
    // floor, and agrees with the stored one when there is one, unless (as
    // written) the first phase rolled back onto that height
    ensures r.result.Success? && r.result.value.hash.Some? ==>
      var cp := r.result.value;
      && cp.height > from
      && cp.hash == c.actual(cp.height)
      && (c.stored(cp.height).None? || c.stored(cp.height) == cp.hash || (!intended && c.actual(cp.height + 1).None?))
    // otherwise the walk reached the floor
    ensures r.result.Success? && r.result.value.hash.None? ==> r.result.value == FloorCheckpoint(from)
  {
    var (fx1, end) := FindActual(c, from, last, 0, false);
    match end
    case Stopped(res) => ReorgRun(fx1, res)
    case Found(h, a, count, had) =>
      var stored := FirstStoredRead(c, h, a, count, intended);
      if stored.None? then ReorgRun(fx1, Success(Checkpoint(h, Some(a), had)))
      else
        var run := MatchStored(c, from, h, stored, 0, had);
        ReorgRun(fx1 + run.effects, run.result)
  }

  /** `checkForBlockReorg(lastCheckpoint)` as written.  A returned hash
      agrees with the stored one, except at a height the first phase rolled
      back onto: there the stored hash is overwritten before it is compared. */
  function CheckForBlockReorg(c: Chain, from: int, last: int): (r: ReorgRun)
    ensures r.result.Success? && r.result.value.hash.Some? ==>
      var cp := r.result.value;
      && cp.height > from
      && cp.hash == c.actual(cp.height)
      && (c.stored(cp.height).None? || c.stored(cp.height) == cp.hash || c.actual(cp.height + 1).None?)
    ensures r.result.Success? && r.result.value.hash.None? ==> r.result.value == FloorCheckpoint(from)
  {
    RunCheck(c, from, last, false)
  }

  /** The check as intended: the second phase compares the node's hash with
      the one the indexer stored before the check, so a returned hash always
      agrees with the stored one when there is one. */
  function CheckForBlockReorgIntended(c: Chain, from: int, last: int): (r: ReorgRun)
    ensures r.result.Success? && r.result.value.hash.Some? ==>
      var cp := r.result.value;
      && cp.height > from
      && cp.hash == c.actual(cp.height)
      && (c.stored(cp.height).None? || c.stored(cp.height) == cp.hash)
    ensures r.result.Success? && r.result.value.hash.None? ==> r.result.value == FloorCheckpoint(from)
  {
    RunCheck(c, from, last, true)
  }

  /** The heights the check rolls back are contiguous, count down from the
      checkpoint and stay above the floor; a successful check rolls back at
      most two hundred heights over both phases (a first phase that lands on
      the floor can roll back a hundred and one), and a failed rollback is
      the last height rolled back. */
  lemma CheckRollsBackContiguously(c: Chain, from: int, last: int, intended: bool)
    ensures var r := RunCheck(c, from, last, intended);
      && Descends(r.effects, last, from)
      && (r.result.Success? ==> |Rollbacks(r.effects)| <= 2 * MaxRollback)
      && (r.result == Failure(RollbackFailed) ==> LastRollbackFails(c, r.effects))
  {
    if FindActual(c, from, last, 0, false).1.Stopped? {
      StoppedCheckRollsBack(c, from, last, intended);
    } else {
      FoundCheckRollsBack(c, from, last, intended);
    }
  }

  /** The check ended by the first phase. */
  lemma StoppedCheckRollsBack(c: Chain, from: int, last: int, intended: bool)
    requires FindActual(c, from, last, 0, false).1.Stopped?
    ensures var r := RunCheck(c, from, last, intended);
      && Descends(r.effects, last, from)
      && (r.result.Success? ==> |Rollbacks(r.effects)| <= 2 * MaxRollback)
      && (r.result == Failure(RollbackFailed) ==> LastRollbackFails(c, r.effects))
  {
    var p1 := FindActual(c, from, last, 0, false);
    FindActualDescends(c, from, last, 0, false);
    FindActualGivesUp(c, from, last, 0, false);
    assert RunCheck(c, from, last, intended) == ReorgRun(p1.0, p1.1.result);
  }

  /** The check that reached the second phase. */
  lemma FoundCheckRollsBack(c: Chain, from: int, last: int, intended: bool)
    requires FindActual(c, from, last, 0, false).1.Found?
    ensures var r := RunCheck(c, from, last, intended);
      && Descends(r.effects, last, from)
      && (r.result.Success? ==> |Rollbacks(r.effects)| <= 2 * MaxRollback)
      && (r.result == Failure(RollbackFailed) ==> LastRollbackFails(c, r.effects))
  {
    var p1 := FindActual(c, from, last, 0, false);
    FindActualDescends(c, from, last, 0, false);
    FindActualFound(c, from, last, 0, false);
    var h := p1.1.height;
    var stored := FirstStoredRead(c, h, p1.1.hash, p1.1.count, intended);
    if stored.None? {
      assert RunCheck(c, from, last, intended) == ReorgRun(p1.0, Success(Checkpoint(h, Some(p1.1.hash), p1.1.hadReorg)));
    } else {
      ComparedCheckRollsBack(c, from, last, intended, p1.0, h, stored, p1.1.hadReorg);
    }
  }

  /** The check whose second phase compared a stored hash. */
  lemma ComparedCheckRollsBack(c: Chain, from: int, last: int, intended: bool,
                               fx1: seq<ReorgEffect>, h: int, stored: Option<BlockHash>, had: bool)
    requires var p1 := FindActual(c, from, last, 0, false);
      && p1.0 == fx1 && p1.1.Found? && p1.1.height == h && p1.1.hadReorg == had
      && FirstStoredRead(c, h, p1.1.hash, p1.1.count, intended) == stored && stored.Some?
    requires Descends(fx1, last, from) && h == last - |Rollbacks(fx1)| && |Rollbacks(fx1)| <= MaxRollback
    ensures var r := RunCheck(c, from, last, intended);
      && Descends(r.effects, last, from)
      && (r.result.Success? ==> |Rollbacks(r.effects)| <= 2 * MaxRollback)
      && (r.result == Failure(RollbackFailed) ==> LastRollbackFails(c, r.effects))
  {
    var run := MatchStored(c, from, h, stored, 0, had);
    PhaseTwoRollsBack(c, from, last, fx1, h, stored, had);
    assert RunCheck(c, from, last, intended) == ReorgRun(fx1 + run.effects, run.result);
  }

  /** The second phase continues the first phase's contiguous run. */
  lemma PhaseTwoRollsBack(c: Chain, from: int, last: int, fx1: seq<ReorgEffect>, h: int,
                          stored: Option<BlockHash>, had: bool)
    requires c.actual(h).Some? && h > from
    requires Descends(fx1, last, from) && h == last - |Rollbacks(fx1)| && |Rollbacks(fx1)| <= MaxRollback
    ensures var run := MatchStored(c, from, h, stored, 0, had);
      var fx := fx1 + run.effects;
      && Descends(fx, last, from)
      && (run.result.Success? ==> |Rollbacks(fx)| <= 2 * MaxRollback)
      && (run.result == Failure(RollbackFailed) ==> LastRollbackFails(c, fx))
  {
    var run := MatchStored(c, from, h, stored, 0, had);
    MatchStoredShape(c, from, h, stored, had);
    PhasesJoin(c, fx1, run.effects, last, from, run.result.Success?, run.result == Failure(RollbackFailed));
  }

  /** A whole second phase descends from `h`, rolls back at most a hundred
      heights when it succeeds, and ends on a failed rollback only at its
      last height. */
  lemma MatchStoredShape(c: Chain, from: int, h: int, stored: Option<BlockHash>, had: bool)
    requires c.actual(h).Some?
    ensures var run := MatchStored(c, from, h, stored, 0, had);
      && Descends(run.effects, h, from)
      && (run.result.Success? ==> |Rollbacks(run.effects)| <= MaxRollback)
      && (run.result == Failure(RollbackFailed) ==> LastRollbackFails(c, run.effects))
  {
    MatchStoredDescends(c, from, h, stored, 0, had);
    MatchStoredGivesUp(c, from, h, stored, 0, had);
    MatchStoredBounded(c, from, h, stored, 0, had);
  }

  /** The runs of the two phases, the second starting where the first
      stopped, make one run; the bounds and the failed rollback carry over. */
  lemma PhasesJoin(c: Chain, fx1: seq<ReorgEffect>, fx2: seq<ReorgEffect>, last: int, from: int,
                   ok: bool, failed: bool)
    requires Descends(fx1, last, from) && |Rollbacks(fx1)| <= MaxRollback
    requires Descends(fx2, last - |Rollbacks(fx1)|, from)
    requires ok ==> |Rollbacks(fx2)| <= MaxRollback
    requires failed ==> LastRollbackFails(c, fx2)
    ensures Descends(fx1 + fx2, last, from)
    ensures ok ==> |Rollbacks(fx1 + fx2)| <= 2 * MaxRollback
    ensures failed ==> LastRollbackFails(c, fx1 + fx2)
  {
    DescendsJoin(fx1, fx2, last, from);
    RollbacksAppend(fx1, fx2);
  }

  /** A successful check that kept a hash reports a reorg exactly when it
      rolled something back; it then ends by writing the returned checkpoint,
      and otherwise touches nothing.  The returned height is the checkpoint
      less the heights rolled back. */
  lemma CheckReportsReorg(c: Chain, from: int, last: int, intended: bool)
    ensures var r := RunCheck(c, from, last, intended);
      r.result.Success? && r.result.value.hash.Some? ==>
        var cp := r.result.value;
        && cp.height == last - |Rollbacks(r.effects)|
        && (cp.hadReorg <==> |Rollbacks(r.effects)| > 0)
        && (cp.hadReorg ==> |r.effects| > 0 && r.effects[|r.effects| - 1] == WriteCheckpoint(cp.height, cp.hash))
        && (!cp.hadReorg ==> r.effects == [])
  {
    var r := RunCheck(c, from, last, intended);
    var p1 := FindActual(c, from, last, 0, false);
    FindActualFound(c, from, last, 0, false);
    match p1.1
    case Stopped(res) =>
      assert r == ReorgRun(p1.0, res);
    case Found(h1, a, count, had1) =>
      var stored := FirstStoredRead(c, h1, a, count, intended);
      if stored.None? {
        assert r == ReorgRun(p1.0, Success(Checkpoint(h1, Some(a), had1)));
      } else {
        var run := MatchStored(c, from, h1, stored, 0, had1);
        assert r == ReorgRun(p1.0 + run.effects, run.result);
        if run.result.Success? && run.result.value.hash.Some? {
          var cp := run.result.value;
          MatchStoredSettles(c, from, h1, stored, 0, had1);
          SettledJoin(p1.0, run.effects, last, h1, a, had1, cp.height, cp.hash, cp.hadReorg);
        }
      }
  }

  /** A checkpoint at or below the start height is never walked: the check
      answers with the floor checkpoint and touches nothing. */
  lemma AtFloorTouchesNothing(c: Chain, from: int, last: int)
    requires last <= from
    ensures CheckForBlockReorg(c, from, last) == ReorgRun([], Success(FloorCheckpoint(from)))
  {
    assert FindActual(c, from, last, 0, false) == ([], Stopped(Success(FloorCheckpoint(from))));
  }

  /** When the node knows the checkpoint's height and the stored hash (if
      any) agrees with it, nothing is rolled back and the checkpoint comes
      back unchanged. */
  lemma AgreeingHashesKeepCheckpoint(c: Chain, from: int, last: int, a: BlockHash)
    requires last > from
    requires c.actual(last) == Some(a)
    requires c.stored(last).None? || c.stored(last) == Some(a)
    ensures CheckForBlockReorg(c, from, last) == ReorgRun([], Success(Checkpoint(last, Some(a), false)))
  {
    assert FindActual(c, from, last, 0, false) == ([], Found(last, a, 0, false));
  }

  /** One orphaned block: the stored hash at the checkpoint differs from the
      node's but the block below it matches, so exactly that height is rolled
      back and the checkpoint moves one down. */
  lemma OneOrphanRollsBackOne(c: Chain, from: int, last: int, a: BlockHash, b: BlockHash, a': BlockHash)
    requires last - 1 > from && !c.rollbackFails(last)
    requires c.actual(last) == Some(a) && c.stored(last) == Some(b) && a != b
    requires c.actual(last - 1) == Some(a') && c.stored(last - 1) == Some(a')
    ensures CheckForBlockReorg(c, from, last)
      == ReorgRun([RollBack(last), WriteCheckpoint(last - 1, Some(a'))], Success(Checkpoint(last - 1, Some(a'), true)))
  {
    assert FindActual(c, from, last, 0, false) == ([], Found(last, a, 0, false));
    assert MatchStored(c, from, last - 1, Some(a'), 1, true)
      == ReorgRun([WriteCheckpoint(last - 1, Some(a'))], Success(Checkpoint(last - 1, Some(a'), true)));
  }

  /** A rollback that throws ends the check at once, with the rollback as its
      last store call. */
  lemma FailingRollbackStops(c: Chain, from: int, last: int)
    requires last > from && c.actual(last).None? && c.rollbackFails(last)
    ensures CheckForBlockReorg(c, from, last) == ReorgRun([RollBack(last)], Failure(RollbackFailed))
  {
    assert FindActual(c, from, last, 0, false) == ([RollBack(last)], Stopped(Failure(RollbackFailed)));
  }

  /** A node that has lost more than a hundred heights above the floor makes
      the first phase give up, provided each of those rollbacks goes through. */
  lemma {:induction false} MissingRunThrows(c: Chain, from: int, h: int, count: nat, had: bool)
    requires count <= MaxRollback
    requires h - (MaxRollback + 1 - count) > from
    requires forall x :: h - (MaxRollback + 1 - count) < x <= h ==> c.actual(x).None? && !c.rollbackFails(x)
    ensures FindActual(c, from, h, count, had).1 == Stopped(Failure(TooManyMissingHashes))
    decreases MaxRollback - count
  {
    assert c.actual(h).None? && !c.rollbackFails(h);
    if count + 1 <= MaxRollback {
      MissingRunThrows(c, from, h - 1, count + 1, true);
    }
  }

  /** The same from the check's entry: a hundred and one missing hashes
      below the checkpoint, all above the floor, end the check with an error. */
  lemma LongMissingRunThrows(c: Chain, from: int, last: int)
    requires last - (MaxRollback + 1) > from
    requires forall x :: last - (MaxRollback + 1) < x <= last ==> c.actual(x).None? && !c.rollbackFails(x)
    ensures CheckForBlockReorg(c, from, last).result == Failure(TooManyMissingHashes)
  {
    MissingRunThrows(c, from, last, 0, false);
  }

  // ---------------------------------------------------------------------
  // The second phase after a dropped tip

  /** As written: once the first phase has rolled back a height the node no
      longer has, the second phase compares the node's hash below it with
      itself, so that height is kept whatever the indexer stored for it. */
  lemma TipDropSkipsComparison(c: Chain, from: int, last: int, a: BlockHash)
    requires last - 1 > from
    requires c.actual(last).None? && !c.rollbackFails(last) && c.actual(last - 1) == Some(a)
    ensures CheckForBlockReorg(c, from, last)
      == ReorgRun([RollBack(last), WriteCheckpoint(last - 1, None), WriteCheckpoint(last - 1, Some(a))],
                  Success(Checkpoint(last - 1, Some(a), true)))
  {
    var rest := FindActual(c, from, last - 1, 1, true);
    assert rest == ([WriteCheckpoint(last - 1, Some(a))], Found(last - 1, a, 1, true));
    FindActualRecurse(c, from, last, 0, false);
    assert MatchStored(c, from, last - 1, Some(a), 0, true) == ReorgRun([], Success(Checkpoint(last - 1, Some(a), true)));
  }

  /** A node that dropped height 10 and holds at 9 a block other than the one
      the indexer stored there. */
  function TipDropExample(): Chain {
    Chain((h: int) => if h == 10 then None else if h == 9 then Some("a") else Some("c"),
          (h: int) => if h == 9 then Some("b") else Some("c"),
          (h: int) => false)
  }

  /** The check as written keeps height 9 although its stored hash `b`
      disagrees with the node's `a`; the intended check rolls 9 back too and
      settles on 8, where the hashes agree. */
  lemma TipDropExampleKeepsStaleHash()
    ensures CheckForBlockReorg(TipDropExample(), 0, 10).result == Success(Checkpoint(9, Some("a"), true))
    ensures TipDropExample().stored(9) == Some("b")
    ensures CheckForBlockReorgIntended(TipDropExample(), 0, 10).result == Success(Checkpoint(8, Some("c"), true))
  {
    var c := TipDropExample();
    TipDropSkipsComparison(c, 0, 10, "a");
    var p1 := FindActual(c, 0, 10, 0, false);
    FindActualRecurse(c, 0, 10, 0, false);
    assert p1.1 == Found(9, "a", 1, true);
    assert MatchStored(c, 0, 8, Some("c"), 1, true) == ReorgRun([WriteCheckpoint(8, Some("c"))], Success(Checkpoint(8, Some("c"), true)));
    MatchStoredRecurse(c, 0, 9, Some("b"), 0, true);
  }
}

=== FILE: status.dfy ===
/** The indexer's status record (status.ts `SlpdbStatus`): the lifecycle
    state, the history of exit traces, the version hashes read from the git
    metadata, and the traces as they are written to the status document.
    Timestamps, telemetry, Mongo statistics and the node's mempool info are
    not part of this model. */
module Status {
  import opened Types

  datatype SlpdbState =
    | PreStartup              // checking the database and node connections
    | StartupBlockSync        // indexing confirmed blocks
    | StartupTokenProcessing  // loading the token graphs
    | Running
    | ExitedOnError
    | ExitedNormal

  /** The most exit traces kept. */
  const MaxTraces: nat := 5

  /** What the trace history holds: the source types it `any[]`, and a history
      loaded from the store may hold values that are not strings, whose
      `toString` either yields a text or throws (None). */
  datatype Trace = Text(text: string) | Value(shown: Option<string>)

  datatype Status = Status(
    state: SlpdbState,
    network: string,
    pastStackTraces: seq<Trace>,
    versionHash: Option<string>,
    deplVersionHash: Option<string>)

  /** The part of the status document this model covers. */
  datatype StatusDbo = StatusDbo(state: SlpdbState, network: string, pastStackTraces: seq<string>)

  /** A transition and the document it saves. */
  datatype Saved = Saved(status: Status, dbo: StatusDbo)

  // ---------------------------------------------------------------------
  // Writing the document

  const UnknownTrace: string := "Unknown stack trace."

  /** How one history entry is written: strings as they are, other values
      through `toString`, and a throwing `toString` as a fixed message. */
  function ShowTrace(t: Trace): (s: string)
    ensures t.Text? ==> s == t.text
    ensures t.Value? && t.shown.Some? ==> s == t.shown.value
    ensures t.Value? && t.shown.None? ==> s == UnknownTrace
  {
    match t
    case Text(s) => s
    case Value(None) => UnknownTrace
    case Value(Some(s)) => s
  }

  /** The history as written to the status document. */
  function DboTraces(ts: seq<Trace>): (r: seq<string>)
    ensures |r| == |ts|
    ensures forall i :: 0 <= i < |ts| ==> r[i] == ShowTrace(ts[i])
    decreases |ts|
  {
    if |ts| == 0 then [] else [ShowTrace(ts[0])] + DboTraces(ts[1..])
  }

  /** A history of strings is written unchanged. */
  lemma {:induction false} TextTracesPassThrough(ss: seq<string>)
    ensures DboTraces(seq(|ss|, i requires 0 <= i < |ss| => Text(ss[i]))) == ss
  {
    var ts := seq(|ss|, i requires 0 <= i < |ss| => Text(ss[i]));
    var r := DboTraces(ts);
    forall i | 0 <= i < |ss|
      ensures r[i] == ss[i]
    {
      assert ShowTrace(ts[i]) == ss[i];
    }
  }

  /** Writing commutes with taking a prefix of the history. */
  lemma DboTracesPrefix(ts: seq<Trace>, k: nat)
    requires k <= |ts|
    ensures DboTraces(ts[..k]) == DboTraces(ts)[..k]
  {
  }

  function ToDbo(st: Status): (d: StatusDbo)
    ensures d.state == st.state && d.network == st.network
    ensures |d.pastStackTraces| == |st.pastStackTraces|
  {
    StatusDbo(st.state, st.network, DboTraces(st.pastStackTraces))
  }

  function Save(st: Status): (r: Saved)
    ensures r.status == st && r.dbo == ToDbo(st)
  {
    Saved(st, ToDbo(st))
  }

  // ---------------------------------------------------------------------
  // The git metadata

  /** A character JavaScript's `trim` removes: white space and line
      terminators. */
  predicate IsJsSpace(c: char) {
    c == '\t' || c == '\n' || c == '\U{000B}' || c == '\U{000C}' || c == '\r' || c == ' '
    || c == '\U{00A0}' || c == '\U{1680}' || ('\U{2000}' <= c <= '\U{200A}')
    || c == '\U{2028}' || c == '\U{2029}' || c == '\U{202F}' || c == '\U{205F}'
    || c == '\U{3000}' || c == '\U{FEFF}'
  }

  predicate AllSpace(s: string) {
    forall i :: 0 <= i < |s| ==> IsJsSpace(s[i])
  }

  /** The first position from `i` on that is not white space (|s| if none). */
  function SkipSpace(s: string, i: nat): (j: nat)
    requires i <= |s|
    ensures i <= j <= |s| && AllSpace(s[i..j])
    ensures j < |s| ==> !IsJsSpace(s[j])
    decreases |s| - i
  {
    if i == |s| || !IsJsSpace(s[i]) then i
    else
      var j := SkipSpace(s, i + 1);
      assert s[i..j] == [s[i]] + s[i + 1..j];
      j
  }

  /** One past the last position below `j` that is not white space (0 if none). */
  function BackSpace(s: string, j: nat): (k: nat)
    requires j <= |s|
    ensures k <= j && AllSpace(s[k..j])
    ensures k > 0 ==> !IsJsSpace(s[k - 1])
    decreases j
  {
    if j == 0 || !IsJsSpace(s[j - 1]) then j
    else
      var k := BackSpace(s, j - 1);
      assert s[k..j] == s[k..j - 1] + [s[j - 1]];
      k
  }

  /** JavaScript's `String.prototype.trim`. */
  function Trim(s: string): (r: string)
    ensures exists i, j :: 0 <= i <= j <= |s| && r == s[i..j] && AllSpace(s[..i]) && AllSpace(s[j..])
    ensures |r| > 0 ==> !IsJsSpace(r[0]) && !IsJsSpace(r[|r| - 1])
  {
    var i := SkipSpace(s, 0);
    var j := BackSpace(s, |s|);
    if j <= i then
      assert AllSpace(s[..i]) by { assert s[..i] == s[0..i]; }
      assert AllSpace(s[i..]) by {
        forall m | i <= m < |s|
          ensures IsJsSpace(s[m])
        {
          assert s[m] == s[j..|s|][m - j];
        }
      }
      assert s[i..i] == [];
      []
    else
      assert j > 0 && !IsJsSpace(s[j - 1]);
      assert s[..i] == s[0..i];
      assert s[j..] == s[j..|s|];
      s[i..j]
  }

  /** `trim` is idempotent. */
  lemma TrimIdempotent(s: string)
    ensures Trim(Trim(s)) == Trim(s)
  {
    var t := Trim(s);
    assert SkipSpace(t, 0) == 0;
    assert BackSpace(t, |t|) == |t|;
    assert t[0..|t|] == t;
  }

  /** JavaScript's `substring(n)` with one argument: a string shorter than
      `n` gives the empty string. */
  function From(s: string, n: nat): (r: string)
    ensures |s| >= n ==> r == s[n..]
    ensures |s| < n ==> r == ""
  {
    if |s| < n then "" else s[n..]
  }

  /** The HEAD file names a ref rather than a commit: it contains a colon. */
  predicate NamesRef(rev: string) {
    ':' in rev
  }

  /** `getVersion` / `getDeplVersion` over a metadata directory `dir`, with
      `read(path)` the file contents (None when the read throws).  A detached
      HEAD is the version itself; otherwise the `ref: ` prefix is cut off and
      the named ref file is read. */
  function ReadVersion(read: string -> Option<string>, dir: string): (v: Option<string>)
    ensures read(dir + "HEAD").None? ==> v.None?
    ensures read(dir + "HEAD").Some? && !NamesRef(read(dir + "HEAD").value) ==>
      v == Some(Trim(read(dir + "HEAD").value))
    ensures read(dir + "HEAD").Some? && NamesRef(read(dir + "HEAD").value) ==>
      var path := dir + From(Trim(read(dir + "HEAD").value), 5);
      v == (if read(path).Some? then Some(Trim(read(path).value)) else None)
  {
    match read(dir + "HEAD")
    case None => None
    case Some(rev) =>
      if !NamesRef(rev) then Some(Trim(rev))
      else
        match read(dir + From(Trim(rev), 5))
        case None => None
        case Some(content) => Some(Trim(content))
  }

  const GitDir: string := ".git/"
  const DeployedGitDir: string := "._git/"

  /** The running checkout's version. */
  function GetVersion(read: string -> Option<string>): Option<string>
  {
    ReadVersion(read, GitDir)
  }

  /** The deployed copy's version. */
  function GetDeplVersion(read: string -> Option<string>): Option<string>
  {
    ReadVersion(read, DeployedGitDir)
  }

  /** A HEAD of the usual form `ref: <name>` (plus surrounding white space)
      makes the version the trimmed contents of `<dir><name>`. */
  lemma RefHeadReadsNamedRef(read: string -> Option<string>, dir: string, name: string, content: string)
    requires read(dir + "HEAD").Some? && Trim(read(dir + "HEAD").value) == "ref: " + name
    requires read(dir + name) == Some(content)
    ensures ReadVersion(read, dir) == Some(Trim(content))
  {
    var rev := read(dir + "HEAD").value;
    var i, j :| 0 <= i <= j <= |rev| && Trim(rev) == rev[i..j] && AllSpace(rev[..i]) && AllSpace(rev[j..]);
    assert Trim(rev)[3] == ':';
    assert rev[i + 3] == ':';
    assert NamesRef(rev);
    assert From(Trim(rev), 5) == name;
  }

  /** A detached HEAD (a bare commit hash) is the version, trimmed. */
  lemma DetachedHeadIsVersion(read: string -> Option<string>, dir: string, hash: string)
    requires read(dir + "HEAD") == Some(hash + "\n")
    requires ':' !in hash
    ensures ReadVersion(read, dir) == Some(Trim(hash + "\n"))
  {
    assert ':' !in hash + "\n";
  }

  // ---------------------------------------------------------------------
  // The lifecycle

  /** The constructor: start in `PreStartup` with the version hashes read
      from the metadata directories. */
  function NewStatus(read: string -> Option<string>): (st: Status)
    ensures st.state == PreStartup
    ensures st.pastStackTraces == [] && st.network == ""
    ensures st.versionHash == GetVersion(read) && st.deplVersionHash == GetDeplVersion(read)
  {
    Status(PreStartup, "", [], GetVersion(read), GetDeplVersion(read))
  }

  function ChangeStateToStartupBlockSync(st: Status, network: string): (r: Saved)
    ensures r.status == st.(state := StartupBlockSync, network := network)
    ensures r.dbo == ToDbo(r.status)
  {
    Save(st.(state := StartupBlockSync, network := network))
  }

  function ChangeStateToStartupSlpProcessing(st: Status): (r: Saved)
    ensures r.status == st.(state := StartupTokenProcessing)
    ensures r.dbo == ToDbo(r.status)
  {
    Save(st.(state := StartupTokenProcessing))
  }

  function ChangeStateToRunning(st: Status): (r: Saved)
    ensures r.status == st.(state := Running)
    ensures r.dbo == ToDbo(r.status)
  {
    Save(st.(state := Running))
  }

  /** The history with `trace` put in front, less its oldest entry when it
      has grown past `MaxTraces`. */
  function PushTrace(ts: seq<Trace>, trace: Trace): (r: seq<Trace>)
    ensures |r| > 0 && r[0] == trace
    ensures |ts| + 1 <= MaxTraces ==> r == [trace] + ts
    ensures |ts| + 1 > MaxTraces ==> r == [trace] + ts[..|ts| - 1]
  {
    var pushed := [trace] + ts;
    if |pushed| > MaxTraces then pushed[..|pushed| - 1] else pushed
  }

  /** A history within the cap stays within it, and the older entries keep
      their order: the new history is the trace followed by a prefix of the
      old one. */
  lemma PushTraceBounded(ts: seq<Trace>, trace: Trace)
    requires |ts| <= MaxTraces
    ensures var r := PushTrace(ts, trace);
      |r| <= MaxTraces && |r| == (if |ts| < MaxTraces then |ts| + 1 else MaxTraces)
      && Extends(r[1..], ts) && r[0] == trace
  {
  }

  /** A history loaded longer than the cap is not cut back: it keeps its length. */
  lemma PushTraceKeepsOverlongLength(ts: seq<Trace>, trace: Trace)
    requires |ts| >= MaxTraces
    ensures |PushTrace(ts, trace)| == |ts|
  {
  }

  function ChangeStateToExitOnError(st: Status, trace: string): (r: Saved)
    ensures r.status.state == ExitedOnError
    ensures r.status.pastStackTraces == PushTrace(st.pastStackTraces, Text(trace))
    ensures r.status == st.(state := ExitedOnError, pastStackTraces := r.status.pastStackTraces)
    ensures r.dbo == ToDbo(r.status) && r.dbo.pastStackTraces[0] == trace
  {
    Save(st.(state := ExitedOnError, pastStackTraces := PushTrace(st.pastStackTraces, Text(trace))))
  }

  /** `loadPreviousAttributes`: the stored history replaces the current one
      when there is a stored document. */
  function LoadPreviousAttributes(st: Status, stored: Option<seq<Trace>>): (r: Status)
    ensures stored.Some? ==> r == st.(pastStackTraces := stored.value)
    ensures stored.None? ==> r == st
  {
    if stored.Some? then st.(pastStackTraces := stored.value) else st
  }

  /** `logExitReason` as written: an error message is an error exit, and an
      empty message only saves the status, leaving the state as it was. */
  function LogExitReason(st: Status, errorMsg: string): (r: Saved)
    ensures errorMsg != "" ==> r == ChangeStateToExitOnError(st, errorMsg)
    ensures errorMsg == "" ==> r.status == st && r.dbo == ToDbo(st)
  {
    if errorMsg != "" then ChangeStateToExitOnError(st, errorMsg) else Save(st)
  }

  /** A clean exit of a running indexer is recorded as still running. */
  lemma CleanExitStaysRunning(st: Status)
    requires st.state == Running
    ensures LogExitReason(st, "").status.state == Running
    ensures LogExitReason(st, "").dbo.state != ExitedNormal
  {
  }

  /** The lifecycle's events. */
  datatype Event =
    | ToBlockSync(network: string)
    | ToTokenProcessing
    | ToRunning
    | ExitOnError(trace: string)
    | LoadPrevious(stored: Option<seq<Trace>>)
    | LogExit(message: string)

  /** One event.  `intended` selects the corrected `logExitReason`
      (`LogExitReasonIntended`) instead of the one as written. */
  function Step(st: Status, e: Event, intended: bool): (r: Status)
    ensures !intended && r.state == ExitedNormal ==> st.state == ExitedNormal
    ensures intended && e.LogExit? ==> (r.state == ExitedNormal <==> e.message == "")
    ensures r.versionHash == st.versionHash && r.deplVersionHash == st.deplVersionHash
    ensures r.network != st.network ==> e.ToBlockSync? && r.network == e.network
  {
    match e
    case ToBlockSync(net) => ChangeStateToStartupBlockSync(st, net).status
    case ToTokenProcessing => ChangeStateToStartupSlpProcessing(st).status
    case ToRunning => ChangeStateToRunning(st).status
    case ExitOnError(t) => ChangeStateToExitOnError(st, t).status
    case LoadPrevious(s) => LoadPreviousAttributes(st, s)
    case LogExit(m) =>
      if intended then LogExitReasonIntended(st, m).status else LogExitReason(st, m).status
  }

  function Run(st: Status, es: seq<Event>, intended: bool): Status
    decreases |es|
  {
    if |es| == 0 then st else Run(Step(st, es[0], intended), es[1..], intended)
  }

  /** No sequence of events changes the version hashes read by the
      constructor, and only the block-sync transition sets the network. */
  lemma {:induction false} RunKeepsVersions(st: Status, es: seq<Event>, intended: bool)
    ensures Run(st, es, intended).versionHash == st.versionHash
    ensures Run(st, es, intended).deplVersionHash == st.deplVersionHash
    ensures (forall i :: 0 <= i < |es| ==> !es[i].ToBlockSync?) ==> Run(st, es, intended).network == st.network
    decreases |es|
  {
    if |es| > 0 {
      RunKeepsVersions(Step(st, es[0], intended), es[1..], intended);
      assert forall i :: 1 <= i < |es| ==> es[1..][i - 1] == es[i];
    }
  }

  /** As written, no sequence of events from the constructor ever reaches
      `ExitedNormal`. */
  lemma {:induction false} ExitedNormalUnreachable(read: string -> Option<string>, es: seq<Event>)
    ensures Run(NewStatus(read), es, false).state != ExitedNormal
  {
    RunKeepsNotExitedNormal(NewStatus(read), es);
  }

  lemma {:induction false} RunKeepsNotExitedNormal(st: Status, es: seq<Event>)
    requires st.state != ExitedNormal
    ensures Run(st, es, false).state != ExitedNormal
    decreases |es|
  {
    if |es| > 0 {
      RunKeepsNotExitedNormal(Step(st, es[0], false), es[1..]);
    }
  }

  /** `logExitReason` as its comment and the `EXITED_NORMAL` state intend:
      an empty message records a clean exit. */
  function LogExitReasonIntended(st: Status, errorMsg: string): (r: Saved)
    ensures errorMsg != "" ==> r == ChangeStateToExitOnError(st, errorMsg)
    ensures errorMsg == "" ==> r.status == st.(state := ExitedNormal) && r.dbo.state == ExitedNormal
    ensures r.status.pastStackTraces == LogExitReason(st, errorMsg).status.pastStackTraces
  {
    if errorMsg != "" then ChangeStateToExitOnError(st, errorMsg) else Save(st.(state := ExitedNormal))
  }

  /** With the intended behaviour every exit is recorded as an exit. */
  lemma IntendedExitIsRecorded(st: Status, errorMsg: string)
    ensures LogExitReasonIntended(st, errorMsg).status.state in {ExitedOnError, ExitedNormal}
    ensures LogExitReasonIntended(st, errorMsg).status.state == ExitedNormal <==> errorMsg == ""
  {
  }

  /** With the intended behaviour the usual lifecycle ends in a clean exit:
      the start-up phases, running, then an exit without an error message. */
  lemma CleanExitReachable(st: Status, net: string)
    ensures Run(st, [ToBlockSync(net), ToTokenProcessing, ToRunning, LogExit("")], true).state == ExitedNormal
  {
    var es := [ToBlockSync(net), ToTokenProcessing, ToRunning, LogExit("")];
    var s1 := Step(st, es[0], true);
    var s2 := Step(s1, es[1], true);
    var s3 := Step(s2, es[2], true);
    assert Run(st, es, true) == Run(s1, es[1..], true);
    assert Run(s1, es[1..], true) == Run(s2, es[2..], true) by { assert es[1..][1..] == es[2..]; }
    assert Run(s2, es[2..], true) == Run(s3, es[3..], true) by { assert es[2..][1..] == es[3..]; }
    assert es[3..] == [LogExit("")];
    assert Run(s3, [LogExit("")], true) == Step(s3, LogExit(""), true);
  }
}

=== FILE: sync.dfy ===
/** The synchroniser's entry points (bit.ts `sync`, `listenToZmq`,
    `handleRawTransaction`): the block catch-up loop that crawls every height
    from the checkpoint up to the node's tip, the mempool branch that stores
    one pushed transaction, and the notification handlers that feed them.
    Node calls, store reads and the shutdown flag are fields of a `Node`. */
module Sync {
  import opened Types
  import opened SlpFilter
  import opened Mempool
  import opened Reorg

  /** Blocks whose checkpoint hash is kept: the hash stored `KeptHashes`
      heights below a new block is deleted. */
  const KeptHashes: int := 100

  /** What the loop observes.  `heightOf(hash)` is the node's height for a
      pushed block hash (None when the call throws); `blockHash(i)` the
      node's hash at height `i` (None when it throws); `stored(i)` the
      checkpoint hash the indexer recorded for `i`; `tip(k)` the block count
      the node reports after `k` blocks of this run were crawled;
      `crawlOk(i)` whether crawling height `i` completes; `exitAt(i)` whether
      shutdown was requested before height `i`; `rollbackFails(i)` whether
      the reorg check's rollback of height `i` throws. */
  datatype Node = Node(
    heightOf: BlockHash -> Option<int>,
    blockHash: int -> Option<BlockHash>,
    stored: int -> Option<BlockHash>,
    tip: nat -> int,
    crawlOk: int -> bool,
    exitAt: int -> bool,
    rollbackFails: int -> bool)

  /** The reorg check's view of the node and the store. */
  function ChainOf(n: Node): Chain {
    Chain(n.blockHash, n.stored, n.rollbackFails)
  }

  /** Store calls issued by a block sync. */
  datatype SyncEffect =
    | Reorged(step: ReorgEffect)                    // issued by the reorg check
    | CrawledBlock(height: int, hash: BlockHash)    // crawlBlock(height) committed
    | DeleteCheckpointHash(height: int)
    | UpdateCheckpoint(height: int, hash: BlockHash)
    | ReconcileMempool                              // removeExtraneousMempoolTxns()

  datatype SyncError =
    | BlockHashUnavailable(height: int)
    | CrawlFailed(height: int)
    | UnknownBlock
    | ReorgFailed(reason: ReorgError)
    | MissingTxid
    | MissingHex
    | InsertFailed

  /** `sync`'s value: a map of stored transactions, `null` (None), or a throw.
      A block sync that catches up answers with the empty map. */
  type SyncResult = Result<Option<map<Txid, Bytes>>, SyncError>

  /** How the loop ended: every height up to the last tip read was crawled,
      or it returned early. */
  datatype LoopEnd = Completed(crawled: nat) | Halted(result: SyncResult)

  datatype LoopRun = LoopRun(effects: seq<SyncEffect>, end: LoopEnd)

  /** The effects of crawling height `i` with hash `h`. */
  function BlockEffects(i: int, h: BlockHash): (fx: seq<SyncEffect>)
    ensures |fx| >= 2 && fx[|fx| - 1] == UpdateCheckpoint(i, h)
    ensures forall e :: e in fx && e.UpdateCheckpoint? ==> e == UpdateCheckpoint(i, h)
    ensures (DeleteCheckpointHash(i - KeptHashes) in fx) <==> i - KeptHashes > 0
  {
    [CrawledBlock(i, h)]
      + (if i - KeptHashes > 0 then [DeleteCheckpointHash(i - KeptHashes)] else [])
      + [UpdateCheckpoint(i, h)]
  }

  /** The heights checkpointed, in order. */
  function Checkpointed(fx: seq<SyncEffect>): seq<int> {
    if |fx| == 0 then []
    else (if fx[0].UpdateCheckpoint? then [fx[0].height] else []) + Checkpointed(fx[1..])
  }

  lemma {:induction false} CheckpointedAppend(a: seq<SyncEffect>, b: seq<SyncEffect>)
    ensures Checkpointed(a + b) == Checkpointed(a) + Checkpointed(b)
    decreases |a|
  {
    if |a| == 0 {
      assert a + b == b;
    } else {
      var ab := a + b;
      assert ab[0] == a[0];
      assert ab[1..] == a[1..] + b;
      CheckpointedAppend(a[1..], b);
      var head := if a[0].UpdateCheckpoint? then [a[0].height] else [];
      assert Checkpointed(ab) == head + Checkpointed(a[1..] + b);
      assert Checkpointed(a) == head + Checkpointed(a[1..]);
    }
  }

  lemma BlockEffectsCheckpoint(i: int, h: BlockHash)
    ensures Checkpointed(BlockEffects(i, h)) == [i]
  {
    var fx := BlockEffects(i, h);
    if i - KeptHashes > 0 {
      assert fx[1..][1..][1..] == [];
      assert Checkpointed(fx[1..][1..]) == [i];
      assert Checkpointed(fx[1..]) == [i];
    } else {
      assert fx[1..][1..] == [];
      assert Checkpointed(fx[1..]) == [i];
    }
  }

  /** The heights run upward without gaps from `low`. */
  ghost predicate Ascends(hs: seq<int>, low: int) {
    forall i :: 0 <= i < |hs| ==> hs[i] == low + i
  }

  /** The loop goes on at `index`: the node knows its hash and the crawl
      succeeded. */
  predicate Continues(n: Node, start: int, count: nat) {
    var index := start + count + 1;
    index <= n.tip(count) && !n.exitAt(index) && n.blockHash(index).Some? && n.crawlOk(index)
  }

  /** Where the loop stops at `index`: caught up with the tip, told to
      exit, or unable to fetch or crawl the block (a pushed run reports
      these as a null result, a polling run as an error). */
  function LoopStop(n: Node, pushed: bool, start: int, count: nat): (r: LoopRun)
    requires !Continues(n, start, count)
    ensures r.effects == []
    ensures r.end.Completed? <==> start + count + 1 > n.tip(count)
    ensures r.end.Completed? ==> r.end.crawled == count
    // the shutdown flag answers null
    ensures var i := start + count + 1;
      i <= n.tip(count) && n.exitAt(i) ==> r.end == Halted(Success(None))
    // a failed hash fetch or crawl answers null to a pushed run and is
    // rethrown by a polling run
    ensures var i := start + count + 1;
      i <= n.tip(count) && !n.exitAt(i) && n.blockHash(i).None? ==>
        r.end == Halted(if pushed then Success(None) else Failure(BlockHashUnavailable(i)))
    ensures var i := start + count + 1;
      i <= n.tip(count) && !n.exitAt(i) && n.blockHash(i).Some? ==>
        r.end == Halted(if pushed then Success(None) else Failure(CrawlFailed(i)))
  {
    var index := start + count + 1;
    if index > n.tip(count) then LoopRun([], Completed(count))
    else if n.exitAt(index) then LoopRun([], Halted(Success(None)))
    else if n.blockHash(index).None? then
      LoopRun([], Halted(if pushed then Success(None) else Failure(BlockHashUnavailable(index))))
    else
      LoopRun([], Halted(if pushed then Success(None) else Failure(CrawlFailed(index))))
  }

  /** The catch-up loop, with `count` heights already crawled since the
      checkpoint `start`: the next height is `start + count + 1` and the tip
      last read is `tip(count)`.  A failure of the node or of the crawl ends a
      pushed run with `null` and throws otherwise. */
  function BlockLoop(n: Node, pushed: bool, start: int, count: nat, bound: int): (r: LoopRun)
    requires forall k :: n.tip(k) <= bound
    // a completed loop has caught up with the last tip it read
    ensures r.end.Completed? ==> r.end.crawled >= count && start + r.end.crawled >= n.tip(r.end.crawled)
    // a pushed run never throws; otherwise only the node or the crawl can fail
    ensures pushed && r.end.Halted? ==> r.end.result == Success(None)
    ensures r.end.Halted? ==> r.end.result.Failure? || r.end.result == Success(None)
    ensures r.end.Halted? && r.end.result.Failure? ==>
      r.end.result.error.BlockHashUnavailable? || r.end.result.error.CrawlFailed?
    decreases bound - (start + count)
  {
    if !Continues(n, start, count) then LoopStop(n, pushed, start, count)
    else
      var index := start + count + 1;
      var h := n.blockHash(index).value;
      var rest := BlockLoop(n, pushed, start, count + 1, bound);
      LoopRun(BlockEffects(index, h) + rest.effects, rest.end)
  }

  /** `k` is the first count from `count` on at which the loop does not go on. */
  predicate FirstStop(n: Node, start: int, count: nat, k: nat) {
    && k >= count
    && (forall j :: count <= j < k ==> Continues(n, start, j))
    && !Continues(n, start, k)
  }

  /** A loop that returns early does so at the first height that does not go
      on, with the answer `LoopStop` gives for that height's stop cause. */
  lemma {:induction false} BlockLoopHalts(n: Node, pushed: bool, start: int, count: nat, bound: int)
    requires forall k :: n.tip(k) <= bound
    ensures var r := BlockLoop(n, pushed, start, count, bound);
      r.end.Halted? ==> exists k: nat :: FirstStop(n, start, count, k) && r.end == LoopStop(n, pushed, start, k).end
    decreases bound - (start + count)
  {
    var r := BlockLoop(n, pushed, start, count, bound);
    if Continues(n, start, count) {
      BlockLoopRecurse(n, pushed, start, count, bound);
      BlockLoopHalts(n, pushed, start, count + 1, bound);
      if r.end.Halted? {
        var k: nat :| FirstStop(n, start, count + 1, k) && r.end == LoopStop(n, pushed, start, k).end;
        FirstStopExtends(n, start, count, k);
      }
    } else {
      BlockLoopLast(n, pushed, start, count, bound);
      assert FirstStop(n, start, count, count);
    }
  }

  /** A first stop after a count that goes on is a first stop from that count. */
  lemma FirstStopExtends(n: Node, start: int, count: nat, k: nat)
    requires Continues(n, start, count) && FirstStop(n, start, count + 1, k)
    ensures FirstStop(n, start, count, k)
  {
  }

  /** The block hashes the loop pushes onto the ignore list: each crawled
      block's hash, pushed just before its checkpoint is written. */
  function CheckpointHashes(fx: seq<SyncEffect>): set<BlockHash> {
    set e | e in fx && e.UpdateCheckpoint? :: e.hash
  }

  /** A step that goes on: the block's effects in front of the rest of the loop. */
  lemma BlockLoopRecurse(n: Node, pushed: bool, start: int, count: nat, bound: int)
    requires forall k :: n.tip(k) <= bound
    requires Continues(n, start, count)
    ensures var index := start + count + 1;
      var rest := BlockLoop(n, pushed, start, count + 1, bound);
      var r := BlockLoop(n, pushed, start, count, bound);
      r.effects == BlockEffects(index, n.blockHash(index).value) + rest.effects && r.end == rest.end
  {
  }

  /** A step that stops: no effects. */
  lemma BlockLoopLast(n: Node, pushed: bool, start: int, count: nat, bound: int)
    requires forall k :: n.tip(k) <= bound
    requires !Continues(n, start, count)
    ensures var r := BlockLoop(n, pushed, start, count, bound);
      && r.effects == []
      && (r.end.Completed? <==> start + count + 1 > n.tip(count))
      && (r.end.Completed? ==> r.end.crawled == count)
  {
  }

  /** The loop checkpoints the heights it crawls one by one, upward from the
      checkpoint. */
  lemma {:induction false} BlockLoopAscends(n: Node, pushed: bool, start: int, count: nat, bound: int)
    requires forall k :: n.tip(k) <= bound
    ensures Ascends(Checkpointed(BlockLoop(n, pushed, start, count, bound).effects), start + count + 1)
    decreases bound - (start + count)
  {
    var index := start + count + 1;
    if Continues(n, start, count) {
      var h := n.blockHash(index).value;
      var rest := BlockLoop(n, pushed, start, count + 1, bound);
      BlockLoopAscends(n, pushed, start, count + 1, bound);
      BlockLoopRecurse(n, pushed, start, count, bound);
      StepAscends(BlockEffects(index, h), rest.effects, index, h);
    } else {
      BlockLoopLast(n, pushed, start, count, bound);
    }
  }

  /** Every checkpoint in `fx` is the node's hash for a height above `low`. */
  ghost predicate CheckpointsKnown(n: Node, fx: seq<SyncEffect>, low: int) {
    forall i :: 0 <= i < |fx| && fx[i].UpdateCheckpoint? ==> fx[i].height > low && n.blockHash(fx[i].height) == Some(fx[i].hash)
  }

  lemma CheckpointsKnownStep(n: Node, index: int, h: BlockHash, rest: seq<SyncEffect>)
    requires n.blockHash(index) == Some(h)
    requires CheckpointsKnown(n, rest, index)
    ensures CheckpointsKnown(n, BlockEffects(index, h) + rest, index - 1)
  {
    var head := BlockEffects(index, h);
    var fx := head + rest;
    forall i | 0 <= i < |fx| && fx[i].UpdateCheckpoint?
      ensures fx[i].height > index - 1 && n.blockHash(fx[i].height) == Some(fx[i].hash)
    {
      if i < |head| {
        assert fx[i] in head;
      } else {
        assert fx[i] == rest[i - |head|];
      }
    }
  }

  /** Every checkpoint the loop writes is the node's hash for a height above
      the checkpoint it started from. */
  lemma {:induction false} BlockLoopCheckpointsKnown(n: Node, pushed: bool, start: int, count: nat, bound: int)
    requires forall k :: n.tip(k) <= bound
    ensures CheckpointsKnown(n, BlockLoop(n, pushed, start, count, bound).effects, start + count)
    decreases bound - (start + count)
  {
    var index := start + count + 1;
    if Continues(n, start, count) {
      var h := n.blockHash(index).value;
      var rest := BlockLoop(n, pushed, start, count + 1, bound);
      BlockLoopCheckpointsKnown(n, pushed, start, count + 1, bound);
      BlockLoopRecurse(n, pushed, start, count, bound);
      CheckpointsKnownStep(n, index, h, rest.effects);
    } else {
      BlockLoopLast(n, pushed, start, count, bound);
    }
  }

  /** A completed loop has checkpointed exactly the heights it counts. */
  lemma {:induction false} BlockLoopCounts(n: Node, pushed: bool, start: int, count: nat, bound: int)
    requires forall k :: n.tip(k) <= bound
    ensures var r := BlockLoop(n, pushed, start, count, bound);
      r.end.Completed? ==> |Checkpointed(r.effects)| == r.end.crawled - count
    decreases bound - (start + count)
  {
    var index := start + count + 1;
    if Continues(n, start, count) {
      var h := n.blockHash(index).value;
      var rest := BlockLoop(n, pushed, start, count + 1, bound);
      BlockLoopCounts(n, pushed, start, count + 1, bound);
      BlockLoopRecurse(n, pushed, start, count, bound);
      StepCount(index, h, rest.effects);
    } else {
      BlockLoopLast(n, pushed, start, count, bound);
    }
  }

  lemma StepCount(index: int, h: BlockHash, rest: seq<SyncEffect>)
    ensures |Checkpointed(BlockEffects(index, h) + rest)| == |Checkpointed(rest)| + 1
  {
    CheckpointedAppend(BlockEffects(index, h), rest);
    BlockEffectsCheckpoint(index, h);
  }

  lemma StepAscends(fx: seq<SyncEffect>, rest: seq<SyncEffect>, index: int, h: BlockHash)
    requires fx == BlockEffects(index, h)
    requires Ascends(Checkpointed(rest), index + 1)
    ensures Ascends(Checkpointed(fx + rest), index)
    ensures |Checkpointed(fx + rest)| == |Checkpointed(rest)| + 1
  {
    CheckpointedAppend(fx, rest);
    BlockEffectsCheckpoint(index, h);
    var cs := Checkpointed(fx + rest);
    var tail := Checkpointed(rest);
    assert cs == [index] + tail;
    forall i | 0 <= i < |cs|
      ensures cs[i] == index + i
    {
      if i > 0 {
        assert cs[i] == tail[i - 1];
      }
    }
  }

  /** The outcome of a block sync. */
  datatype BlockSync = BlockSync(effects: seq<SyncEffect>, ignore: set<BlockHash>, result: SyncResult)

  function ReorgEffects(fx: seq<ReorgEffect>): (r: seq<SyncEffect>)
    ensures |r| == |fx| && forall i :: 0 <= i < |fx| ==> r[i] == Reorged(fx[i])
  {
    seq(|fx|, i requires 0 <= i < |fx| => Reorged(fx[i]))
  }

  /** `sync(self, 'block', zmqHash)`.  A pushed block hash first runs the
      reorg check from that block's height; `checkpoint` is the stored
      checkpoint height read afterwards and `from` the configured start
      height.  The loop crawls up to the tip, the mempool is reconciled after
      a pushed run, and the answer is the empty map when the checkpoint has
      reached the last tip read and `null` otherwise.  `intended` selects the
      corrected reorg check (`Reorg.CheckForBlockReorgIntended`) over the
      one as written. */
  function SyncBlocks(n: Node, from: int, pushedHash: Option<BlockHash>, checkpoint: int,
                      ignore: set<BlockHash>, bound: int, intended: bool): (r: BlockSync)
    requires forall k :: n.tip(k) <= bound
    ensures ignore <= r.ignore
    // a non-null answer means the run caught up with the node
    ensures r.result.Success? && r.result.value.Some? ==> r.result.value.value == map[]
    ensures r.result.Success? && r.result.value.Some? ==> exists m: nat :: checkpoint + m == n.tip(m)
    // a pushed run can only throw when the node does not know the block or
    // the reorg check gives up
    ensures pushedHash.Some? && r.result.Failure? ==> r.result.error == UnknownBlock || r.result.error.ReorgFailed?
    ensures pushedHash.None? ==> r.result.Failure? ==>
      r.result.error.BlockHashUnavailable? || r.result.error.CrawlFailed?
  {
    var pre: Result<seq<SyncEffect>, BlockSync> :=
      match pushedHash
      case None => Success([])
      case Some(zh) =>
        match n.heightOf(zh)
        case None => Failure(BlockSync([], ignore, Failure(UnknownBlock)))
        case Some(height) =>
          var check := RunCheck(ChainOf(n), from, height, intended);
          if check.result.Failure? then
            Failure(BlockSync(ReorgEffects(check.effects), ignore, Failure(ReorgFailed(check.result.error))))
          else Success(ReorgEffects(check.effects));
    match pre
    case Failure(early) => early
    case Success(fxReorg) =>
      var pushed := pushedHash.Some?;
      var loop := BlockLoop(n, pushed, checkpoint, 0, bound);
      var ignore' := ignore + CheckpointHashes(loop.effects);
      match loop.end
      case Halted(res) => BlockSync(fxReorg + loop.effects, ignore', res)
      case Completed(m) =>
        var fx := fxReorg + loop.effects + (if pushed then [ReconcileMempool] else []);
        BlockSync(fx, ignore', Success(if checkpoint + m == n.tip(m) then Some(map[]) else None))
  }

  /** The part of a block sync before the loop goes through: no block was
      pushed, or the node knows the pushed block and the reorg check from
      its height succeeds. */
  predicate PreludePasses(n: Node, from: int, pushedHash: Option<BlockHash>, intended: bool) {
    match pushedHash
    case None => true
    case Some(zh) =>
      n.heightOf(zh).Some? && RunCheck(ChainOf(n), from, n.heightOf(zh).value, intended).result.Success?
  }

  /** The reorg check's effects checkpoint nothing. */
  lemma {:induction false} ReorgEffectsCheckpointNothing(fx: seq<ReorgEffect>)
    ensures Checkpointed(ReorgEffects(fx)) == []
    decreases |fx|
  {
    if |fx| > 0 {
      var r := ReorgEffects(fx);
      assert r[1..] == ReorgEffects(fx[1..]);
      ReorgEffectsCheckpointNothing(fx[1..]);
    }
  }

  /** A block sync, pushed or polling, answers with the empty map exactly
      when the reorg check (if any) went through, the loop crawled every
      height up to the last tip it read and that tip is the new checkpoint.
      The checkpoints written are the heights above the old one, in order,
      and after a completed loop exactly as many as it crawled. */
  lemma SyncBlocksCaughtUp(n: Node, from: int, pushedHash: Option<BlockHash>, checkpoint: int,
                           ignore: set<BlockHash>, bound: int, intended: bool)
    requires forall k :: n.tip(k) <= bound
    ensures var r := SyncBlocks(n, from, pushedHash, checkpoint, ignore, bound, intended);
      var loop := BlockLoop(n, pushedHash.Some?, checkpoint, 0, bound);
      && (r.result == Success(Some(map[])) <==>
            && PreludePasses(n, from, pushedHash, intended)
            && loop.end.Completed? && checkpoint + loop.end.crawled == n.tip(loop.end.crawled))
      && Ascends(Checkpointed(r.effects), checkpoint + 1)
      && (PreludePasses(n, from, pushedHash, intended) && loop.end.Completed? ==>
            |Checkpointed(r.effects)| == loop.end.crawled)
  {
    var pushed := pushedHash.Some?;
    var loop := BlockLoop(n, pushed, checkpoint, 0, bound);
    BlockLoopAscends(n, pushed, checkpoint, 0, bound);
    BlockLoopCounts(n, pushed, checkpoint, 0, bound);
    var r := SyncBlocks(n, from, pushedHash, checkpoint, ignore, bound, intended);
    var ignore' := ignore + CheckpointHashes(loop.effects);
    match pushedHash
    case None =>
      assert [] + loop.effects == loop.effects;
      match loop.end {
        case Halted(res) =>
          assert r == BlockSync(loop.effects, ignore', res);
        case Completed(m) =>
          assert loop.effects + [] == loop.effects;
          assert r == BlockSync(loop.effects, ignore', Success(if checkpoint + m == n.tip(m) then Some(map[]) else None));
      }
    case Some(zh) =>
      match n.heightOf(zh)
      case None =>
        assert r == BlockSync([], ignore, Failure(UnknownBlock));
      case Some(height) =>
        var check := RunCheck(ChainOf(n), from, height, intended);
        var fxReorg := ReorgEffects(check.effects);
        ReorgEffectsCheckpointNothing(check.effects);
        if check.result.Failure? {
          assert r == BlockSync(fxReorg, ignore, Failure(ReorgFailed(check.result.error)));
        } else {
          CheckpointedAppend(fxReorg, loop.effects);
          match loop.end {
            case Halted(res) =>
              assert r == BlockSync(fxReorg + loop.effects, ignore', res);
            case Completed(m) =>
              var fx := fxReorg + loop.effects;
              CheckpointedAppend(fx, [ReconcileMempool]);
              assert Checkpointed([ReconcileMempool]) == [];
              assert r == BlockSync(fx + [ReconcileMempool], ignore',
                                    Success(if checkpoint + m == n.tip(m) then Some(map[]) else None));
          }
        }
  }

  /** A pushed run that completes ends by reconciling the mempool. */
  lemma PushedSyncReconciles(n: Node, from: int, zh: BlockHash, checkpoint: int,
                             ignore: set<BlockHash>, bound: int, intended: bool)
    requires forall k :: n.tip(k) <= bound
    requires n.heightOf(zh).Some?
    requires RunCheck(ChainOf(n), from, n.heightOf(zh).value, intended).result.Success?
    requires BlockLoop(n, true, checkpoint, 0, bound).end.Completed?
    ensures var r := SyncBlocks(n, from, Some(zh), checkpoint, ignore, bound, intended);
      |r.effects| > 0 && r.effects[|r.effects| - 1] == ReconcileMempool && r.result.Success?
  {
  }

  // ---------------------------------------------------------------------
  // Block notifications

  /** The block-hash handler: a hash already seen is dropped; a new one is
      remembered and starts a sync. */
  function OnBlockHash(ignore: set<BlockHash>, hash: BlockHash): (r: (set<BlockHash>, bool))
    ensures r.0 == ignore + {hash}
    ensures r.1 <==> hash !in ignore
  {
    if hash in ignore then (ignore, false) else (ignore + {hash}, true)
  }

  /** Notifying the same block twice starts at most one sync. */
  lemma SecondNotificationIsDropped(ignore: set<BlockHash>, hash: BlockHash)
    ensures !OnBlockHash(OnBlockHash(ignore, hash).0, hash).1
  {
  }

  /** A block the catch-up loop checkpointed is the node's block at that
      height, and it is not synced again when its notification arrives
      afterwards. */
  lemma CrawledBlockNotificationIsDropped(n: Node, from: int, pushedHash: Option<BlockHash>, checkpoint: int,
                                          ignore: set<BlockHash>, bound: int, intended: bool)
    requires forall k :: n.tip(k) <= bound
    ensures var r := SyncBlocks(n, from, pushedHash, checkpoint, ignore, bound, intended);
      forall e :: e in r.effects && e.UpdateCheckpoint? ==>
        n.blockHash(e.height) == Some(e.hash) && !OnBlockHash(r.ignore, e.hash).1
  {
    var r := SyncBlocks(n, from, pushedHash, checkpoint, ignore, bound, intended);
    var loop := BlockLoop(n, pushedHash.Some?, checkpoint, 0, bound);
    BlockLoopCheckpointsKnown(n, pushedHash.Some?, checkpoint, 0, bound);
    forall e | e in r.effects && e.UpdateCheckpoint?
      ensures n.blockHash(e.height) == Some(e.hash) && !OnBlockHash(r.ignore, e.hash).1
    {
      CheckpointInLoop(n, from, pushedHash, checkpoint, ignore, bound, intended, e);
      var k :| 0 <= k < |loop.effects| && loop.effects[k] == e;
    }
  }

  /** A checkpoint a block sync writes comes from its loop, and its hash is
      on the ignore list afterwards. */
  lemma CheckpointInLoop(n: Node, from: int, pushedHash: Option<BlockHash>, checkpoint: int,
                         ignore: set<BlockHash>, bound: int, intended: bool, e: SyncEffect)
    requires forall k :: n.tip(k) <= bound
    requires e.UpdateCheckpoint? && e in SyncBlocks(n, from, pushedHash, checkpoint, ignore, bound, intended).effects
    ensures e in BlockLoop(n, pushedHash.Some?, checkpoint, 0, bound).effects
    ensures e.hash in SyncBlocks(n, from, pushedHash, checkpoint, ignore, bound, intended).ignore
  {
    var r := SyncBlocks(n, from, pushedHash, checkpoint, ignore, bound, intended);
    var loop := BlockLoop(n, pushedHash.Some?, checkpoint, 0, bound);
    if pushedHash.Some? && n.heightOf(pushedHash.value).Some? {
      var check := RunCheck(ChainOf(n), from, n.heightOf(pushedHash.value).value, intended);
      var pre := ReorgEffects(check.effects);
      assert e !in pre;
      if check.result.Success? {
        assert r.ignore == ignore + CheckpointHashes(loop.effects);
        assert e in loop.effects;
      }
    } else if pushedHash.None? {
      assert r.ignore == ignore + CheckpointHashes(loop.effects);
      assert e in loop.effects;
    }
  }

  // ---------------------------------------------------------------------
  // Mempool sync

  /** How the unconfirmed-store insert ends: stored, rejected as a duplicate
      key (error code 11000), or any other error. */
  datatype InsertOutcome = Inserted | DuplicateKey | InsertError

  /** `sync(self, 'mempool', zmqHash, txhex)`: the transaction comes from the
      tracked mempool, else, unless it is ignored, from the supplied bytes
      through the protocol filter.  A found transaction is inserted into the
      unconfirmed store; the answer maps its txid to its bytes when the insert
      succeeds. */
  function SyncMempool(p: Parser, st: MempoolState, txid: Option<Txid>, txhex: Option<Bytes>,
                       insert: InsertOutcome): (r: SyncResult)
    ensures txid.None? || txid == Some("") ==> r == Failure(MissingTxid)
    ensures r == Failure(MissingHex) <==>
      txid.Some? && txid.value != "" && txid.value !in st.slpMempool && txid.value !in st.ignored && (txhex.None? || txhex.value == [])
    // a tracked transaction is stored from the tracked bytes
    ensures txid.Some? && txid.value != "" && txid.value in st.slpMempool ==>
      r == match insert
           case Inserted => Success(Some(map[txid.value := st.slpMempool[txid.value]]))
           case DuplicateKey => Success(Some(map[]))
           case InsertError => Failure(InsertFailed)
    // an ignored, untracked transaction is skipped
    ensures txid.Some? && txid.value != "" && txid.value !in st.slpMempool && txid.value in st.ignored ==>
      r == Success(Some(map[]))
    // a supplied transaction is stored only when the filter accepts it
    ensures txid.Some? && txid.value != "" && txid.value !in st.slpMempool && txid.value !in st.ignored && txhex.Some? && txhex.value != [] ==>
      (r.Success? && r.value.Some? && r.value.value != map[] <==>
        IsRelevant(p, txhex.value) && insert == Inserted)
    ensures r.Success? && r.value.Some? ==> r.value.value.Keys <= {txid.value}
  {
    if txid.None? || txid.value == "" then Failure(MissingTxid)
    else
      var z := txid.value;
      var found: Result<Option<Bytes>, SyncError> :=
        if z in st.slpMempool then Success(Some(st.slpMempool[z]))
        else if z in st.ignored then Success(None)
        else if txhex.None? || txhex.value == [] then Failure(MissingHex)
        else if ApplySlpTxnFilter(p, txhex.value).Some? then Success(Some(txhex.value))
        else Success(None);
      match found
      case Failure(e) => Failure(e)
      case Success(None) => Success(Some(map[]))
      case Success(Some(raw)) =>
        match insert
        case Inserted =>
          assert z in map[z := raw];
          Success(Some(map[z := raw]))
        case DuplicateKey => Success(Some(map[]))
        case InsertError => Failure(InsertFailed)
  }

  // ---------------------------------------------------------------------
  // Raw transaction notifications

  datatype RawOutcome = RawOutcome(step: MempoolStep, sync: Option<SyncResult>)

  /** The txid a raw notification is handled under: the one supplied, or the
      transaction's own hash. */
  function NotifiedTxid(p: Parser, txnBuf: Bytes, txid: Option<Txid>): Txid {
    if txid.Some? && txid.value != "" then txid.value else p.hashOf(txnBuf)
  }

  /** `handleRawTransaction`: run the mempool handler and, when it accepts the
      transaction, the mempool sync for it (without bytes). */
  function HandleRawTransaction(p: Parser, st: MempoolState, txnBuf: Bytes, txid: Option<Txid>,
                                fetch: Txid -> Option<Bytes>, insert: InsertOutcome): (r: RawOutcome)
    ensures r.step == HandleMempoolTransaction(p, st, NotifiedTxid(p, txnBuf, txid), Some(txnBuf), fetch)
    ensures r.sync.Some? <==> r.step.verdict.added
    // an accepted transaction is found in the tracked mempool, so the sync
    // never asks for bytes, and stores exactly the notified bytes
    ensures r.sync.Some? ==> r.sync.value != Failure(MissingHex)
    ensures r.sync.Some? && NotifiedTxid(p, txnBuf, txid) != "" && insert == Inserted ==>
      r.sync.value == Success(Some(map[NotifiedTxid(p, txnBuf, txid) := txnBuf]))
  {
    var id := NotifiedTxid(p, txnBuf, txid);
    var step := HandleMempoolTransaction(p, st, id, Some(txnBuf), fetch);
    if step.verdict.added then RawOutcome(step, Some(SyncMempool(p, step.state, Some(id), None, insert)))
    else RawOutcome(step, None)
  }
}

=== FILE: toposort.dfy ===
/** The dependency sorter (bit.ts `topologicalSort` / `topologicalSortInternal`):
    a depth-first post-order traversal of a batch of transactions in which a
    transaction is pushed only after every not-yet-visited parent of it that
    belongs to the same batch.  The source's `counter % 1000` branches make the
    same call on both sides, so a single recursion models them. */
module TopoSort {
  import opened Types

  /** A batch: each member txid mapped to the previous txids of its inputs, in
      input order.  Keys are the transactions' own hashes, as both callers
      build them. */
  type Batch = map<Txid, seq<Txid>>

  /** The traversal's mutable state: the visited set and the output stack. */
  datatype DfsState = DfsState(visited: set<Txid>, stack: seq<Txid>)

  /** The state invariant every call keeps: everything pushed was visited, and
      nothing is pushed twice. */
  predicate Consistent(st: DfsState) {
    Elems(st.stack) <= st.visited && NoDup(st.stack)
  }

  /** One call of `topologicalSortInternal`: mark `tx` visited, recurse into
      every in-batch parent that is still unvisited, then push `tx`. */
  function Visit(batch: Batch, tx: Txid, st: DfsState): (r: DfsState)
    requires tx in batch && tx !in st.visited
    requires Consistent(st)
    ensures Consistent(r)
    ensures st.visited + {tx} <= r.visited <= st.visited + batch.Keys
    ensures Extends(st.stack, r.stack) && |r.stack| > 0 && r.stack[|r.stack| - 1] == tx
    ensures Elems(r.stack) == Elems(st.stack) + (r.visited - st.visited)
    decreases batch.Keys - st.visited, 0, 0
  {
    var st1 := DfsState(st.visited + {tx}, st.stack);
    var st2 := VisitParents(batch, batch[tx], st1);
    assert tx !in Elems(st2.stack);
    AppendFresh(st2.stack, tx);
    DfsState(st2.visited, st2.stack + [tx])
  }

  /** The loop over the inputs of one transaction: a parent is followed only
      when it is in the batch and not yet visited. */
  function VisitParents(batch: Batch, ps: seq<Txid>, st: DfsState): (r: DfsState)
    requires Consistent(st)
    ensures Consistent(r)
    ensures st.visited <= r.visited <= st.visited + batch.Keys
    ensures Extends(st.stack, r.stack)
    ensures Elems(r.stack) == Elems(st.stack) + (r.visited - st.visited)
    ensures forall p :: p in ps && p in batch ==> p in r.visited
    decreases batch.Keys - st.visited, 1, |ps|
  {
    if |ps| == 0 then st
    else
      var p := ps[0];
      if p in st.visited || p !in batch then
        VisitParents(batch, ps[1..], st)
      else
        var st' := Visit(batch, p, st);
        assert batch.Keys - st'.visited < batch.Keys - st.visited by {
          assert p in batch.Keys - st.visited && p !in batch.Keys - st'.visited;
        }
        VisitParents(batch, ps[1..], st')
  }

  /** The outer loop of `topologicalSort`: start a traversal at every member,
      in the batch's iteration order, that is not yet visited. */
  function SortFrom(batch: Batch, order: seq<Txid>, st: DfsState): (r: DfsState)
    requires Elems(order) <= batch.Keys
    requires Consistent(st) && Elems(st.stack) == st.visited
    ensures Consistent(r) && Elems(r.stack) == r.visited
    ensures st.visited + Elems(order) <= r.visited <= st.visited + batch.Keys
    ensures Extends(st.stack, r.stack)
    decreases |order|
  {
    if |order| == 0 then st
    else
      var next := SortStep(batch, order[0], st);
      var r := SortFrom(batch, order[1..], next);
      assert Elems(order) == {order[0]} + Elems(order[1..]);
      assert r.stack[..|st.stack|] == st.stack by {
        assert r.stack[..|next.stack|] == next.stack;
      }
      r
  }

  /** One iteration of the outer loop: visit `tx` unless it is already visited. */
  function SortStep(batch: Batch, tx: Txid, st: DfsState): (r: DfsState)
    requires tx in batch
    requires Consistent(st) && Elems(st.stack) == st.visited
    ensures Consistent(r) && Elems(r.stack) == r.visited
    ensures st.visited + {tx} <= r.visited <= st.visited + batch.Keys
    ensures Extends(st.stack, r.stack)
  {
    if tx in st.visited then st else Visit(batch, tx, st)
  }

  /** The sorted stack for a batch whose iteration order is `order`.  Every
      member is emitted exactly once, whether or not the batch is acyclic, so
      the callers' "count is incorrect" check can never fire. */
  function TopologicalSort(batch: Batch, order: seq<Txid>): (r: seq<Txid>)
    requires Elems(order) == batch.Keys
    ensures NoDup(r)
    ensures Elems(r) == batch.Keys
    ensures |r| == |batch|
  {
    var st := SortFrom(batch, order, DfsState({}, []));
    NoDupCard(st.stack);
    st.stack
  }

  /** `rank` witnesses that the batch is acyclic: along every in-batch
      spends-from edge the parent has a strictly smaller rank. */
  ghost predicate Ranked(batch: Batch, rank: Txid -> nat) {
    forall c, p :: c in batch && p in batch[c] && p in batch ==> rank(p) < rank(c)
  }

  /** Every in-batch parent of the member at position `i` occurs before it. */
  ghost predicate ParentsBefore(batch: Batch, s: seq<Txid>, i: int)
    requires 0 <= i < |s|
  {
    s[i] in batch && forall p :: p in batch[s[i]] && p in batch ==> p in s[..i]
  }

  /** Every member of `s` has all of its in-batch parents earlier in `s`. */
  ghost predicate Ordered(batch: Batch, s: seq<Txid>) {
    forall i :: 0 <= i < |s| ==> ParentsBefore(batch, s, i)
  }

  lemma OrderedPrefix(batch: Batch, s: seq<Txid>, t: seq<Txid>)
    requires Extends(s, t) && Ordered(batch, t)
    ensures Ordered(batch, s)
  {
    forall i | 0 <= i < |s|
      ensures ParentsBefore(batch, s, i)
    {
      assert t[i] == s[i] && t[..i] == s[..i];
      assert ParentsBefore(batch, t, i);
    }
  }

  lemma OrderedAppend(batch: Batch, s: seq<Txid>, x: Txid)
    requires Ordered(batch, s) && x in batch
    requires forall p :: p in batch[x] && p in batch ==> p in s
    ensures Ordered(batch, s + [x])
  {
    var t := s + [x];
    forall i | 0 <= i < |t|
      ensures ParentsBefore(batch, t, i)
    {
      assert t[..i] == if i < |s| then s[..i] else s;
      if i < |s| {
        assert t[i] == s[i];
        assert ParentsBefore(batch, s, i);
      }
    }
  }

  /** The heart of the ordering argument: while `tx` is being visited, every
      node that is visited but not yet pushed (the current DFS path) has a
      rank above that of `tx`, so an already-visited parent of `tx` is always
      one that was already pushed. */
  lemma {:induction false} VisitOrdered(batch: Batch, rank: Txid -> nat, tx: Txid, st: DfsState)
    requires tx in batch && tx !in st.visited && Consistent(st)
    requires Ranked(batch, rank) && Ordered(batch, st.stack)
    requires forall g :: g in st.visited && g !in Elems(st.stack) ==> rank(g) > rank(tx)
    ensures Ordered(batch, Visit(batch, tx, st).stack)
    decreases batch.Keys - st.visited, 0, 0
  {
    var st1 := DfsState(st.visited + {tx}, st.stack);
    VisitParentsOrdered(batch, rank, tx, batch[tx], st1);
    var st2 := VisitParents(batch, batch[tx], st1);
    OrderedAppend(batch, st2.stack, tx);
  }

  lemma {:induction false} VisitParentsOrdered(batch: Batch, rank: Txid -> nat, tx: Txid, ps: seq<Txid>, st: DfsState)
    requires Consistent(st) && tx in batch
    requires Ranked(batch, rank) && Ordered(batch, st.stack)
    requires forall p :: p in ps ==> p in batch[tx]
    requires forall g :: g in st.visited && g !in Elems(st.stack) ==> rank(g) >= rank(tx)
    ensures Ordered(batch, VisitParents(batch, ps, st).stack)
    ensures forall p :: p in ps && p in batch ==> p in VisitParents(batch, ps, st).stack
    decreases batch.Keys - st.visited, 1, |ps|
  {
    var r := VisitParents(batch, ps, st);
    if |ps| > 0 {
      var p := ps[0];
      if p in st.visited || p !in batch {
        VisitParentsOrdered(batch, rank, tx, ps[1..], st);
        if p in batch {
          assert rank(p) < rank(tx);
          assert p in Elems(st.stack);
          assert r.stack[..|st.stack|] == st.stack;
        }
      } else {
        var st' := Visit(batch, p, st);
        assert batch.Keys - st'.visited < batch.Keys - st.visited by {
          assert p in batch.Keys - st.visited && p !in batch.Keys - st'.visited;
        }
        VisitOrdered(batch, rank, p, st);
        assert st'.visited - Elems(st'.stack) == st.visited - Elems(st.stack);
        VisitParentsOrdered(batch, rank, tx, ps[1..], st');
        assert p == st'.stack[|st'.stack| - 1];
        assert r.stack[..|st'.stack|] == st'.stack;
      }
    }
  }

  lemma {:induction false} SortFromOrdered(batch: Batch, rank: Txid -> nat, order: seq<Txid>, st: DfsState)
    requires Elems(order) <= batch.Keys
    requires Consistent(st) && Elems(st.stack) == st.visited
    requires Ranked(batch, rank) && Ordered(batch, st.stack)
    ensures Ordered(batch, SortFrom(batch, order, st).stack)
    decreases |order|
  {
    if |order| > 0 {
      if order[0] in st.visited {
        SortFromOrdered(batch, rank, order[1..], st);
      } else {
        VisitOrdered(batch, rank, order[0], st);
        SortFromOrdered(batch, rank, order[1..], Visit(batch, order[0], st));
      }
    }
  }

  /** In a duplicate-free ordered sequence, a parent's position is below its child's. */
  lemma OrderedIndices(batch: Batch, s: seq<Txid>)
    requires Ordered(batch, s) && NoDup(s) && Elems(s) <= batch.Keys
    ensures forall i, j :: 0 <= i < |s| && 0 <= j < |s| && s[j] in batch[s[i]] ==> j < i
  {
    forall i, j | 0 <= i < |s| && 0 <= j < |s| && s[j] in batch[s[i]]
      ensures j < i
    {
      assert ParentsBefore(batch, s, i);
      assert s[j] in Elems(s);
      assert s[j] in s[..i];
      var k :| 0 <= k < i && s[..i][k] == s[j];
      assert s[k] == s[j];
    }
  }

  /** For an acyclic batch the sorted stack is a topological order: whenever
      a member spends from another member, the parent comes first. */
  lemma ParentsPrecedeChildren(batch: Batch, order: seq<Txid>, rank: Txid -> nat)
    requires Elems(order) == batch.Keys
    requires Ranked(batch, rank)
    ensures var s := TopologicalSort(batch, order);
      forall i, j :: 0 <= i < |s| && 0 <= j < |s| && s[j] in batch[s[i]] ==> j < i
  {
    var s := TopologicalSort(batch, order);
    SortFromOrdered(batch, rank, order, DfsState({}, []));
    assert s == SortFrom(batch, order, DfsState({}, [])).stack;
    OrderedIndices(batch, s);
  }
}

=== FILE: types.dfy ===
/** Shared vocabulary of the synchroniser model: optional and fallible values,
    the identifiers the indexer keys everything by, and a few facts about
    duplicate-free sequences used by several components. */
module Types {

  /** A value that may be absent (the source's `null` / `undefined`). */
  datatype Option<+T> = None | Some(value: T)

  /** The outcome of an operation that may throw. */
  datatype Result<+T, +E> = Success(value: T) | Failure(error: E)

  /** Hex strings as the source handles them. */
  type Hash = string
  type Txid = string
  type TokenId = string

  /** Raw serialised transactions and blocks. */
  type Bytes = seq<bv8>

  /** An output being spent: the source keys it as the string "prevHash:index". */
  datatype Outpoint = Outpoint(prevHash: Hash, index: nat)

  /** The set of elements of a sequence. */
  function Elems<T>(s: seq<T>): set<T> {
    set x | x in s
  }

  /** `a` is a prefix of `b`. */
  predicate Extends<T(==)>(a: seq<T>, b: seq<T>) {
    |a| <= |b| && b[..|a|] == a
  }

  /** No element occurs twice. */
  predicate NoDup<T(==)>(s: seq<T>) {
    forall i, j :: 0 <= i < j < |s| ==> s[i] != s[j]
  }

  /** A duplicate-free sequence has as many distinct elements as positions. */
  lemma {:induction false} NoDupCard<T>(s: seq<T>)
    requires NoDup(s)
    ensures |Elems(s)| == |s|
  {
    if |s| > 0 {
      var t := s[..|s| - 1];
      var last := s[|s| - 1];
      assert NoDup(t);
      NoDupCard(t);
      assert s == t + [last];
      assert last !in t;
      assert Elems(s) == Elems(t) + {last};
    }
  }

  /** Appending a fresh element keeps a sequence duplicate-free. */
  lemma AppendFresh<T>(s: seq<T>, x: T)
    requires NoDup(s) && x !in s
    ensures NoDup(s + [x])
  {
    var t := s + [x];
    forall i, j | 0 <= i < j < |t|
      ensures t[i] != t[j]
    {
      if j == |s| {
        assert t[i] == s[i];
      }
    }
  }
}
